=== FILE: README.md ===
# Synology photo platform — server-side core in Dafny

This project models the decision logic of a self-hosted photo gallery. The
gallery sits in front of a Synology Photos server. The modelled logic covers:

- **Visibility policy.** A folder whose title ends in "(hide)" and an item
  tagged "hide" are never shown.
- **Record normalisation.** Upstream records are turned into the gallery's
  collections and items.
- **Root-folder boundary check.** It fails closed.
- **Item resolution.** A folder-scan cache with a TTL, a paginated scan, and
  direct lookups by several id keys.
- **Upstream call pipeline.** Bounded retries with capped exponential backoff,
  session clearing on authentication errors, and a session cache with a
  single login in flight.
- **Sliding-window rate limiter.**
- **Route validators.**
  - Report item ids and filenames.
  - Analytics events.
  - Admin feedback paging.
  - The admin path guard.
  - Error-to-status mapping.
- **Small client-side pieces.** The photo viewer's index state machine and the
  folder display name.

Conventions:

- JavaScript values are one `Json` datatype. It models `undefined`, `null`,
  `??` and truthiness explicitly.
- Every upstream call, clock reading, environment variable, cookie check and
  random id is a parameter.
- Mutable module state becomes immutable records with transition functions:
  - the session store;
  - the folder cache;
  - the rate-limit logs;
  - the viewer state.

One Dafny module per source file:

| module | source file |
|---|---|
| `Filtering` | `lib/api/filtering.ts` |
| `Visibility` | `lib/api/visibility.ts` |
| `VisibilityConfig` | `lib/api/visibilityConfig.ts` |
| `Mappers` | `lib/api/mappers.ts` |
| `FolderBoundary` | `lib/api/folderBoundary.ts` |
| `FolderInfo` | `lib/api/folderInfo.ts` |
| `ItemInfo` | `lib/api/itemInfo.ts` |
| `SynologyClient` | `lib/synology/client.ts` and the login effect of `lib/synology/auth.ts` |
| `SessionStore` | `lib/synology/sessionStore.ts` |
| `RateLimit` | `lib/api/rateLimit.ts` |
| `Reports` | `app/api/reports/route.ts` |
| `Collections` | `app/api/collections/route.ts` |
| `Errors` | `lib/api/errors.ts` |
| `ReportedItems` | `lib/api/reportedItems.ts` |
| `PhotoViewer` | `hooks/use-photo-viewer.ts` |
| `FolderCard` | `components/gallery/folder-card.tsx` |
| `AnalyticsTrack` | `app/api/analytics/track/route.ts` |
| `AdminFeedback` | `app/api/admin/feedback/route.ts` |
| `Proxy` | `proxy.ts` |

Shared modules:

- `Common`: `Option`.
- `Strings`: JavaScript whitespace, `trim`, `toLowerCase`, `split` and `join`, and number parsing.
- `Json`: the value model.
- `Records`: the first-match scan over upstream records.
- `Seqs`: filtering and subsequences.
- `StringOrder`: the default `Array.prototype.sort` order, used by the folder cache key.

## Model

| member | source | states |
|---|---|---|
| Filtering.HideSuffixHides | lib/api/filtering.ts:3-8 | Any title ending in a case variant of "(hide)", followed only by whitespace, is hidden. |
| Filtering.NoParenNotHidden | lib/api/filtering.ts:6-8 | A title with no ')' is never hidden, so a name such as "Hideaway" stays visible. |
| Filtering.FolderHidingReadsOnlyTitles | lib/api/filtering.ts:10-14 | Folder hiding depends only on the title aliases. Two entries that agree on name/title/folder_name/display_name are judged alike. |
| Filtering.TagCandidatesOf | lib/api/filtering.ts:79-96 | A falsy field contributes nothing. A truthy string contributes itself. An array contributes its elements in order. |
| Filtering.TagMatchIsExact | lib/api/filtering.ts:98-102 | A string whose trimmed length differs from "hide" never matches, so "hidden" is not the hide tag. |
| Filtering.TagFieldContributes | lib/api/filtering.ts:63-77 | Whatever each of tag/tags/tag_list/taglist contributes is among the candidates, at top level and under `additional`. |
| Filtering.HideTagInArrayHides | lib/api/filtering.ts:16-19 | A tag array in any tag field that holds a case and space variant of "hide" hides the item. |
| Filtering.HideTagObjectHides | lib/api/filtering.ts:103-110 | A tag object in any tag field whose `name` is a variant of "hide" hides the item. |
| Filtering.ItemHidingReadsOnlyTags | lib/api/filtering.ts:63-77 | Item hiding depends only on the tag fields and `additional`, never on titles. |
| Filtering.CleanList | lib/api/filtering.ts:52-59 | The result is the trimmed entries that are non-empty, in order: an order-preserving subsequence of the trimmed list holding every non-empty trimmed entry as often as it occurs, and nothing else. |
| Filtering.CleanListOfClean | lib/api/filtering.ts:59 | A list of non-empty, already trimmed entries is cleaned to itself. |
| Filtering.CleanListIdempotent | lib/api/filtering.ts:59 | Cleaning twice is cleaning once. |
| Filtering.ParseAdditionalList | lib/api/filtering.ts:46-61 | An empty value gives nothing. A value starting with `[` gives a list exactly when it parses as an array, and then the cleaned string forms of its elements. Any other value gives the cleaned comma-separated entries, and nothing when they clean to nothing. |
| Filtering.AdditionalListRoundTrip | lib/api/filtering.ts:46-61 | A non-empty list of trimmed, non-empty, comma-free entries, not starting with `[`, joined with commas, parses back to the same list. |
| Filtering.MergeRequiredFacts | lib/api/filtering.ts:37-43 | The merge keeps the existing list as a prefix. It covers every required entry case-insensitively. It appends only required entries that are missing, with no case-insensitive duplicates among them. |
| Filtering.EnsureAdditionalIncludes | lib/api/filtering.ts:21-44 | A blank or unparsable input gives the cleaned required list. An input whose parsed list already covers every required entry, ignoring case, is returned as the original text. Otherwise the result is the parsed list with the missing required entries merged in, and it covers every required entry. |
| Filtering.MergeKeepsExisting | lib/api/filtering.ts:37-43 | When a merge happens, the existing entries stay in order as a prefix, followed only by missing required entries without duplicates. |
| Filtering.CompleteListKept | lib/api/filtering.ts:29-35 | A comma-separated list that already names every required entry is passed on as the caller's own text. |
| Visibility.AssertVisibleFolder | lib/api/visibility.ts:6-13 | Fails exactly for hidden folders, with 404 NOT_FOUND and "Collection not found" as the default message. |
| Visibility.AssertVisibleItem | lib/api/visibility.ts:15-19 | Fails exactly for hide-tagged items, with 404 NOT_FOUND and "Item not found" as the default message. |
| Visibility.FilterVisibleFolders | lib/api/visibility.ts:21-23 | The output has no hidden folder. It keeps every occurrence of each visible entry. It is an order-preserving subsequence of the input. |
| Visibility.FilterVisibleItems | lib/api/visibility.ts:25-27 | The output has no hide-tagged item. It keeps every occurrence of each other entry. It is an order-preserving subsequence. |
| Visibility.FilterVisibleFoldersIdempotent | lib/api/visibility.ts:21-23 | Filtering folders twice is filtering once. |
| Visibility.FilterVisibleItemsIdempotent | lib/api/visibility.ts:25-27 | Filtering items twice is filtering once. |
| Visibility.FolderAssertAgreesWithFilter | lib/api/visibility.ts:6-23 | The folder assertion passes exactly when the filter keeps the entry. |
| Visibility.ItemAssertAgreesWithFilter | lib/api/visibility.ts:15-27 | The item assertion passes exactly when the filter keeps the entry. |
| VisibilityConfig.GetVisibilityMode | lib/api/visibilityConfig.ts:15-26 | The mode is "show" exactly when the trimmed, lower-cased variable is "show", and "hide" otherwise. |
| VisibilityConfig.GetRootFolderId | lib/api/visibilityConfig.ts:32-36 | No root exactly when the variable is unset or blank. Otherwise the root is the trimmed value, non-empty and free of edge spaces. |
| VisibilityConfig.RootFolderIdStable | lib/api/visibilityConfig.ts:32-36 | Reading a configured root id back through the same normalisation gives it unchanged. |
| Json.Alias | lib/api/mappers.ts:9 | An alias chain `a ?? b ?? …` yields the first non-nullish field. It is nullish only when every alias is, and then it is the last alias's value. |
| Json.ToNumberOfPrinted | lib/api/mappers.ts:130 | `Number(String(n))` is `n` for every integer. |
| Records.FindRecord | lib/api/folderBoundary.ts:56-61 | The scan answers the first matching record. It answers none only when no record matches and none is nullish. It fails with a property-of-null error at the first nullish record reached. |
| Records.FindRecordFindsFirst | lib/api/folderInfo.ts:64-71 | In a list of records, the scan finds the first match and finds nothing only when nothing matches. |
| Mappers.ReadRecord | lib/api/mappers.ts:113-116 | Objects and arrays are records, and nothing else is. |
| Mappers.ParseNumberParam | lib/api/mappers.ts:125-132 | Absent, empty or non-numeric text gives the fallback. Numeric text gives its value. |
| Mappers.ParseNumberParamOfPrinted | lib/api/mappers.ts:125-132 | A printed integer parameter reads back as itself, whatever the fallback. |
| Mappers.ParseNumberParamBlank | lib/api/mappers.ts:129-131 | A blank but non-empty parameter is 0 rather than the fallback, because `Number(" ")` is 0. |
| Mappers.ParseNumericId | lib/api/mappers.ts:134-137 | An id is numeric exactly when it parses as a number. Otherwise it is the original text. |
| Mappers.ParseNumericIdOfPrinted | lib/api/mappers.ts:134-137 | A printed integer id is read back as that number. |
| Mappers.NormalizeIdIdempotent | lib/api/mappers.ts:134-137 | Normalising an id through `String(parseNumericId(id))` twice is normalising once. |
| Mappers.NormalizeIdOfNumber | lib/api/mappers.ts:134-137 | Ids that denote the same number, such as "007" and "7", normalise to the same printed number. |
| Mappers.ExtractList | lib/api/mappers.ts:97-111 | The list is the `list` array, or empty. The total is `total ?? total_count` when numeric, else the list length. |
| Mappers.ExtractListOfEnvelope | lib/api/mappers.ts:97-111 | A `{list, total}` envelope is read back as exactly that list and total. |
| Mappers.ExtractListTextTotal | lib/api/mappers.ts:105-110 | A textual `total_count` is read as the number it prints. |
| Mappers.MapCollection | lib/api/mappers.ts:5-30 | No collection exactly when the id alias is falsy. Otherwise the id is its string form. The title is `name`, else `title`, else the id. The item count is the number `item_count` spells, else the number `count` spells, else 0. The cover id is present exactly when `cover_unit_id` is truthy, and its URL is the item's thumbnail endpoint with `?folder_id=<id>` in the shared mapper and no query in the route's copy. The description is present exactly when truthy. |
| Mappers.CollectionItemCount | lib/api/mappers.ts:14-22 | A count given as a numeral string, under `item_count` or, when that is absent, under `count`, is read as the number it spells. |
| Mappers.CollectionTitleFallback | lib/api/mappers.ts:12-20 | Without a name or title, the title is the id. |
| Mappers.CollectionStylesAgree | app/api/collections/route.ts:61-83 | The collections route's private mapper and the shared one keep or drop the same records and agree on every field except the cover URL's query. |
| Mappers.CollectionIdStable | lib/api/mappers.ts:9-18 | Mapping a record that carries a mapped collection's id as `id` gives that id again. |
| Mappers.ParseItemType | lib/api/mappers.ts:139-152 | Numbers 1 and 3 are photos and 2 is a video, other numbers "other". Text is a photo exactly when it is "live" or mentions "photo" or "image", ignoring case. Text is "other" exactly when it is none of these and does not mention "video". Other values are "other". |
| Mappers.ItemTypeCaseInsensitive | lib/api/mappers.ts:145-150 | The textual type is case-insensitive. |
| Mappers.PhotoWinsOverVideo | lib/api/mappers.ts:147-149 | Text mentioning "photo" or "image" is a photo even if it also mentions "video". |
| Mappers.VideoByName | lib/api/mappers.ts:145-150 | Text is a video exactly when it mentions "video" and is not "live" and mentions neither "photo" nor "image". |
| Mappers.PickThumbnailSize | lib/api/mappers.ts:154-162 | The size picked is ready, and no earlier size in the order sm, m, xl is. None is picked exactly when no size is ready. |
| Mappers.ItemMime | lib/api/mappers.ts:58-60 | A MIME type is present exactly when `mime_type` or `mime` is truthy. It is then `mime_type` whenever that is present, even when empty, and `mime` otherwise. |
| Mappers.EmptyMimeTypeWins | lib/api/mappers.ts:58-60 | An empty `mime_type` beside a non-empty `mime` gives the empty MIME type, because `??` only skips null and undefined. |
| Mappers.ItemSizeBytes | lib/api/mappers.ts:61-64 | A size is set only when `filesize` or `size` is truthy. It is the number `filesize` spells whenever `filesize` is present, even when it is falsy (0, "" or false) and `size` is truthy. It is the number `size` spells when `filesize` is null or undefined. |
| Mappers.ZeroFilesizeWins | lib/api/mappers.ts:61-64 | A present `filesize` of 0 beside a non-zero `size` gives size 0, because `??` only skips null and undefined. |
| Mappers.Dimension | lib/api/mappers.ts:71-74 | Width and height come from the resolution record, else the record's own field, else the legacy `resolutionx`/`resolutiony` field, and only when that spells a finite number. |
| Mappers.ItemUrl | lib/api/mappers.ts:32-95 | Item URLs start with `<origin>/api/items/<id><endpoint>` and end with `folder_id=<folder>` when a folder is given. |
| Mappers.QueryEndsWithLast | lib/api/mappers.ts:32-95 | A query string whose last parameter is `key=value` ends with that parameter. |
| Mappers.MapItem | lib/api/mappers.ts:32-95 | No item exactly when the id alias is falsy. The filename is `filename ?? name ?? id`. The MIME type is present exactly when given. The thumbnail query is `cache_key` when non-empty, then `size` when a size is ready, then `folder_id` when non-empty. The download query is `cache_key` when non-empty, then `filename` (the item's filename) whenever the filename value is truthy, then `folder_id`. |
| Mappers.DownloadUrl | lib/api/mappers.ts:87-92 | With no cache key and no folder, the download link carries `?filename=<String(value)>` exactly when the filename value is truthy, and no query otherwise. |
| Mappers.EmptyFilenameStillSent | lib/api/mappers.ts:89 | A truthy filename that prints as "" (an empty array) still sends `filename=`, so the link ends in `?filename=`. |
| Mappers.MapItemFields | lib/api/mappers.ts:52-78 | A mapped item's type comes from `type ?? item_type ?? media_type`. Its MIME type, size, width, height and EXIF record are those the field rules give. |
| Errors.HandleApiError | lib/api/errors.ts:72-89 | An ApiError keeps its status, code, message and details. A Synology error is 502 UPSTREAM_ERROR carrying its code. Anything else is 503 "Service unavailable". Only Synology errors carry `upstream`. |
| Errors.InternalErrorsIndistinguishable | lib/api/errors.ts:84-88 | Two internal errors render identically, so no internal message leaks. |
| Errors.ConstructorResponses | lib/api/errors.ts:26-44 | Each constructor renders with its fixed status and code. Only `badRequest` carries details. |
| FolderBoundary.ExtractFolderId | lib/api/folderBoundary.ts:96-99 | A record with no id alias gives ""; otherwise the id alias's string form. |
| FolderBoundary.ExtractFolderIdAbsent | lib/api/folderBoundary.ts:96-99 | An empty record gives "", while a nullish final alias present as `null` gives "null". |
| FolderBoundary.IsFolderWithinBoundary | lib/api/folderBoundary.ts:26-71 | No root, or the root itself after numeric normalisation: within, with no upstream call. Otherwise a Synology error denies, other errors propagate, and "within" requires the root among the parents. |
| FolderBoundary.MissingParentListDenies | lib/api/folderBoundary.ts:51-63 | A parent reply without a list array denies access. |
| FolderBoundary.WithinIffRootIsParent | lib/api/folderBoundary.ts:43-63 | For a well-formed parent list, access is granted exactly when some parent's id is the normalised root. |
| FolderBoundary.RootItselfWithin | lib/api/folderBoundary.ts:35-39 | A folder id that spells the same number as the configured root, such as "007" for "7", is within the boundary without an upstream call. |
| FolderBoundary.AssertFolderWithinBoundary | lib/api/folderBoundary.ts:77-86 | Passes exactly when the check holds. A denial is 404 NOT_FOUND, "Collection not found" by default. Other errors propagate. |
| FolderInfo.ExtractSingle | lib/api/folderInfo.ts:43-52 | The first list entry when the list is non-empty, otherwise the `info` record when it is truthy, otherwise nothing. |
| FolderInfo.ExtractFolderFromParents | lib/api/folderInfo.ts:54-72 | Nothing exactly when the parent list is empty. Otherwise an entry of that list. A nullish entry reached is a property-of-null error. For a non-empty list of records, the first entry whose id matches the normalised collection id, else the last entry. |
| FolderInfo.PickParent | lib/api/folderInfo.ts:60-71 | Nothing exactly for an empty parent list. Otherwise one of the listed entries, or a property-of-null error at a nullish entry. |
| FolderInfo.ParentsPickMatchElseLast | lib/api/folderInfo.ts:64-71 | For a list of records, the first entry whose id matches the normalised collection id, else the last entry. |
| FolderInfo.FetchFolderInfoWithFallback | lib/api/folderInfo.ts:7-41 | A truthy `getinfo` answer is used without asking for parents. Synology errors fall through to the parent list; other errors propagate. A Synology error there gives nothing. |
| FolderInfo.BothUpstreamFailuresGiveNothing | lib/api/folderInfo.ts:26-40 | When both upstream calls fail with Synology errors, the folder is reported absent rather than as an error. |
| FolderInfo.GetinfoHitIgnoresParents | lib/api/folderInfo.ts:14-22 | A direct hit is returned whatever the parent call would have answered. |
| ItemInfo.EnsureAdditionalIncludes | lib/api/itemInfo.ts:166-171 | The list is unchanged when it already holds the entry, ignoring case and spaces. Otherwise the entry is appended at the end. |
| ItemInfo.EnsureAdditionalIdempotent | lib/api/itemInfo.ts:166-171 | Ensuring the same entry twice is ensuring it once. |
| ItemInfo.EnsureTagRequestsTags | lib/api/itemInfo.ts:32 | After the visible lookup's adjustment, the field list always requests tags. |
| ItemInfo.CacheKeyCanonical | lib/api/itemInfo.ts:173-184 | Field lists with the same normalised entries give the same cache key. |
| ItemInfo.CacheKeyIgnoresOrder | lib/api/itemInfo.ts:173-184 | Reordering the field list does not change the cache key. |
| ItemInfo.CacheKeyIgnoresCaseAndSpace | lib/api/itemInfo.ts:173-184 | Changing the case or surrounding spaces of entries does not change the cache key. |
| ItemInfo.CacheKeyIgnoresBlank | lib/api/itemInfo.ts:173-184 | A blank entry does not change the cache key. |
| ItemInfo.LiveItems | lib/api/itemInfo.ts:225-236 | A cached scan is used exactly while its expiry lies after now. |
| ItemInfo.GetCachedFolderItem | lib/api/itemInfo.ts:225-236 | A live entry answers the item stored under its id, or nothing. An expired or missing entry answers nothing. |
| ItemInfo.FindItemInFolder | lib/api/itemInfo.ts:186-223 | A live entry answers without a scan. A scan stores its items under the key, expiring 60000 ms after completion, and touches no other key. A failed scan stores nothing and propagates. |
| ItemInfo.ScanServedUntilExpiry | lib/api/itemInfo.ts:197-218 | After a scan completes, the folder is answered from the cache at every time before completion + 60000 ms and at none after. |
| ItemInfo.IndexEntriesLast | lib/api/itemInfo.ts:265-269 | When several entries share an id, the last one is the one stored. |
| ItemInfo.IndexEntriesKeeps | lib/api/itemInfo.ts:265-269 | Ids not on the page keep what earlier pages stored. |
| ItemInfo.IndexPage | lib/api/itemInfo.ts:265-269 | Indexing fails exactly when some entry is nullish. Otherwise it stores the page's entries over the earlier map. |
| ItemInfo.LoadFolderItems | lib/api/itemInfo.ts:238-276 | The scan starts at offset 0. Each next offset is the previous one plus that page's length, and the scan goes on only after a non-empty page short of the total. The map returned is the pages' entries stored in the order read, later ones overwriting earlier ones under the same id. An upstream error is propagated, and a nullish entry fails the scan. Every page read before the last had no nullish entry, and on success none of the pages had one. |
| ItemInfo.IndexPages | lib/api/itemInfo.ts:265-269 | Every id on every page read is a key of the map, and each key maps to an entry whose own id is that key. |
| ItemInfo.TryKey | lib/api/itemInfo.ts:101-127 | One key is tried first with the field list. It is retried without the field list exactly when the first call threw a Synology error. |
| ItemInfo.LookupByKeys | lib/api/itemInfo.ts:81-129 | Keys are tried in order, each before the next. Every request that sends a field list sends the caller's. "Not found" comes only after every key was tried. A result is the extracted answer of the last call. A non-Synology error stops the lookup. Every request before the last neither hit nor threw a non-Synology error, and "not found" means that no request did. |
| ItemInfo.LookupAnswersFirstSettledKey | lib/api/itemInfo.ts:81-129 | When key j is the first whose requests settle the lookup, the lookup answers with key j's answer, and exactly j + 1 keys were tried. |
| ItemInfo.NotFoundIffEveryKeyMisses | lib/api/itemInfo.ts:81-129 | The lookup answers "not found" exactly when every key's requests miss. |
| ItemInfo.SkipMissedKey | lib/api/itemInfo.ts:81-129 | A key whose requests miss leaves the answer to the remaining keys and counts as one more key tried. |
| ItemInfo.FirstKeySettles | lib/api/itemInfo.ts:81-129 | A first key whose requests settle the lookup is its answer and the only key tried. |
| ItemInfo.LookupRetriesEveryUpstreamError | lib/api/itemInfo.ts:101-127 | Every request with the field list that throws a Synology error is directly followed by the same key without the field list. |
| ItemInfo.LookupRetries | lib/api/itemInfo.ts:81-129 | The first request is for the first key with the field list. Every request without the field list retries the same key directly after a Synology error. |
| ItemInfo.LookupStep | lib/api/itemInfo.ts:81-129 | One key's calls followed by the rest's keep the keys in order. |
| ItemInfo.RetriesPrepend | lib/api/itemInfo.ts:101-127 | Prefixing one key's calls keeps every retry directly after a Synology error. |
| ItemInfo.FetchItemInfoWithFallback | lib/api/itemInfo.ts:42-133 | Without a folder, only direct lookups run. With a folder id the answer is the folder branch's, whose direct lookups happen only when the scan failed with a Synology error. A completed scan is final. Every request that sends a field list sends the caller's. A found item is truthy. |
| ItemInfo.FromFolder | lib/api/itemInfo.ts:50-78 | The folder branch either answers by itself, with no direct request and only a truthy item, or it is exactly the direct lookup after a scan that failed with a Synology error, leaving the cache as it was. |
| ItemInfo.CachedItemAnswers | lib/api/itemInfo.ts:51-62 | In the folder branch, a truthy item in a live cache entry for the folder answers the lookup with no scan and no request. |
| ItemInfo.LiveEntryAnswers | lib/api/itemInfo.ts:194-199 | In the folder branch, without a cached hit, a cache entry still live when the scan starts answers the lookup, a miss included, with no request. |
| ItemInfo.ScanAnswers | lib/api/itemInfo.ts:207-219 | In the folder branch, a completed scan answers with the item it found, or "absent" on a miss, sends no direct request, and stores the folder until 60000 ms after completion. |
| ItemInfo.ScanFailureFallsBack | lib/api/itemInfo.ts:75-132 | In the folder branch, a scan that fails with a Synology error falls back to the direct lookup by id keys, and its answer and requests are that lookup's. |
| ItemInfo.ScanErrorRethrown | lib/api/itemInfo.ts:75-76 | In the folder branch, any other scan failure is the lookup's error, with no direct request. |
| ItemInfo.VisibleResult | lib/api/itemInfo.ts:37-39 | An item is returned exactly when it was found and is not hide-tagged. Absent and hidden items give the same NOT_FOUND. Upstream errors propagate. |
| ItemInfo.FetchVisibleItemInfo | lib/api/itemInfo.ts:28-40 | Every lookup requests tags. A returned item is never hide-tagged. |
| SynologyClient.Backoff | lib/synology/client.ts:136 | A retry's delay lies between 150 and 1500 ms and is 1500 ms from the fifth retry on. |
| SynologyClient.BackoffSchedule | lib/synology/client.ts:136 | The delays double: 150, 300, 600, 1200 ms. |
| SynologyClient.BackoffMonotone | lib/synology/client.ts:136 | Later retries never wait less. |
| SynologyClient.CookieParts | lib/synology/client.ts:20-33 | At most three cookie parts, none of them empty. |
| SynologyClient.BuildAuthHeaders | lib/synology/client.ts:20-33 | The token header is set exactly when the session has a token. The cookie is the existing cookie, the session id and the token, joined by "; " (the cookie-string form of section 4.2.1 of RFC 6265). Other headers pass unchanged. |
| SynologyClient.SessionCookie | lib/synology/client.ts:20-33 | A fresh request's cookie is "id=<sid>; synotoken=<token>", or "id=<sid>" with no token header when there is no token. |
| SynologyClient.EncodeParamValue | lib/synology/client.ts:58-62 | Strings pass unchanged. Numbers print so they read back. Booleans print as true/false. Anything else goes through JSON text. |
| SynologyClient.Login | lib/synology/auth.ts:43-63 | Login succeeds exactly on a success reply with a non-empty sid. A failed login leaves the store unchanged and reports the failure code. |
| SynologyClient.GetOrCreateSession | lib/synology/client.ts:47-56 | A live cached session is reused. A login in flight is joined. Otherwise exactly one login is started, and its session is cached for 5000 ms from the moment the login reply arrived. |
| SynologyClient.Classify | lib/synology/client.ts:102-159 | A success envelope returns its data. Only a transient code with retries left is retried, after the backoff for that attempt. Invalid, null or other falsy bodies and other failures throw with the code or HTTP status. |
| SynologyClient.Delays | lib/synology/client.ts:130-142 | The n-th retry waits the n-th backoff. |
| SynologyClient.CallLoop | lib/synology/client.ts:74-161 | Every retried reply was a transient failure. A result means the last request succeeded. An authentication failure clears the session before throwing. |
| SynologyClient.SynoCallJson | lib/synology/client.ts:74-161 | At most networkRetries + 1 requests, 3 retries by default. Only transient failures are retried. A result is the data of the last, successful reply. |
| SynologyClient.TransientFailuresExhaustRetries | lib/synology/client.ts:130-142 | When the upstream only fails transiently, every retry is used up and the call throws. |
| SynologyClient.SuccessIsNotRetried | lib/synology/client.ts:119-123 | A first successful reply is returned after exactly one request. |
| SynologyClient.AuthFailureClearsAndThrows | lib/synology/client.ts:144-159 | An authentication failure is not retried. It clears the session and throws. |
| SynologyClient.ClassifyRaw | lib/synology/client.ts:186-217 | 401/403 clears the session and throws. A JSON body that reports failure throws, clearing on authentication codes. A falsy non-null JSON body throws the download failure without a code. A non-JSON response is returned untouched. |
| SynologyClient.SynoCallRaw | lib/synology/client.ts:164-218 | A request is made exactly when a session and a base URL are available, and its reply is then classified. |
| SessionStore.GetSession | lib/synology/sessionStore.ts:20-27 | A session is returned exactly when cached and unexpired. Reading an expired one clears the cache. |
| SessionStore.SetSession | lib/synology/sessionStore.ts:29-32 | The session is cached until now + 5000 ms. |
| SessionStore.ClearSession | lib/synology/sessionStore.ts:34-37 | The cache is emptied. The login flag is untouched. |
| SessionStore.SetThenGet | lib/synology/sessionStore.ts:12-32 | A session set at t is readable exactly for times before t + 5000. |
| SessionStore.ExpiredStaysEmpty | lib/synology/sessionStore.ts:24-26 | Once a read finds the session expired, later reads find nothing until a new session is set. |
| SessionStore.ClearThenGet | lib/synology/sessionStore.ts:34-37 | After clearing, the next read finds nothing. |
| SessionStore.BeginLogin | lib/synology/sessionStore.ts:43-61 | A live cached session is used without a login. A login in flight is joined. Otherwise a login starts and the flag is raised. |
| SessionStore.SettleLogin | lib/synology/sessionStore.ts:56-58 | Settling a login, on success or failure, lowers the flag and leaves the cache alone. |
| SessionStore.SecondRequestJoins | lib/synology/sessionStore.ts:51-53 | A second request arriving while the first login is in flight joins it rather than starting another. |
| SessionStore.SettledLoginAllowsAnother | lib/synology/sessionStore.ts:56-58 | Once a login has settled without a session, the next request starts a new login. |
| RateLimit.GetClientId | lib/api/rateLimit.ts:21-25 | No header gives "unknown". Otherwise the client id has no surrounding spaces. |
| RateLimit.ClientIdIsFirstEntry | lib/api/rateLimit.ts:21-25 | The client id is the trimmed first comma-separated entry. |
| RateLimit.CheckRateLimit | lib/api/rateLimit.ts:30-77 | Allowed exactly when fewer than `limit` markers lie inside the window after pruning. `remaining` is in [0, limit-1] when allowed and 0 when rejected. `resetAt` is now + window. The call's marker is recorded either way. Other keys' logs are untouched. |
| RateLimit.CallSeries | lib/api/rateLimit.ts:30-77 | A series of calls gives one result per call. |
| RateLimit.PruneKeepsTail | lib/api/rateLimit.ts:44 | Pruning keeps every marker newer than the window start. |
| RateLimit.SeriesLogsEveryCall | lib/api/rateLimit.ts:49-53 | Every call of a series within one window leaves its marker in the log, rejected calls included. |
| RateLimit.LimitPlusOneRejected | lib/api/rateLimit.ts:47-64 | After `limit` calls within one window, the next call in that window is rejected. |
| RateLimit.SeriesCounted | lib/api/rateLimit.ts:44-53 | After a series within one window, the pruned log counts at least every call of the series. |
| RateLimit.CountedInWindow | lib/api/rateLimit.ts:44-47 | Markers of calls inside the window survive pruning and are counted. |
| RateLimit.KeysSeparate | lib/api/rateLimit.ts:36 | Two (scope, client) pairs share a log key exactly when they are the same pair, for colon-free scopes. |
| RateLimit.PairsIndependent | lib/api/rateLimit.ts:36 | A call for one (scope, client) pair never changes another pair's log. |
| Reports.ValidateItemId | app/api/reports/route.ts:21-42 | Accepted exactly for strings or numbers whose text is 1..128 UTF-16 code units, all of [A-Za-z0-9_-]. The text is returned unchanged. Non-strings, non-numbers and empty text get "itemId is required"; over 128 units gets the length message; otherwise a character outside the pattern gets the pattern message. Every rejection is 400 BAD_REQUEST. |
| Reports.AstralIdTooLong | app/api/reports/route.ts:27-33 | 65 characters above U+FFFF are 130 UTF-16 code units, so the id gets the length message, not the pattern message. |
| Reports.NumericItemId | app/api/reports/route.ts:21-42 | Every safe non-negative integer id is accepted as its decimal text, which reads back as the number. |
| Reports.CollapseSpace | app/api/reports/route.ts:49 | Whitespace runs become one space, so no two whitespace characters stay adjacent. The non-whitespace characters are exactly those of the input, in order. The result starts and ends with whitespace exactly when the input does. It has the same words as the input, where the words are the maximal runs of non-whitespace characters. |
| Reports.CollapseOfCollapsed | app/api/reports/route.ts:49 | Collapsing already-collapsed text changes nothing. |
| Reports.CleanFilename | app/api/reports/route.ts:46-50 | The cleaned name has no control characters, '<' or '>', no edge whitespace and no adjacent whitespace. Its non-whitespace characters are exactly the input's allowed ones, in order. Its words are exactly the words of the input with the forbidden characters removed. |
| Strings.WordsOfTrim | app/api/reports/route.ts:50 | Trimming keeps the words of the text. |
| Strings.WordsAppendSpace | app/api/reports/route.ts:49-50 | A trailing whitespace character adds no word. |
| Strings.WordsCons | app/api/reports/route.ts:49 | A non-whitespace character in front of a text joins its first word when the text starts with one, and is a word of its own otherwise. |
| Reports.CleanFilenameOfClean | app/api/reports/route.ts:46-50 | A name that is already clean is left unchanged. |
| Reports.SanitizeFilename | app/api/reports/route.ts:44-61 | Non-strings and names that clean to nothing give no filename. A cleaned name over 255 UTF-16 code units is 400 BAD_REQUEST. Any other string gives exactly its cleaned name. |
| Reports.SanitizeOfClean | app/api/reports/route.ts:44-61 | A non-empty name with no forbidden character, no edge or repeated whitespace and at most 255 UTF-16 code units is accepted exactly as it is. |
| Reports.SanitizeIdempotent | app/api/reports/route.ts:44-61 | Sanitising an accepted filename again gives it unchanged. |
| Reports.AstralNameTooLong | app/api/reports/route.ts:53-59 | 128 characters outside the Basic Multilingual Plane are 256 UTF-16 code units, so the name is rejected as too long. |
| Reports.ReportFor | app/api/reports/route.ts:89-127 | The item id is validated first, then the duplicate check, then the filename. A duplicate answers "duplicate" and stores nothing. A rejected duplicate query goes through the error handler. A created report carries the validated id, the sanitised filename and the client. |
| Reports.AcceptReport | app/api/reports/route.ts:89-130 | An unreadable or null body is answered through the error handler. Otherwise the report decision applies. |
| Reports.ReportPost | app/api/reports/route.ts:63-131 | A failure of the rate limiter's store goes through the error handler and logs nothing. Otherwise a rejection by the rate limiter (10 per 60 s per client) is 429 before the body is read, and the body decides the rest. |
| Reports.StoreFailuresGive503 | app/api/reports/route.ts:65-130 | When the limiter's store or the duplicate query rejects with a plain error, the answer is 503 and no report is created. |
| Reports.RateLimitComesFirst | app/api/reports/route.ts:65-87 | A rate-limited client gets 429 with Retry-After 60 whatever it sends (Retry-After as in section 10.2.3 of RFC 9110). |
| Reports.DuplicateBeforeFilename | app/api/reports/route.ts:95-107 | A duplicate report is answered as such even with an oversized filename. |
| ReportedItems.ExcludeReportedItems | lib/api/reportedItems.ts:107-112 | No reported id survives. Every occurrence of each other item is kept, in order. |
| ReportedItems.ExcludeNothing | lib/api/reportedItems.ts:107-112 | With no reported ids, the list is unchanged. |
| ReportedItems.ExcludeIdempotent | lib/api/reportedItems.ts:107-112 | Excluding twice is excluding once. |
| Collections.HasListParams | app/api/collections/route.ts:108-115 | Holds exactly when a root folder is configured or the query names offset, limit, id, sort_by or sort_direction. |
| Collections.SortParams | app/api/collections/route.ts:132-138 | `sort_by` is forwarded exactly when non-empty. `sort_direction` is forwarded exactly when "asc" or "desc". Nothing else changes. |
| Collections.PagingParams | app/api/collections/route.ts:121-130 | Offset and limit are always sent. The id is sent when non-empty, as a number when it parses as one. |
| Collections.ListParams | app/api/collections/route.ts:121-140 | The paged request carries exactly offset, limit, the non-empty id and the valid sort fields. |
| Collections.BuildFolderListRequest | app/api/collections/route.ts:103-141 | `list_parents` with no parameters exactly when no root is configured and no list parameter is given. Otherwise `list` with the paging and sort parameters. |
| Collections.RootIsDefaultId | app/api/collections/route.ts:126-130 | Without an id parameter, the configured root is the listed folder, sent as a number. |
| Collections.FolderOneIsLastResort | app/api/collections/route.ts:126-130 | Without an id parameter or a root, folder "1" is listed, as the number 1. |
| Collections.MapEntries | app/api/collections/route.ts:47-48 | Mapping fails exactly when an entry is nullish. Every collection comes from an entry. When every entry maps, the output corresponds one to one. On success the output is exactly the present collections of the mapped entries, in order. |
| Collections.MapPresent | app/api/collections/route.ts:48 | Fails exactly when an entry is nullish, with the property-of-null error. On success the output is exactly the present values of the mapped list, in order. When every entry maps, nothing is dropped. |
| Collections.PresentIsFilter | app/api/collections/route.ts:48 | The present values, wrapped again, are exactly the `Some` entries kept by a filter, in order. |
| Collections.PresentAppend | app/api/collections/route.ts:48 | The present values of two lists joined are those of the first, then those of the second. |
| Collections.PresentOfAllSome | app/api/collections/route.ts:48 | When every entry is present, the output has one value per entry, in the same positions. |
| Collections.PageOf | app/api/collections/route.ts:18-28 | `list_parents` pages start at 0 with limit = number returned. `list` pages echo offset and limit. The total is the upstream total when positive, else offset + number returned. |
| Collections.AnswerListing | app/api/collections/route.ts:17-51 | An upstream error goes through the error handler. A list with a nullish entry is a property-of-null error. Otherwise the page holds exactly the present collections of the mapped entries, in order, with the paging of the request mode and the upstream total when positive, else offset plus the number returned. |
| Collections.ListCollections | app/api/collections/route.ts:9-51 | The request is built from the query and the root, with offset and limit defaulting to 0 and 100 in a paged listing, and the upstream's answer to it decides the response. |
| Collections.TopLevelIsOnePage | app/api/collections/route.ts:18-24 | An empty query with no root lists the top level as one page, offset 0, whose limit is the number of collections. |
| PhotoViewer.Open | hooks/use-photo-viewer.ts:11-14 | Opening shows the given item and marks its image as loading. |
| PhotoViewer.Close | hooks/use-photo-viewer.ts:16-18 | Closing hides the viewer and leaves the loading flag alone. |
| PhotoViewer.GoToPrevious | hooks/use-photo-viewer.ts:20-23 | Sets loading. Keeps the viewer open or closed. A move is one step back. |
| PhotoViewer.GoToNext | hooks/use-photo-viewer.ts:25-30 | Sets loading. Keeps the viewer open or closed. A move is one step forward. |
| PhotoViewer.OnImageLoad | hooks/use-photo-viewer.ts:32-34 | Clears the loading flag and keeps the index. |
| PhotoViewer.PreviousMovesIffHasPrevious | hooks/use-photo-viewer.ts:20-36 | `hasPrevious` holds exactly when stepping back moves. |
| PhotoViewer.NextMovesIffHasNext | hooks/use-photo-viewer.ts:25-37 | `hasNext` holds exactly when stepping forward moves. |
| PhotoViewer.PreviousThenNext | hooks/use-photo-viewer.ts:20-30 | Stepping back and then forward returns to the same item. |
| PhotoViewer.KeyDown | hooks/use-photo-viewer.ts:39-50 | Keys do nothing while closed. Escape closes. An arrow moves only when there is an item that way. Other keys do nothing. |
| PhotoViewer.ApplyKeepsRange | hooks/use-photo-viewer.ts:11-50 | One step keeps the index within the items, provided opening names a valid item. |
| PhotoViewer.RunKeepsRange | hooks/use-photo-viewer.ts:11-50 | Any sequence of steps and keys keeps the index within [0, itemCount - 1], provided opening names a valid item. |
| PhotoViewer.ArrowsKeepOpenness | hooks/use-photo-viewer.ts:39-50 | Key presses other than Escape never open or close the viewer. |
| FolderCard.StripLeadingSlashes | components/gallery/folder-card.tsx:13 | All leading slashes are removed and nothing else. |
| FolderCard.LastSegment | components/gallery/folder-card.tsx:14-15 | The text after the last '/', or the whole text when there is none. |
| FolderCard.DisplayName | components/gallery/folder-card.tsx:12-16 | The last non-empty path segment of the stripped title, else the whole stripped title when it ends in '/'. |
| FolderCard.PlainTitleUnchanged | components/gallery/folder-card.tsx:12-16 | A title without '/' is shown unchanged. |
| FolderCard.SegmentIsUnique | components/gallery/folder-card.tsx:14-15 | Any '/'-free suffix that follows a '/' or starts the text is the last segment. |
| FolderCard.NestedPathShowsLastFolder | components/gallery/folder-card.tsx:12-16 | "/parents/name" is shown as "name". |
| FolderCard.TrailingSlashShowsWholePath | components/gallery/folder-card.tsx:15 | A title ending in '/' is shown whole. |
| AnalyticsTrack.SanitizeString | app/api/analytics/track/route.ts:6-10 | Falsy values give the fallback. Strings, and arrays, keep their first 500 elements. Anything else throws. |
| AnalyticsTrack.SanitizeIdempotent | app/api/analytics/track/route.ts:6-10 | A short string is kept. Sanitising twice is sanitising once when the fallback is short. |
| AnalyticsTrack.SanitizePath | app/api/analytics/track/route.ts:43 | A nullish path is absent. An array path is sanitised element by element with fallback "unknown". |
| AnalyticsTrack.SanitizeAll | app/api/analytics/track/route.ts:43 | Succeeds exactly when every element does, and then sanitises each element in place. |
| AnalyticsTrack.FolderViewEvent | app/api/analytics/track/route.ts:25-30 | A folder view carries the sanitised id and name and the visitor. |
| AnalyticsTrack.ItemViewEvent | app/api/analytics/track/route.ts:38-45 | An item view carries the sanitised id and filename and the folder path. It carries the folder exactly when `folderId` is truthy. |
| AnalyticsTrack.TrackPost | app/api/analytics/track/route.ts:12-59 | An unreadable or null body is 400 "Invalid request body". An unknown type is 400 "Invalid event type". A missing id is 400 naming the event. A folder or item view with its id is answered as its event builds: tracked with status 200, or "Invalid request body" when building it throws. |
| AnalyticsTrack.OrInvalid | app/api/analytics/track/route.ts:53-58 | The answer is OK exactly when the event was built, and then tracks that event. A thrown error is "Invalid request body". |
| AnalyticsTrack.RejectionsTrackNothing | app/api/analytics/track/route.ts:18-51 | Every 400 tracks nothing and every 200 tracks one event. |
| AnalyticsTrack.FolderViewTracked | app/api/analytics/track/route.ts:18-30 | A well-formed folder view is tracked with its id cut to 500 characters. |
| AnalyticsTrack.ItemViewTracked | app/api/analytics/track/route.ts:31-45 | A well-formed item view without a folder is tracked with no parent folder and no path, and its id cut to 500 characters. |
| AdminFeedback.NormalizePage | app/api/admin/feedback/route.ts:17-27 | The page is the parsed value when positive, else 1. It is always at least 1. |
| AdminFeedback.NormalizeLimit | app/api/admin/feedback/route.ts:21-31 | The limit is the parsed value when in 1..100, else 20. It always lies in 1..100. |
| AdminFeedback.DefaultsWhenAbsent | app/api/admin/feedback/route.ts:17-31 | Absent parameters give page 1 of 20. |
| AdminFeedback.PrintedParamsRoundTrip | app/api/admin/feedback/route.ts:17-31 | An in-range page or limit printed as a numeral, followed by non-digits, is read back unchanged. |
| AdminFeedback.OversizedLimitFallsBack | app/api/admin/feedback/route.ts:28-31 | A limit above 100 falls back to 20 rather than being clamped. |
| AdminFeedback.FeedbackGet | app/api/admin/feedback/route.ts:9-43 | Unauthenticated requests get 401 and nothing else does. A listing uses the normalised page and limit. A store failure is 500. |
| AdminFeedback.UnauthenticatedIgnoresQuery | app/api/admin/feedback/route.ts:10-14 | Without authentication the answer is 401 whatever the query and the store. |
| Proxy.Decide | proxy.ts:27-45 | Admin paths other than the login page redirect exactly when the token is invalid. The statistics endpoint answers 401 exactly when it is invalid. Everything else passes. |
| Proxy.ProxyRequest | proxy.ts:6-45 | Unguarded paths always pass. Guarded paths pass exactly when the token verifies. With no secret configured, no guarded path passes. |
| Proxy.LoginNeverChecked | proxy.ts:30 | The login page is reachable without a token. |
| Proxy.LookalikeIsGuarded | proxy.ts:30-35 | "/administrator" is guarded like an admin page, because the test is a text prefix. |
| Proxy.StatsAnswers401 | proxy.ts:37-42 | The statistics endpoint without a token answers 401. |
| Proxy.TokenDecidesGuardedPaths | proxy.ts:27-45 | A valid token passes every path. An invalid one is stopped exactly at the guarded paths. |
| StringOrder.SortCanonical | lib/api/itemInfo.ts:173-184 | Sorting gives the same sequence for any two arrangements of the same entries, which makes the cache key order-free. |
| StringOrder.SurrogatePairBeforeHighBmp | lib/api/itemInfo.ts:181 | The sort compares UTF-16 code units, so an emoji, which starts with a surrogate, sorts before U+E000. |

## Left out

- **Network I/O.** `fetch`, the HTTP login request and URL construction are
  not modelled. Upstream replies, login replies and `getinfo`/`list` outcomes
  are parameters.
- **Concurrency.** Promise sharing is reduced to a sequential "login in
  progress" flag and a `pending` parameter. This covers `withLoginMutex`, the
  double-check inside `getOrCreateSession`, and the folder scan's in-flight
  map.
- **Redis.** The pipeline, key expiry and atomicity are not modelled. One
  rate-limit call is one state transition, and pruning stands for
  `ZREMRANGEBYSCORE`. A rejected pipeline is a parameter of the reports
  route; what it may have written before failing is not modelled.
- **MongoDB.** The reports route's duplicate query is a parameter that
  returns or rejects. A failure of the insert is not modelled: a created
  report is taken to be stored. The report's `userAgent` and `reportedAt`
  fields, `crypto.randomUUID` (a parameter) and the rest of
  `lib/api/reportedItems.ts` are left out.
- **Foreign libraries.**
  - JWT verification is a predicate parameter.
  - `JSON.parse` of a bracketed field list is a parameter, and so is
    `JSON.stringify` of parameter values.
  - Date formatting (`toIso` and the created/updated timestamps) is left out.
  - `encodeURIComponent` escaping is left out; URLs are plain concatenations.
  - Logging and the error `traceId` are left out.
- **Numbers.** JavaScript numbers are modelled as integers. `Number(text)`
  accepts an optional sign and decimal digits after trimming, and `""` gives
  0. Fractions, exponents, hexadecimal and `Infinity` count as non-finite.
- **Text.** `toLowerCase` is modelled for ASCII letters only.
- Reports.NumericItemId: covers non-negative safe integers only. Larger or
  fractional numbers print in exponent or decimal form, which is not modelled.
- Mappers.MapItem: the `takenAt` and `createdAt` timestamps are not modelled,
  because `toIso` is date formatting. The other fields are stated through
  `MapItemFields`.
- Mappers.MapCollection: the timestamps are not modelled, for the same reason.
- Filtering.ParseAdditionalList: `JSON.parse` of a bracketed value is a
  parameter. The contract states what is done with the array it yields.
- Visibility.FilterVisibleFolders: entries are taken to be records, as the
  `SynoRecord` type declares. A `null` entry, on which reading the title would
  throw, is treated as a record with no fields and kept.
- Visibility.FilterVisibleItems: entries are taken to be records, as for
  folders. A `null` entry is treated as a record without tags and kept.
- Visibility.AssertVisibleFolder: the entry is taken to be a record. This also
  applies to Visibility.AssertVisibleItem, Filtering.IsHiddenFolderEntry and
  Filtering.HasHideTag.
- AnalyticsTrack.SanitizeString: cuts at 500 code points, not 500 UTF-16 code
  units. Cutting inside a surrogate pair would leave a lone surrogate, which a
  string of Unicode scalar values cannot hold.
- ItemInfo.LoadFolderItems: the upstream's reported totals are assumed to have
  a bound. An upstream whose totals grow without end would keep the scan going
  forever, and the model does not cover that.
- RateLimit.CheckRateLimit: a marker with a negative score is not modelled
  specially, because scores are timestamps. Redis key expiry is taken to agree
  with pruning.
- SynologyClient.SynoCallRaw: the binary body of a non-JSON response is opaque.
- The photo viewer's React effect timing is not modelled. This covers stale
  closures between re-renders.
- The photo viewer's body scroll lock is not modelled. While open, it sets
  `document.body.style.overflow` to `"hidden"`, and clears it on close. That is
  DOM styling, not viewer state (hooks/use-photo-viewer.ts:53,57).
- The analytics statistics route, `trackVisitor` and the other thin routes are
  not part of this model. This covers the admin login, logout and session
  routes and the public feedback route.

Three behaviours of the code shape the model:

- `synoCallJson` clears the session and throws on an authentication failure.
  It does not log in again and retry. There is no session version counter and
  no distributed lock.
- The rate limiter records rejected attempts as well as accepted ones.
- A folder scan that completes without the item answers "not found". It does
  not fall through to direct lookups.

=== FILE: admin_feedback.dfy ===
/**
 * The admin feedback listing (`app/api/admin/feedback/route.ts`): the
 * authentication gate and the normalisation of the `page` and `limit`
 * query parameters before the store is asked for one page. Whether the
 * admin cookie is valid and what the store answers are parameters.
 */
module AdminFeedback {
  import opened Common
  import opened Strings
  import opened Json
  import opened Errors

  /** `DEFAULT_PAGE`, `DEFAULT_LIMIT`, `MAX_LIMIT`. */
  const DefaultPage: int := 1
  const DefaultLimit: int := 20
  const MaxLimit: int := 100

  /** `parseInt(param ?? String(fallback), 10)`, with `None` for `NaN`. */
  function ParamInt(param: Option<string>, fallback: int): Option<int> {
    ParseIntPrefix(param.GetOr(IntToString(fallback)))
  }

  /** The page number: the parsed value when it is a positive integer, else 1. */
  function NormalizePage(param: Option<string>): (page: int)
    ensures page >= 1
    ensures var parsed := ParamInt(param, DefaultPage);
            (parsed.Some? && parsed.value > 0 ==> page == parsed.value)
            && (parsed.None? || parsed.value <= 0 ==> page == DefaultPage)
  {
    match ParamInt(param, DefaultPage)
    case Some(p) => if p > 0 then p else DefaultPage
    case None => DefaultPage
  }

  /** The page size: the parsed value when it lies in 1..100, else 20. */
  function NormalizeLimit(param: Option<string>): (limit: int)
    ensures 1 <= limit <= MaxLimit
    ensures var parsed := ParamInt(param, DefaultLimit);
            (parsed.Some? && 0 < parsed.value <= MaxLimit ==> limit == parsed.value)
            && (parsed.None? || parsed.value <= 0 || parsed.value > MaxLimit ==> limit == DefaultLimit)
  {
    match ParamInt(param, DefaultLimit)
    case Some(l) => if 0 < l <= MaxLimit then l else DefaultLimit
    case None => DefaultLimit
  }

  /** Absent parameters give page 1 of 20. */
  lemma DefaultsWhenAbsent()
    ensures NormalizePage(None) == 1 && NormalizeLimit(None) == 20
  {
    ParseIntOfPrinted(DefaultPage, "");
    ParseIntOfPrinted(DefaultLimit, "");
    assert IntToString(DefaultPage) + "" == IntToString(DefaultPage);
    assert IntToString(DefaultLimit) + "" == IntToString(DefaultLimit);
  }

  /**
   * A page or limit the admin page printed itself, possibly followed by
   * non-digit text, is read back unchanged when it is in range.
   */
  lemma PrintedParamsRoundTrip(page: int, limit: int, rest: string)
    requires page >= 1 && 1 <= limit <= MaxLimit
    requires |rest| == 0 || !IsDigit(rest[0])
    ensures NormalizePage(Some(IntToString(page) + rest)) == page
    ensures NormalizeLimit(Some(IntToString(limit) + rest)) == limit
  {
    ParseIntOfPrinted(page, rest);
    ParseIntOfPrinted(limit, rest);
  }

  /** An out-of-range limit falls back to 20 rather than being clamped to 100. */
  lemma OversizedLimitFallsBack(limit: int)
    requires limit > MaxLimit
    ensures NormalizeLimit(Some(IntToString(limit))) == DefaultLimit
  {
    ParseIntOfPrinted(limit, "");
    assert IntToString(limit) + "" == IntToString(limit);
  }

  datatype FeedbackResponse =
    | Unauthorized
    | Listing(page: int, limit: int, result: Json)
    | RetrievalFailed

  function Status(r: FeedbackResponse): int {
    match r
    case Unauthorized => 401
    case Listing(_, _, _) => 200
    case RetrievalFailed => 500
  }

  /**
   * `GET /api/admin/feedback`. `authenticated` is `isAuthenticated()`;
   * `getFeedback` answers the store query for a page and limit. An
   * unauthenticated request is refused before any parameter is read or the
   * store is asked.
   */
  function FeedbackGet(authenticated: bool, pageParam: Option<string>, limitParam: Option<string>,
                       getFeedback: (int, int) -> CallOutcome): (r: FeedbackResponse)
    ensures !authenticated <==> r == Unauthorized
    ensures r.Listing? ==> r.page >= 1 && 1 <= r.limit <= MaxLimit
    ensures r.Listing? ==> r.page == NormalizePage(pageParam) && r.limit == NormalizeLimit(limitParam)
                           && getFeedback(r.page, r.limit) == Returned(r.result)
    ensures authenticated ==>
              (r == RetrievalFailed <==> getFeedback(NormalizePage(pageParam), NormalizeLimit(limitParam)).Threw?)
  {
    if !authenticated then Unauthorized
    else
      var page := NormalizePage(pageParam);
      var limit := NormalizeLimit(limitParam);
      match getFeedback(page, limit)
      case Returned(result) => Listing(page, limit, result)
      case Threw(_) => RetrievalFailed
  }

  /** Without authentication the answer is 401 whatever the query and the store would say. */
  lemma UnauthenticatedIgnoresQuery(p1: Option<string>, l1: Option<string>, p2: Option<string>, l2: Option<string>,
                                    g1: (int, int) -> CallOutcome, g2: (int, int) -> CallOutcome)
    ensures FeedbackGet(false, p1, l1, g1) == FeedbackGet(false, p2, l2, g2)
    ensures Status(FeedbackGet(false, p1, l1, g1)) == 401
  {
  }
}

=== FILE: analytics_track.dfy ===
/**
 * Page-view tracking (`app/api/analytics/track/route.ts`): the event body
 * is checked for its type and required id, its strings are cut to 500
 * characters, and the event is handed to the (fire-and-forget) store. The
 * store call is the `tracked` part of the result; the visitor id is a
 * parameter.
 */
module AnalyticsTrack {
  import opened Common
  import opened Strings
  import opened Json
  import opened Errors

  /** `MAX_STRING_LENGTH`. */
  const MaxStringLength: nat := 500

  /** Calling `.slice` or `.map` on a value that has no such method. */
  const NotAFunction: string := "TypeError: not a function"

  function Min(a: nat, b: nat): nat {
    if a <= b then a else b
  }

  /**
   * `sanitizeString(value, fallback)` on whatever the JSON body holds: a
   * falsy value gives the fallback; a string (or an array, which also has
   * `slice`) keeps its first 500 elements; any other value has no `slice`
   * and throws.
   */
  function SanitizeString(value: Json, fallback: string): (r: Result<Json>)
    ensures !Truthy(value) ==> r == Ok(JStr(fallback))
    ensures Truthy(value) && value.JStr? ==>
              r.Ok? && r.value.JStr? && |r.value.s| == Min(|value.s|, MaxStringLength)
              && r.value.s == value.s[..|r.value.s|]
    ensures Truthy(value) && value.JArr? ==>
              r.Ok? && r.value.JArr? && |r.value.elems| == Min(|value.elems|, MaxStringLength)
              && r.value.elems == value.elems[..|r.value.elems|]
    ensures r.Err? <==> Truthy(value) && !value.JStr? && !value.JArr?
    ensures r.Err? ==> r.failure == Other(NotAFunction)
  {
    if !Truthy(value) then Ok(JStr(fallback))
    else match value
      case JStr(s) => Ok(JStr(s[..Min(|s|, MaxStringLength)]))
      case JArr(a) => Ok(JArr(a[..Min(|a|, MaxStringLength)]))
      case _ => Err(Other(NotAFunction))
  }

  /**
   * A string that is already short enough is kept as it is, and with a
   * fallback that is itself short enough (the route's are "unknown" and
   * "Unknown"), sanitizing twice is sanitizing once.
   */
  lemma SanitizeIdempotent(s: string, fallback: string)
    requires |fallback| <= MaxStringLength
    ensures 0 < |s| <= MaxStringLength ==> SanitizeString(JStr(s), fallback) == Ok(JStr(s))
    ensures var once := SanitizeString(JStr(s), fallback);
            once.Ok? && SanitizeString(once.value, fallback) == once
  {
    var once := SanitizeString(JStr(s), fallback);
    if |s| > 0 {
      assert s[..|s|] == s;
      var t := once.value.s;
      assert t[..|t|] == t;
    } else {
      assert fallback[..|fallback|] == fallback;
    }
  }

  /** `folderPath?.map((p) => sanitizeString(p, "unknown"))`: absent when nullish, each element sanitized. */
  function SanitizePath(path: Json): (r: Result<Option<seq<Json>>>)
    ensures Nullish(path) ==> r == Ok(None)
    ensures !Nullish(path) && !path.JArr? ==> r == Err(Other(NotAFunction))
    ensures path.JArr? ==>
              (r.Ok? <==> forall i :: 0 <= i < |path.elems| ==> SanitizeString(path.elems[i], "unknown").Ok?)
    ensures path.JArr? && r.Ok? ==>
              r.value.Some? && |r.value.value| == |path.elems|
              && forall i :: 0 <= i < |path.elems| ==> Ok(r.value.value[i]) == SanitizeString(path.elems[i], "unknown")
  {
    if Nullish(path) then Ok(None)
    else if !path.JArr? then Err(Other(NotAFunction))
    else match SanitizeAll(path.elems)
      case Ok(elems) => Ok(Some(elems))
      case Err(f) => Err(f)
  }

  function SanitizeAll(elems: seq<Json>): (r: Result<seq<Json>>)
    ensures r.Ok? <==> forall i :: 0 <= i < |elems| ==> SanitizeString(elems[i], "unknown").Ok?
    ensures r.Ok? ==> |r.value| == |elems| && forall i :: 0 <= i < |elems| ==> Ok(r.value[i]) == SanitizeString(elems[i], "unknown")
    ensures r.Err? ==> r.failure == Other(NotAFunction)
  {
    if |elems| == 0 then Ok([])
    else
      match SanitizeString(elems[0], "unknown")
      case Err(f) => Err(f)
      case Ok(head) =>
        match SanitizeAll(elems[1..])
        case Err(f) =>
          assert exists i :: 1 <= i < |elems| && SanitizeString(elems[i], "unknown").Err? by {
            var j :| 0 <= j < |elems[1..]| && SanitizeString(elems[1..][j], "unknown").Err?;
            assert elems[j + 1] == elems[1..][j];
          }
          Err(f)
        case Ok(rest) =>
          assert forall i :: 1 <= i < |elems| ==> elems[i] == elems[1..][i - 1];
          Ok([head] + rest)
  }

  /** The event handed to `trackEvent`. */
  datatype TrackedEvent =
    | FolderView(folderId: Json, folderName: Json, visitorId: string)
    | ItemView(itemId: Json, itemFilename: Json, parentFolderId: Option<Json>, folderPath: Option<seq<Json>>, visitorId: string)

  datatype TrackResponse = TrackOk | TrackRejected(message: string)

  function Status(r: TrackResponse): int {
    if r.TrackOk? then 200 else 400
  }

  datatype TrackResult = TrackResult(response: TrackResponse, tracked: Option<TrackedEvent>)

  const InvalidBody: TrackResult := TrackResult(TrackRejected("Invalid request body"), None)

  /** Any exception in the handler is answered as an invalid body and tracks nothing. */
  function OrInvalid(e: Result<TrackedEvent>): (r: TrackResult)
    ensures r.response == TrackOk <==> e.Ok?
    ensures e.Ok? ==> r.tracked == Some(e.value)
    ensures e.Err? ==> r == InvalidBody
  {
    match e
    case Ok(event) => TrackResult(TrackOk, Some(event))
    case Err(_) => InvalidBody
  }

  /** The `folder_view` event, once its id is known to be truthy. */
  function FolderViewEvent(body: Json, visitorId: string): (r: Result<TrackedEvent>)
    ensures r.Ok? ==> r.value.FolderView? && r.value.visitorId == visitorId
                      && SanitizeString(Get(body, "folderId"), "unknown") == Ok(r.value.folderId)
                      && SanitizeString(Get(body, "folderName"), "Unknown") == Ok(r.value.folderName)
    ensures r.Err? <==> SanitizeString(Get(body, "folderId"), "unknown").Err? || SanitizeString(Get(body, "folderName"), "Unknown").Err?
  {
    match SanitizeString(Get(body, "folderId"), "unknown")
    case Err(f) => Err(f)
    case Ok(folderId) =>
      match SanitizeString(Get(body, "folderName"), "Unknown")
      case Err(f) => Err(f)
      case Ok(folderName) => Ok(FolderView(folderId, folderName, visitorId))
  }

  /** The `item_view` event, once its id is known to be truthy; a falsy `folderId` is left out. */
  function ItemViewEvent(body: Json, visitorId: string): (r: Result<TrackedEvent>)
    ensures r.Ok? ==> r.value.ItemView? && r.value.visitorId == visitorId
                      && SanitizeString(Get(body, "itemId"), "unknown") == Ok(r.value.itemId)
                      && SanitizeString(Get(body, "itemFilename"), "Unknown") == Ok(r.value.itemFilename)
                      && (r.value.parentFolderId.Some? <==> Truthy(Get(body, "folderId")))
                      && (r.value.parentFolderId.Some? ==> SanitizeString(Get(body, "folderId"), "unknown") == Ok(r.value.parentFolderId.value))
                      && SanitizePath(Get(body, "folderPath")) == Ok(r.value.folderPath)
  {
    match SanitizeString(Get(body, "itemId"), "unknown")
    case Err(f) => Err(f)
    case Ok(itemId) =>
      match SanitizeString(Get(body, "itemFilename"), "Unknown")
      case Err(f) => Err(f)
      case Ok(itemFilename) =>
        var folderId := if Truthy(Get(body, "folderId")) then SanitizeString(Get(body, "folderId"), "unknown") else Ok(JUndef);
        match folderId
        case Err(f) => Err(f)
        case Ok(folder) =>
          match SanitizePath(Get(body, "folderPath"))
          case Err(f) => Err(f)
          case Ok(path) =>
            Ok(ItemView(itemId, itemFilename, if Truthy(Get(body, "folderId")) then Some(folder) else None, path, visitorId))
  }

  /**
   * `POST /api/analytics/track`. `body` is what `request.json()` gave (or
   * threw). A `null` body throws on `body.type` and is answered as invalid.
   */
  function TrackPost(body: Result<Json>, visitorId: string): (r: TrackResult)
    ensures r.tracked.Some? <==> r.response.TrackOk?
    ensures body.Err? || Nullish(body.value) ==> r == InvalidBody
    ensures body.Ok? && !Nullish(body.value) ==>
              var kind := Get(body.value, "type");
              (kind != JStr("folder_view") && kind != JStr("item_view") ==> r == TrackResult(TrackRejected("Invalid event type"), None))
              && (kind == JStr("folder_view") && !Truthy(Get(body.value, "folderId")) ==>
                    r == TrackResult(TrackRejected("folderId is required for folder_view"), None))
              && (kind == JStr("item_view") && !Truthy(Get(body.value, "itemId")) ==>
                    r == TrackResult(TrackRejected("itemId is required for item_view"), None))
              && (kind == JStr("folder_view") && Truthy(Get(body.value, "folderId")) ==>
                    r == OrInvalid(FolderViewEvent(body.value, visitorId)))
              && (kind == JStr("item_view") && Truthy(Get(body.value, "itemId")) ==>
                    r == OrInvalid(ItemViewEvent(body.value, visitorId)))
    ensures r.tracked.Some? ==> r.tracked.value.visitorId == visitorId
    ensures r.tracked.Some? && r.tracked.value.FolderView? ==>
              body.Ok? && Get(body.value, "type") == JStr("folder_view") && Truthy(Get(body.value, "folderId"))
    ensures r.tracked.Some? && r.tracked.value.ItemView? ==>
              body.Ok? && Get(body.value, "type") == JStr("item_view") && Truthy(Get(body.value, "itemId"))
  {
    match body
    case Err(_) => InvalidBody
    case Ok(json) =>
      if Nullish(json) then InvalidBody
      else
        var kind := Get(json, "type");
        if kind == JStr("folder_view") then
          if !Truthy(Get(json, "folderId")) then TrackResult(TrackRejected("folderId is required for folder_view"), None)
          else OrInvalid(FolderViewEvent(json, visitorId))
        else if kind == JStr("item_view") then
          if !Truthy(Get(json, "itemId")) then TrackResult(TrackRejected("itemId is required for item_view"), None)
          else OrInvalid(ItemViewEvent(json, visitorId))
        else TrackResult(TrackRejected("Invalid event type"), None)
  }

  /** Every rejection is a 400 and tracks nothing; every acceptance is a 200 that tracks exactly one event. */
  lemma RejectionsTrackNothing(body: Result<Json>, visitorId: string)
    ensures var r := TrackPost(body, visitorId);
            (Status(r.response) == 400 <==> r.tracked.None?) && (Status(r.response) == 200 <==> r.tracked.Some?)
  {
  }

  /** A well-formed folder view with plain strings is tracked with those strings, cut to 500 characters. */
  lemma FolderViewTracked(folderId: string, folderName: string, visitorId: string)
    requires folderId != "" && folderName != ""
    ensures var body := JObj(map["type" := JStr("folder_view"), "folderId" := JStr(folderId), "folderName" := JStr(folderName)]);
            var r := TrackPost(Ok(body), visitorId);
            r.response == TrackOk && r.tracked.Some? && r.tracked.value.FolderView?
            && r.tracked.value.folderId.JStr? && StartsWith(folderId, r.tracked.value.folderId.s)
            && |r.tracked.value.folderId.s| == Min(|folderId|, MaxStringLength)
  {
    var body := JObj(map["type" := JStr("folder_view"), "folderId" := JStr(folderId), "folderName" := JStr(folderName)]);
    assert Get(body, "type") == JStr("folder_view");
    assert Get(body, "folderId") == JStr(folderId);
    assert Get(body, "folderName") == JStr(folderName);
  }

  /**
   * A well-formed item view without a folder is tracked with no parent
   * folder and no path, and its strings cut to 500 characters.
   */
  lemma ItemViewTracked(itemId: string, itemFilename: string, visitorId: string)
    requires itemId != "" && itemFilename != ""
    ensures var body := JObj(map["type" := JStr("item_view"), "itemId" := JStr(itemId), "itemFilename" := JStr(itemFilename)]);
            var r := TrackPost(Ok(body), visitorId);
            r.response == TrackOk && r.tracked.Some? && r.tracked.value.ItemView?
            && r.tracked.value.parentFolderId.None? && r.tracked.value.folderPath.None?
            && r.tracked.value.itemId.JStr? && StartsWith(itemId, r.tracked.value.itemId.s)
            && |r.tracked.value.itemId.s| == Min(|itemId|, MaxStringLength)
  {
    var body := JObj(map["type" := JStr("item_view"), "itemId" := JStr(itemId), "itemFilename" := JStr(itemFilename)]);
    assert Get(body, "type") == JStr("item_view");
    assert Get(body, "itemId") == JStr(itemId);
    assert Get(body, "itemFilename") == JStr(itemFilename);
    assert Get(body, "folderId") == JUndef;
    assert Get(body, "folderPath") == JUndef;
  }
}

=== FILE: collections.dfy ===
/**
 * The collection listing route (`app/api/collections/route.ts`): the choice
 * between the upstream's `list` and `list_parents` methods, the request
 * parameters, and the page the route answers with. Its private copies of
 * `extractList` and `parseNumberParam` behave exactly like the library's
 * (`Mappers.ExtractList`, `Mappers.ParseNumberParam`); its copy of
 * `mapCollection` builds the cover URL without the `folder_id` query
 * (`Mappers.Bare`). The upstream call's outcome is a parameter.
 */
module Collections {
  import opened Common
  import opened Strings
  import opened Json
  import opened Errors
  import opened Mappers
  import Records
  import Seqs

  /** `URLSearchParams`, reduced to the first value of each name. */
  type SearchParams = map<string, string>

  function Param(params: SearchParams, name: string): Option<string> {
    if name in params then Some(params[name]) else None
  }

  datatype ListMethod = List | ListParents

  /** The upstream method and, for `list`, its parameters. */
  datatype FolderListRequest = FolderListRequest(mode: ListMethod, params: map<string, Json>)

  /** The parameters whose presence alone asks for the paged `list` method. */
  const ListParamNames: seq<string> := ["offset", "limit", "id", "sort_by", "sort_direction"]

  /** `Boolean(rootId)` on the raw, untrimmed environment value. */
  predicate RootConfigured(rootEnv: Option<string>) {
    rootEnv.Some? && rootEnv.value != ""
  }

  /** `params.get("id") ?? rootId ?? "1"`: an empty `id` parameter or empty root variable is kept as "". */
  function RequestedId(params: SearchParams, rootEnv: Option<string>): string {
    if "id" in params then params["id"] else if rootEnv.Some? then rootEnv.value else "1"
  }

  /** Whether the query or the environment asks for the paged `list` method. */
  predicate HasListParams(params: SearchParams, rootEnv: Option<string>)
    ensures HasListParams(params, rootEnv) <==>
              RootConfigured(rootEnv) || exists i :: 0 <= i < |ListParamNames| && ListParamNames[i] in params
  {
    var names := ListParamNames;
    assert names[0] == "offset" && names[1] == "limit" && names[2] == "id" && names[3] == "sort_by" && names[4] == "sort_direction";
    RootConfigured(rootEnv) || "offset" in params || "limit" in params || "id" in params
    || "sort_by" in params || "sort_direction" in params
  }

  /** The sort parameters `list` forwards: a non-empty `sort_by`, and `sort_direction` when exactly "asc" or "desc". */
  function SortParams(params: SearchParams, m: map<string, Json>): (r: map<string, Json>)
    requires "sort_by" !in m && "sort_direction" !in m
    ensures "sort_by" in r <==> Param(params, "sort_by").Some? && params["sort_by"] != ""
    ensures "sort_by" in r ==> r["sort_by"] == JStr(params["sort_by"])
    ensures "sort_direction" in r <==>
              Param(params, "sort_direction") == Some("asc") || Param(params, "sort_direction") == Some("desc")
    ensures "sort_direction" in r ==> r["sort_direction"] == JStr(params["sort_direction"])
    ensures forall k :: k in m ==> k in r && r[k] == m[k]
    ensures forall k :: k in r ==> k in m || k == "sort_by" || k == "sort_direction"
  {
    var withSort := if "sort_by" in params && params["sort_by"] != "" then m["sort_by" := JStr(params["sort_by"])] else m;
    var sortDirection := Param(params, "sort_direction");
    if sortDirection == Some("asc") || sortDirection == Some("desc") then withSort["sort_direction" := JStr(sortDirection.value)]
    else withSort
  }

  /** The parameters of `list`: offset, limit, the id when non-empty (a number when it parses as one), and the sort. */
  function ListParams(params: SearchParams, rootEnv: Option<string>, offset: int, limit: int): (r: map<string, Json>)
    ensures "offset" in r && r["offset"] == JNum(offset) && "limit" in r && r["limit"] == JNum(limit)
    ensures "id" in r <==> RequestedId(params, rootEnv) != ""
    ensures "id" in r ==> r["id"] == NumericIdValue(ParseNumericId(RequestedId(params, rootEnv)))
    ensures "sort_by" in r <==> Param(params, "sort_by").Some? && params["sort_by"] != ""
    ensures "sort_by" in r ==> r["sort_by"] == JStr(params["sort_by"])
    ensures "sort_direction" in r <==>
              Param(params, "sort_direction") == Some("asc") || Param(params, "sort_direction") == Some("desc")
    ensures "sort_direction" in r ==> r["sort_direction"] == JStr(params["sort_direction"])
    ensures forall k :: k in r ==> k in ListParamNames
  {
    ParamNamesDistinct();
    var paging := PagingParams(RequestedId(params, rootEnv), offset, limit);
    SortParams(params, paging)
  }

  /** The five parameter names are different strings. */
  lemma ParamNamesDistinct()
    ensures forall i, j :: 0 <= i < j < |ListParamNames| ==> ListParamNames[i] != ListParamNames[j]
    ensures forall k :: k in ListParamNames <==>
              k == "offset" || k == "limit" || k == "id" || k == "sort_by" || k == "sort_direction"
  {
    var names := ListParamNames;
    assert |names[0]| == 6 && |names[1]| == 5 && |names[2]| == 2 && |names[3]| == 7 && |names[4]| == 14;
  }

  /** Offset, limit and, when `idValue` is non-empty, the id. */
  function PagingParams(idValue: string, offset: int, limit: int): (r: map<string, Json>)
    ensures "offset" in r && r["offset"] == JNum(offset) && "limit" in r && r["limit"] == JNum(limit)
    ensures "id" in r <==> idValue != ""
    ensures "id" in r ==> r["id"] == NumericIdValue(ParseNumericId(idValue))
    ensures forall k :: k in r ==> k == "offset" || k == "limit" || k == "id"
  {
    ParamNamesDistinct();
    var base := map["offset" := JNum(offset), "limit" := JNum(limit)];
    if idValue != "" then base["id" := NumericIdValue(ParseNumericId(idValue))] else base
  }

  /**
   * `buildFolderListRequest`: `list_parents` with no parameters when no root
   * is configured and the query names none of the list parameters;
   * otherwise `list` with `ListParams`.
   */
  function BuildFolderListRequest(params: SearchParams, rootEnv: Option<string>, offset: int, limit: int): (r: FolderListRequest)
    ensures r.mode == ListParents <==> !RootConfigured(rootEnv) && forall i :: 0 <= i < |ListParamNames| ==> ListParamNames[i] !in params
    ensures r.mode == ListParents ==> r.params == map[]
    ensures r.mode == List ==> r.params == ListParams(params, rootEnv, offset, limit)
  {
    if HasListParams(params, rootEnv) then FolderListRequest(List, ListParams(params, rootEnv, offset, limit))
    else FolderListRequest(ListParents, map[])
  }

  /** With a root configured and no `id` parameter, the listing starts at the root, sent as a number when it is one. */
  lemma RootIsDefaultId(params: SearchParams, root: string, n: int)
    requires "id" !in params
    requires ParseNumber(root) == Some(n) && root != ""
    ensures var r := BuildFolderListRequest(params, Some(root), 0, 100);
            r.mode == List && "id" in r.params && r.params["id"] == JNum(n)
  {
  }

  /** With neither an `id` parameter nor a root but some list parameter, the listing starts at folder 1. */
  lemma FolderOneIsLastResort(params: SearchParams, offset: int, limit: int)
    requires "id" !in params && "offset" in params
    ensures var r := BuildFolderListRequest(params, None, offset, limit);
            r.mode == List && r.params["id"] == JNum(1)
  {
    SingleDigitNumber('1');
    assert "1" == ['1'];
  }

  /**
   * `list.map(mapCollection).filter(Boolean)`: the mapped entries in order,
   * without the ones lacking a usable id. A `null` or `undefined` entry
   * makes `mapCollection` read a property of it and throw.
   */
  function MapEntries(list: seq<Json>, origin: string): (r: Result<seq<Collection>>)
    ensures r.Ok? <==> forall i :: 0 <= i < |list| ==> !Nullish(list[i])
    ensures r.Err? ==> r.failure == Other(Records.PropertyOfNullish)
    ensures r.Ok? ==> |r.value| <= |list|
    ensures r.Ok? ==> forall k :: 0 <= k < |r.value| ==>
              exists i :: 0 <= i < |list| && MapCollection(list[i], origin, Bare) == Some(r.value[k])
    ensures r.Ok? && (forall i :: 0 <= i < |list| ==> MapCollection(list[i], origin, Bare).Some?) ==>
              |r.value| == |list| && forall i :: 0 <= i < |list| ==> Some(r.value[i]) == MapCollection(list[i], origin, Bare)
    ensures r.Ok? ==> r.value == Present(Seqs.Map(CollectionOf(origin), list))
  {
    MapPresent(list, CollectionOf(origin))
  }

  function CollectionOf(origin: string): Json -> Option<Collection> {
    entry => MapCollection(entry, origin, Bare)
  }

  /** `.filter(Boolean)` over optional values: the values of the `Some`s, in order. */
  function Present<T>(s: seq<Option<T>>): (r: seq<T>)
    ensures |r| <= |s|
  {
    if |s| == 0 then [] else (if s[0].Some? then [s[0].value] else []) + Present(s[1..])
  }

  /** Wrapping the present values back up gives exactly the `Some` entries, in their order. */
  lemma {:induction false} PresentIsFilter<T>(s: seq<Option<T>>)
    ensures Seqs.Map((x: T) => Some(x), Present(s)) == Seqs.Filter((o: Option<T>) => o.Some?, s)
  {
    if |s| > 0 {
      PresentIsFilter(s[1..]);
      var head: seq<T> := if s[0].Some? then [s[0].value] else [];
      Seqs.MapAppend((x: T) => Some(x), head, Present(s[1..]));
    }
  }

  /** The present values of a concatenation are those of each part, in order. */
  lemma {:induction false} PresentAppend<T>(a: seq<Option<T>>, b: seq<Option<T>>)
    ensures Present(a + b) == Present(a) + Present(b)
  {
    if |a| > 0 {
      assert (a + b)[1..] == a[1..] + b;
      PresentAppend(a[1..], b);
    } else {
      assert a + b == b;
    }
  }

  /** When every entry is present, nothing is dropped. */
  lemma {:induction false} PresentOfAllSome<T>(s: seq<Option<T>>)
    requires forall i :: 0 <= i < |s| ==> s[i].Some?
    ensures |Present(s)| == |s| && forall i :: 0 <= i < |s| ==> Present(s)[i] == s[i].value
  {
    if |s| > 0 {
      PresentOfAllSome(s[1..]);
    }
  }

  /** The present values of the mapped list: those of the first entry, then those of the rest. */
  lemma PresentOfMapUnfold<T>(list: seq<Json>, f: Json -> Option<T>)
    requires |list| > 0
    ensures Present(Seqs.Map(f, list)) == (if f(list[0]).Some? then [f(list[0]).value] else []) + Present(Seqs.Map(f, list[1..]))
  {
    assert Seqs.Map(f, list)[1..] == Seqs.Map(f, list[1..]);
  }

  /**
   * `list.map(f).filter(Boolean)` for an `f` that reads a property of each
   * entry: a nullish entry throws; entries `f` maps to nothing are dropped.
   */
  function MapPresent<T>(list: seq<Json>, f: Json -> Option<T>): (r: Result<seq<T>>)
    ensures r.Ok? <==> forall i :: 0 <= i < |list| ==> !Nullish(list[i])
    ensures r.Err? ==> r.failure == Other(Records.PropertyOfNullish)
    ensures r.Ok? ==> |r.value| <= |list|
    ensures r.Ok? ==> forall k :: 0 <= k < |r.value| ==> exists i :: 0 <= i < |list| && f(list[i]) == Some(r.value[k])
    ensures r.Ok? && (forall i :: 0 <= i < |list| ==> f(list[i]).Some?) ==>
              |r.value| == |list| && forall i :: 0 <= i < |list| ==> Some(r.value[i]) == f(list[i])
    ensures r.Ok? ==> r.value == Present(Seqs.Map(f, list))
  {
    if |list| == 0 then Ok([])
    else
      var rest := MapPresent(list[1..], f);
      if Nullish(list[0]) then Err(Other(Records.PropertyOfNullish))
      else if rest.Err? then
        assert exists i :: 1 <= i < |list| && Nullish(list[i]) by {
          var j :| 0 <= j < |list[1..]| && Nullish(list[1..][j]);
          assert list[j + 1] == list[1..][j];
        }
        rest
      else
        var head := f(list[0]);
        var value := if head.Some? then [head.value] + rest.value else rest.value;
        PresentOfMapUnfold(list, f);
        assert forall k :: 0 <= k < |rest.value| ==> exists i :: 0 <= i < |list| && f(list[i]) == Some(rest.value[k]) by {
          forall k | 0 <= k < |rest.value|
            ensures exists i :: 0 <= i < |list| && f(list[i]) == Some(rest.value[k])
          {
            var j :| 0 <= j < |list[1..]| && f(list[1..][j]) == Some(rest.value[k]);
            assert list[j + 1] == list[1..][j];
          }
        }
        Ok(value)
  }

  /** The page the route answers with. */
  datatype CollectionsPage = CollectionsPage(data: seq<Collection>, offset: int, limit: int, total: int)

  /** The route's answer: the page, or the error `handleApiError` renders. */
  datatype CollectionsResponse = PageResponse(page: CollectionsPage) | ErrorReply(error: ErrorResponse)

  /**
   * The page arithmetic of `GET`: `list_parents` answers a single page at
   * offset 0 whose limit is the number of collections returned; the total is
   * the upstream's when positive, else the offset plus the number returned.
   */
  function PageOf(mode: ListMethod, offset: int, limit: int, data: seq<Collection>, upstreamTotal: int): (p: CollectionsPage)
    ensures p.data == data
    ensures mode == ListParents ==> p.offset == 0 && p.limit == |data|
    ensures mode == List ==> p.offset == offset && p.limit == limit
    ensures upstreamTotal > 0 ==> p.total == upstreamTotal
    ensures upstreamTotal <= 0 ==> p.total == p.offset + |data|
  {
    var resolvedOffset := if mode == ListParents then 0 else offset;
    var resolvedLimit := if mode == ListParents then |data| else limit;
    var total := if upstreamTotal > 0 then upstreamTotal else resolvedOffset + |data|;
    CollectionsPage(data, resolvedOffset, resolvedLimit, total)
  }

  /**
   * The second half of `GET`: the upstream's answer to the listing request
   * turned into the page, or into the error `handleApiError` renders.
   */
  function AnswerListing(outcome: CallOutcome, mode: ListMethod, offset: int, limit: int, origin: string): (r: CollectionsResponse)
    ensures outcome.Threw? ==> r == ErrorReply(HandleApiError(outcome.failure))
    ensures r.ErrorReply? && outcome.Returned? ==>
              r.error == HandleApiError(Other(Records.PropertyOfNullish))
              && exists i :: 0 <= i < |ExtractList(outcome.data).list| && Nullish(ExtractList(outcome.data).list[i])
    ensures r.PageResponse? ==>
              && outcome.Returned?
              && |r.page.data| <= |ExtractList(outcome.data).list|
              && r.page.data == Present(Seqs.Map(CollectionOf(origin), ExtractList(outcome.data).list))
              && (forall k :: 0 <= k < |r.page.data| ==>
                    exists i :: 0 <= i < |ExtractList(outcome.data).list|
                                && MapCollection(ExtractList(outcome.data).list[i], origin, Bare) == Some(r.page.data[k]))
              && (mode == List ==> r.page.offset == offset && r.page.limit == limit)
              && (mode == ListParents ==> r.page.offset == 0 && r.page.limit == |r.page.data|)
              && r.page.total == if ExtractList(outcome.data).total > 0 then ExtractList(outcome.data).total
                                 else r.page.offset + |r.page.data|
    ensures outcome.Returned? && (forall i :: 0 <= i < |ExtractList(outcome.data).list| ==> !Nullish(ExtractList(outcome.data).list[i]))
            ==> r.PageResponse?
  {
    match outcome
    case Threw(f) => ErrorReply(HandleApiError(f))
    case Returned(data) =>
      var page := ExtractList(data);
      match MapEntries(page.list, origin)
      case Err(f) => ErrorReply(HandleApiError(f))
      case Ok(collections) => PageResponse(PageOf(mode, offset, limit, collections, page.total))
  }

  /**
   * `GET /api/collections`. `rootEnv` is `SYNOLOGY_ROOT_FOLDER_ID`; `upstream`
   * answers the request `BuildFolderListRequest` made. Offset and limit
   * default to 0 and 100.
   */
  function ListCollections(params: SearchParams, rootEnv: Option<string>, origin: string,
                           upstream: FolderListRequest -> CallOutcome): (r: CollectionsResponse)
    ensures var offset := ParseNumberParam(Param(params, "offset"), 0);
            var limit := ParseNumberParam(Param(params, "limit"), 100);
            var request := BuildFolderListRequest(params, rootEnv, offset, limit);
            r == AnswerListing(upstream(request), request.mode, offset, limit, origin)
    ensures var request := BuildFolderListRequest(params, rootEnv, ParseNumberParam(Param(params, "offset"), 0),
                                                  ParseNumberParam(Param(params, "limit"), 100));
            r.PageResponse? && request.mode == List ==>
              && (Param(params, "offset").None? ==> r.page.offset == 0)
              && (Param(params, "limit").None? ==> r.page.limit == 100)
  {
    var offset := ParseNumberParam(Param(params, "offset"), 0);
    var limit := ParseNumberParam(Param(params, "limit"), 100);
    var request := BuildFolderListRequest(params, rootEnv, offset, limit);
    AnswerListing(upstream(request), request.mode, offset, limit, origin)
  }

  /** Without any query or root, the route lists the top-level folders as one complete page. */
  lemma TopLevelIsOnePage(origin: string, upstream: FolderListRequest -> CallOutcome, list: seq<Json>)
    requires upstream(FolderListRequest(ListParents, map[])) == Returned(JObj(map["list" := JArr(list)]))
    requires forall i :: 0 <= i < |list| ==> !Nullish(list[i])
    ensures var r := ListCollections(map[], None, origin, upstream);
            r.PageResponse? && r.page.offset == 0 && r.page.limit == |r.page.data| && |r.page.data| <= |list|
  {
    var request := BuildFolderListRequest(map[], None, 0, 100);
    assert request == FolderListRequest(ListParents, map[]);
  }
}

=== FILE: common.dfy ===
/** Small shared datatypes used by every other module. */
module Common {

  /** A value that may be absent: JavaScript's `null`/`undefined` for a typed field. */
  datatype Option<+T> = None | Some(value: T) {

    function GetOr(default: T): T {
      match this
      case Some(v) => v
      case None => default
    }
  }
}

=== FILE: errors.dfy ===
/**
 * The error vocabulary of the server (`lib/api/errors.ts`, `lib/synology/types.ts`):
 * an `ApiError` carries its own HTTP status and code, a `SynologyApiError` an
 * optional upstream code, and anything else thrown is opaque. `HandleApiError`
 * turns each into the JSON error response every route returns.
 */
module Errors {
  import opened Common
  import opened Strings
  import opened Json

  /** `ApiError`: an HTTP status, a machine-readable code, a message and optional details. */
  datatype ApiError = ApiError(status: int, code: string, message: string, details: Option<Json>)

  /** Whatever a server function can throw. */
  datatype Failure =
    | Api(api: ApiError)
      /** `SynologyApiError`: a failed upstream call, with the upstream error code or HTTP status when known. */
    | Synology(message: string, synoCode: Option<int>)
      /** Any other `Error`, such as "Missing env …" or a `TypeError`. */
    | Other(message: string)

  /** A return value, or the failure thrown instead. */
  datatype Result<+T> = Ok(value: T) | Err(failure: Failure)

  /** One upstream `synoCallJson` call: the `data` it returned, or what it threw. */
  datatype CallOutcome = Returned(data: Json) | Threw(failure: Failure)

  function BadRequest(message: string, details: Option<Json>): ApiError {
    ApiError(400, "BAD_REQUEST", message, details)
  }

  function NotFound(message: string): ApiError {
    ApiError(404, "NOT_FOUND", message, None)
  }

  function Unauthorized(message: string): ApiError {
    ApiError(401, "UNAUTHORIZED", message, None)
  }

  function ServiceUnavailable(message: string): ApiError {
    ApiError(503, "SERVICE_UNAVAILABLE", message, None)
  }

  function RangeNotSatisfiable(message: string): ApiError {
    ApiError(416, "RANGE_NOT_SATISFIABLE", message, None)
  }

  /** The `upstream` part of an error body. */
  datatype Upstream = Upstream(provider: string, synologyErrorCode: Option<int>)

  /** `{ error: { code, message, details?, upstream? } }`; the random `traceId` is not modelled. */
  datatype ErrorBody = ErrorBody(code: string, message: string, details: Option<Json>, upstream: Option<Upstream>)

  datatype ErrorResponse = ErrorResponse(status: int, body: ErrorBody)

  /** `handleApiError`: renders a thrown value as the route's error response. */
  function HandleApiError(f: Failure): (r: ErrorResponse)
    ensures f.Api? ==> r.status == f.api.status && r.body.code == f.api.code
                       && r.body.message == f.api.message && r.body.details == f.api.details
    ensures r.body.upstream.Some? <==> f.Synology?
    ensures f.Synology? ==> r.status == 502 && r.body.code == "UPSTREAM_ERROR"
                            && r.body.upstream == Some(Upstream("synology", f.synoCode))
    ensures !f.Api? ==> r.body.details.None?
    ensures f.Other? ==> r.status == 503 && r.body.code == "SERVICE_UNAVAILABLE" && r.body.message == "Service unavailable"
  {
    match f
    case Api(e) => ErrorResponse(e.status, ErrorBody(e.code, e.message, e.details, None))
    case Synology(m, c) => ErrorResponse(502, ErrorBody("UPSTREAM_ERROR", m, None, Some(Upstream("synology", c))))
    case Other(m) =>
      if StartsWith(m, "Missing env") then
        ErrorResponse(503, ErrorBody("SERVICE_UNAVAILABLE", "Service unavailable", None, None))
      else
        ErrorResponse(503, ErrorBody("SERVICE_UNAVAILABLE", "Service unavailable", None, None))
  }

  /** The message of an unexpected error never reaches the client: all such errors render identically. */
  lemma InternalErrorsIndistinguishable(m1: string, m2: string)
    ensures HandleApiError(Other(m1)) == HandleApiError(Other(m2))
  {
  }

  /** Each constructor's error renders with its fixed status and code and the caller's message. */
  lemma ConstructorResponses(m: string, d: Option<Json>)
    ensures var r := HandleApiError(Api(BadRequest(m, d))); r.status == 400 && r.body.code == "BAD_REQUEST" && r.body.message == m && r.body.details == d
    ensures var r := HandleApiError(Api(Unauthorized(m))); r.status == 401 && r.body.code == "UNAUTHORIZED" && r.body.message == m
    ensures var r := HandleApiError(Api(NotFound(m))); r.status == 404 && r.body.code == "NOT_FOUND" && r.body.message == m
    ensures var r := HandleApiError(Api(RangeNotSatisfiable(m))); r.status == 416 && r.body.code == "RANGE_NOT_SATISFIABLE"
    ensures var r := HandleApiError(Api(ServiceUnavailable(m))); r.status == 503 && r.body.code == "SERVICE_UNAVAILABLE"
    ensures forall e :: e in [Unauthorized(m), NotFound(m), RangeNotSatisfiable(m), ServiceUnavailable(m)] ==>
              HandleApiError(Api(e)).body.details.None?
  {
  }
}

=== FILE: filtering.dfy ===
/**
 * The hide policy of `lib/api/filtering.ts`: a folder is hidden by a `(hide)`
 * title suffix, an item by an exact `hide` tag found among its many tag
 * fields, both compared after trimming and lower-casing. Also the merge of
 * required names into an `additional` field list.
 */
module Filtering {
  import opened Common
  import opened Strings
  import opened Json
  import opened Seqs

  const HideTag: string := "hide"
  const HideSuffix: string := "(hide)"

  /** The aliases under which a folder carries its display title. */
  const TitleKeys: seq<string> := ["name", "title", "folder_name", "display_name"]

  /** The fields, at top level and under `additional`, that may carry tags. */
  const TagKeys: seq<string> := ["tag", "tags", "tag_list", "taglist"]

  // ---------------------------------------------------------------------------
  // folders

  /** `isHiddenFolderTitle`: the trimmed, lower-cased title ends with `(hide)`. */
  predicate IsHiddenFolderTitle(title: string) {
    EndsWith(Lower(Trim(title)), HideSuffix)
  }

  /** Appending `(hide)` in any letter case, followed by any whitespace, hides every title. */
  lemma HideSuffixHides(title: string, marker: string, trailing: string)
    requires Lower(marker) == HideSuffix
    requires forall i :: 0 <= i < |trailing| ==> IsSpace(trailing[i])
    ensures IsHiddenFolderTitle(title + marker + trailing)
  {
    var s := title + marker + trailing;
    var hi := |title| + |marker|;
    assert LowerChar(marker[0]) == '(' && LowerChar(marker[5]) == ')';
    assert s[|title|] == marker[0] && s[hi - 1] == marker[5];
    var k := TrimOfPadded(s, |title|, hi);
    assert EndsWith(s[k..hi], marker);
    LowerSuffix(s[k..hi], marker);
  }

  /** Only the suffix counts: a title with no closing parenthesis is never hidden, whatever it contains. */
  lemma NoParenNotHidden(title: string)
    requires ')' !in title
    ensures !IsHiddenFolderTitle(title)
  {
    var k := TrimIsInfix(title);
    var r := Trim(title);
    if |r| >= 6 {
      assert r[|r| - 1] == title[k + |r| - 1];
      assert Lower(r)[|r| - 1] == LowerChar(r[|r| - 1]) != ')';
    }
  }

  /** `isHiddenFolderEntry`: judged on the first non-nullish title alias, and never hidden when that is falsy. */
  predicate IsHiddenFolderEntry(entry: Json) {
    var title := Alias(entry, TitleKeys);
    Truthy(title) && IsHiddenFolderTitle(ToStr(title))
  }

  /** Folder visibility reads only the title aliases: two entries that agree on them are judged alike. */
  lemma FolderHidingReadsOnlyTitles(a: Json, b: Json)
    requires forall k :: k in TitleKeys ==> Get(a, k) == Get(b, k)
    ensures IsHiddenFolderEntry(a) == IsHiddenFolderEntry(b)
  {
    AliasAgrees(a, b, TitleKeys);
  }

  lemma {:induction false} AliasAgrees(a: Json, b: Json, keys: seq<string>)
    requires |keys| > 0
    requires forall k :: k in keys ==> Get(a, k) == Get(b, k)
    ensures Alias(a, keys) == Alias(b, keys)
  {
    if |keys| > 1 {
      AliasAgrees(a, b, keys[1..]);
    }
  }

  // ---------------------------------------------------------------------------
  // items

  /** `appendTagCandidates`: what one tag-bearing field contributes to the candidate list. */
  function TagCandidatesOf(value: Json): (r: seq<Json>)
    ensures !Truthy(value) ==> r == []
    ensures value.JStr? && Truthy(value) ==> r == [value]
    ensures value.JArr? ==> r == value.elems
  {
    if !Truthy(value) then []
    else
      match value
      case JStr(_) => [value]
      case JArr(es) => es
      case JObj(_) =>
        var name := Get(value, "name");
        (if name.JStr? then [name] else [])
        + ArrayElems(Get(value, "list"))
        + ArrayElems(Get(value, "tags"))
        + ArrayElems(Get(value, "tag"))
      case _ => []
  }

  /** The elements of an array; nothing for any other value. */
  function ArrayElems(v: Json): seq<Json> {
    if v.JArr? then v.elems else []
  }

  /** `collectTagCandidates`: the tag fields at top level, then the same fields under `additional`. */
  function TagCandidates(entry: Json): seq<Json> {
    FieldCandidates(entry) + FieldCandidates(Get(entry, "additional"))
  }

  /** What the four tag fields of one record contribute, in the order of `TagKeys`. */
  function FieldCandidates(src: Json): seq<Json> {
    TagCandidatesOf(Get(src, TagKeys[0])) + TagCandidatesOf(Get(src, TagKeys[1]))
    + TagCandidatesOf(Get(src, TagKeys[2])) + TagCandidatesOf(Get(src, TagKeys[3]))
  }

  /** `matchesTagName`: a string, or an object's `name ?? tag ?? title` string, equal to `tag` after trim and lower-case. */
  predicate MatchesTagName(value: Json, tag: string) {
    var target := Lower(Trim(tag));
    if value.JStr? then Lower(Trim(value.s)) == target
    else if Truthy(value) && (value.JObj? || value.JArr?) then
      var name := Alias(value, ["name", "tag", "title"]);
      name.JStr? && Lower(Trim(name.s)) == target
    else false
  }

  /** `hasHideTag`. */
  predicate HasHideTag(entry: Json) {
    exists c | c in TagCandidates(entry) :: MatchesTagName(c, HideTag)
  }

  lemma HideTagNormal()
    ensures Lower(Trim(HideTag)) == HideTag
  {
    HideTagIsLowerWord();
    LowercaseWordIsNormal(HideTag);
  }

  lemma HideTagIsLowerWord()
    ensures forall i :: 0 <= i < |HideTag| ==> 'a' <= HideTag[i] <= 'z'
  {
  }

  /** The match is exact: a candidate string of another length once trimmed never matches, so `hidden` does not. */
  lemma TagMatchIsExact(s: string)
    requires |Trim(s)| != |HideTag|
    ensures !MatchesTagName(JStr(s), HideTag)
  {
    HideTagNormal();
  }

  /** The value found at a tag field, top-level or under `additional`. */
  function TagField(entry: Json, key: string, underAdditional: bool): Json {
    if underAdditional then Get(Get(entry, "additional"), key) else Get(entry, key)
  }

  /** Every tag field's contribution is among the candidates. */
  lemma TagFieldContributes(entry: Json, key: string, underAdditional: bool)
    requires key in TagKeys
    ensures forall x :: x in TagCandidatesOf(TagField(entry, key, underAdditional)) ==> x in TagCandidates(entry)
  {
    var src := if underAdditional then Get(entry, "additional") else entry;
    assert TagField(entry, key, underAdditional) == Get(src, key);
    FieldContributes(src, key);
  }

  lemma FieldContributes(src: Json, key: string)
    requires key in TagKeys
    ensures forall x :: x in TagCandidatesOf(Get(src, key)) ==> x in FieldCandidates(src)
  {
    var i :| 0 <= i < |TagKeys| && TagKeys[i] == key;
    var parts := [TagCandidatesOf(Get(src, TagKeys[0])), TagCandidatesOf(Get(src, TagKeys[1])),
                  TagCandidatesOf(Get(src, TagKeys[2])), TagCandidatesOf(Get(src, TagKeys[3]))];
    assert FieldCandidates(src) == parts[0] + parts[1] + parts[2] + parts[3];
    assert TagCandidatesOf(Get(src, key)) == parts[i];
  }

  /** A `hide` tag string inside any tag array field, top-level or under `additional`, hides the item. */
  lemma HideTagInArrayHides(entry: Json, key: string, underAdditional: bool, s: string)
    requires key in TagKeys
    requires Lower(Trim(s)) == HideTag
    requires TagField(entry, key, underAdditional).JArr? && JStr(s) in TagField(entry, key, underAdditional).elems
    ensures HasHideTag(entry)
  {
    TagFieldContributes(entry, key, underAdditional);
    assert JStr(s) in TagCandidates(entry);
    HideTagNormal();
    assert MatchesTagName(JStr(s), HideTag);
  }

  /** A tag object whose `name` is `hide`, at any tag field, hides the item. */
  lemma HideTagObjectHides(entry: Json, key: string, underAdditional: bool, s: string)
    requires key in TagKeys
    requires Lower(Trim(s)) == HideTag
    requires TagField(entry, key, underAdditional).JObj? && Get(TagField(entry, key, underAdditional), "name") == JStr(s)
    ensures HasHideTag(entry)
  {
    TagFieldContributes(entry, key, underAdditional);
    assert JStr(s) in TagCandidatesOf(TagField(entry, key, underAdditional));
    HideTagNormal();
    assert MatchesTagName(JStr(s), HideTag);
  }

  /** Item visibility reads only the tag fields: two entries that agree on them are judged alike. */
  lemma ItemHidingReadsOnlyTags(a: Json, b: Json)
    requires forall k :: k in TagKeys ==> Get(a, k) == Get(b, k)
    requires Get(a, "additional") == Get(b, "additional")
    ensures HasHideTag(a) == HasHideTag(b)
  {
    assert TagCandidates(a) == TagCandidates(b);
  }

  // ---------------------------------------------------------------------------
  // `additional` field lists

  /** The `additional` query value: the caller's original text, or a list to serialise. */
  datatype AdditionalValue = Text(text: string) | Fields(fields: seq<string>)

  predicate NonEmpty(s: string) { |s| > 0 }

  /**
   * `map((v) => v.trim()).filter(Boolean)`: the trimmed entries that are not
   * empty, each occurrence kept, in their original order.
   */
  function CleanList(entries: seq<string>): (r: seq<string>)
    ensures forall i :: 0 <= i < |r| ==> |r[i]| > 0 && NoEdgeSpace(r[i])
    ensures IsSubseq(r, Map(Trim, entries))
    ensures forall x :: multiset(r)[x] == if |x| > 0 then multiset(Map(Trim, entries))[x] else 0
  {
    var trimmed := Map(Trim, entries);
    assert forall x :: x in trimmed ==> NoEdgeSpace(x);
    FilterIsSubseq(NonEmpty, trimmed);
    FilterCountsAll(NonEmpty, trimmed);
    Filter(NonEmpty, trimmed)
  }

  /** A list whose entries are already non-empty and trimmed is cleaned to itself. */
  lemma CleanListOfClean(entries: seq<string>)
    requires forall i :: 0 <= i < |entries| ==> |entries[i]| > 0 && NoEdgeSpace(entries[i])
    ensures CleanList(entries) == entries
  {
    forall i | 0 <= i < |entries|
      ensures Trim(entries[i]) == entries[i]
    {
      TrimIdempotent(entries[i]);
    }
    assert Map(Trim, entries) == entries;
    FilterKeepsAll(NonEmpty, entries);
  }

  /** Cleaning a cleaned list changes nothing. */
  lemma CleanListIdempotent(entries: seq<string>)
    ensures CleanList(CleanList(entries)) == CleanList(entries)
  {
    CleanListOfClean(CleanList(entries));
  }

  /** `list` has an entry equal to `v` ignoring case. */
  predicate HasCI(list: seq<string>, v: string) {
    exists k :: 0 <= k < |list| && Lower(list[k]) == Lower(v)
  }

  /**
   * `parseAdditionalList`. A value starting with `[` is handed to `JSON.parse`,
   * which is not modelled: `parseJsonArray` stands for it and yields the
   * elements when the text parses to an array; their `String` forms are
   * cleaned. Otherwise the value is split on commas and cleaned, and a list
   * that cleans to nothing is absent.
   */
  function ParseAdditionalList(value: string, parseJsonArray: string -> Option<seq<Json>>): (r: Option<seq<string>>)
    ensures |value| == 0 ==> r.None?
    ensures r.Some? ==> forall i :: 0 <= i < |r.value| ==> |r.value[i]| > 0 && NoEdgeSpace(r.value[i])
    ensures |value| > 0 && StartsWith(Trim(value), "[") ==>
              (r.Some? <==> parseJsonArray(value).Some?)
              && (r.Some? ==> r.value == CleanList(Map(ToStr, parseJsonArray(value).value)))
    ensures |value| > 0 && !StartsWith(Trim(value), "[") ==>
              (r.Some? <==> |CleanList(Split(value, ','))| > 0)
              && (r.Some? ==> r.value == CleanList(Split(value, ',')))
  {
    if |value| == 0 then None
    else if StartsWith(Trim(value), "[") then
      match parseJsonArray(value)
      case None => None
      case Some(es) => Some(CleanList(Map(ToStr, es)))
    else
      var split := CleanList(Split(value, ','));
      if |split| > 0 then Some(split) else None
  }

  /**
   * A non-empty list of trimmed, non-empty, comma-free entries, the first not
   * starting with `[`, joined with commas, parses back to itself.
   */
  lemma AdditionalListRoundTrip(list: seq<string>, parseJsonArray: string -> Option<seq<Json>>)
    requires |list| > 0
    requires forall i :: 0 <= i < |list| ==> |list[i]| > 0 && NoEdgeSpace(list[i]) && ',' !in list[i]
    requires list[0][0] != '['
    ensures ParseAdditionalList(Join(list, ","), parseJsonArray) == Some(list)
  {
    var text := Join(list, ",");
    JoinEdges(list, ",");
    assert NoEdgeSpace(list[|list| - 1]);
    TrimIdempotent(text);
    assert !StartsWith(text, "[") by {
      assert text[0] != '[';
    }
    SplitJoin(list, ',');
    CleanListOfClean(list);
  }

  /** The merge loop: each required entry not yet present (ignoring case) is appended, in order. */
  function MergeRequired(merged: seq<string>, required: seq<string>): seq<string>
    decreases |required|
  {
    if |required| == 0 then merged
    else MergeRequired(if HasCI(merged, required[0]) then merged else merged + [required[0]], required[1..])
  }

  /**
   * The merge keeps `merged` as a prefix, ends up holding every required entry,
   * and appends only required entries that were missing, without
   * case-insensitive repeats.
   */
  lemma MergeRequiredFacts(merged: seq<string>, required: seq<string>)
    ensures var r := MergeRequired(merged, required);
            && |merged| <= |r| && r[..|merged|] == merged
            && (forall i :: 0 <= i < |required| ==> HasCI(r, required[i]))
            && (forall i :: |merged| <= i < |r| ==> r[i] in required && !HasCI(merged, r[i]))
            && (forall i, j :: |merged| <= i < j < |r| ==> Lower(r[i]) != Lower(r[j]))
  {
    MergeKeepsAndCovers(merged, required);
    MergeAppendsMissing(merged, required);
  }

  /** The merge keeps `merged` as a prefix and ends up holding every required entry. */
  lemma {:induction false} MergeKeepsAndCovers(merged: seq<string>, required: seq<string>)
    ensures var r := MergeRequired(merged, required);
            && |merged| <= |r| && r[..|merged|] == merged
            && (forall i :: 0 <= i < |required| ==> HasCI(r, required[i]))
    decreases |required|
  {
    if |required| > 0 {
      var next := if HasCI(merged, required[0]) then merged else merged + [required[0]];
      var r := MergeRequired(next, required[1..]);
      MergeKeepsAndCovers(next, required[1..]);
      assert r == MergeRequired(merged, required);
      assert HasCI(r, required[0]) by {
        var k :| 0 <= k < |next| && Lower(next[k]) == Lower(required[0]);
        assert r[k] == next[k];
      }
      forall i | 0 <= i < |required|
        ensures HasCI(r, required[i])
      {
        if i > 0 { assert required[i] == required[1..][i - 1]; }
      }
    }
  }

  /** What the merge appends is required, was missing, and has no case-insensitive repeats. */
  lemma {:induction false} MergeAppendsMissing(merged: seq<string>, required: seq<string>)
    ensures var r := MergeRequired(merged, required);
            && (forall i :: |merged| <= i < |r| ==> r[i] in required && !HasCI(merged, r[i]))
            && (forall i, j :: |merged| <= i < j < |r| ==> Lower(r[i]) != Lower(r[j]))
    decreases |required|
  {
    if |required| > 0 {
      var next := if HasCI(merged, required[0]) then merged else merged + [required[0]];
      var r := MergeRequired(next, required[1..]);
      MergeKeepsAndCovers(next, required[1..]);
      MergeAppendsMissing(next, required[1..]);
      assert r == MergeRequired(merged, required);
      forall i | |merged| <= i < |r|
        ensures r[i] in required && !HasCI(merged, r[i])
      {
        if i >= |next| {
          assert !HasCI(next, r[i]);
        } else {
          assert r[i] == next[i] == required[0];
        }
      }
      forall i, j | |merged| <= i < j < |r|
        ensures Lower(r[i]) != Lower(r[j])
      {
        if i < |next| {
          assert r[i] == next[i];
          assert !HasCI(next, r[j]);
        }
      }
    }
  }

  /**
   * `ensureAdditionalIncludes` (filtering version). A blank value yields just
   * the cleaned required list; a value already holding every required name
   * (ignoring case) is returned as the original text; otherwise the parsed
   * entries with the missing names appended.
   */
  function EnsureAdditionalIncludes(additional: Option<string>, required: seq<string>,
                                    parseJsonArray: string -> Option<seq<Json>>): (r: AdditionalValue)
    ensures var req := CleanList(required);
            additional.None? || |Trim(additional.value)| == 0 ==> r == Fields(req)
    ensures r.Text? ==> additional == Some(r.text)
                        && var parsed := ParseAdditionalList(Trim(r.text), parseJsonArray);
                           parsed.Some? && forall i :: 0 <= i < |CleanList(required)| ==> HasCI(parsed.value, CleanList(required)[i])
    ensures r.Fields? ==> forall i :: 0 <= i < |CleanList(required)| ==> HasCI(r.fields, CleanList(required)[i])
    ensures additional.Some? && |Trim(additional.value)| > 0 ==>
              var parsed := ParseAdditionalList(Trim(additional.value), parseJsonArray);
              var req := CleanList(required);
              && (parsed.None? ==> r == Fields(req))
              && (parsed.Some? && (forall i :: 0 <= i < |req| ==> HasCI(parsed.value, req[i])) ==> r == Text(additional.value))
              && (parsed.Some? && !(forall i :: 0 <= i < |req| ==> HasCI(parsed.value, req[i])) ==>
                    r == Fields(MergeRequired(parsed.value, req)))
  {
    var req := CleanList(required);
    if additional.None? then Fields(req)
    else
      var trimmed := Trim(additional.value);
      if |trimmed| == 0 then Fields(req)
      else
        match ParseAdditionalList(trimmed, parseJsonArray)
        case None => Fields(req)
        case Some(existing) =>
          if forall i :: 0 <= i < |req| ==> HasCI(existing, req[i]) then Text(additional.value)
          else
            MergeRequiredFacts(existing, req);
            Fields(MergeRequired(existing, req))
  }

  /** When the merge happens, the parsed entries come first, unchanged, and only missing required names follow, without case-insensitive repeats. */
  lemma MergeKeepsExisting(additional: string, required: seq<string>, parseJsonArray: string -> Option<seq<Json>>)
    requires |Trim(additional)| > 0
    requires ParseAdditionalList(Trim(additional), parseJsonArray).Some?
    requires EnsureAdditionalIncludes(Some(additional), required, parseJsonArray).Fields?
    ensures var existing := ParseAdditionalList(Trim(additional), parseJsonArray).value;
            var r := EnsureAdditionalIncludes(Some(additional), required, parseJsonArray).fields;
            && |existing| <= |r| && r[..|existing|] == existing
            && (forall i :: |existing| <= i < |r| ==> r[i] in CleanList(required) && !HasCI(existing, r[i]))
            && (forall i, j :: |existing| <= i < j < |r| ==> Lower(r[i]) != Lower(r[j]))
  {
    MergeRequiredFacts(ParseAdditionalList(Trim(additional), parseJsonArray).value, CleanList(required));
  }
  /** A comma-separated list that already names every required entry (ignoring case) is passed on as the caller's own text. */
  lemma CompleteListKept(list: seq<string>, required: seq<string>, parseJsonArray: string -> Option<seq<Json>>)
    requires |list| > 0
    requires forall i :: 0 <= i < |list| ==> |list[i]| > 0 && NoEdgeSpace(list[i]) && ',' !in list[i]
    requires list[0][0] != '['
    requires forall i :: 0 <= i < |CleanList(required)| ==> HasCI(list, CleanList(required)[i])
    ensures EnsureAdditionalIncludes(Some(Join(list, ",")), required, parseJsonArray) == Text(Join(list, ","))
  {
    var text := Join(list, ",");
    AdditionalListRoundTrip(list, parseJsonArray);
    JoinEdges(list, ",");
    assert NoEdgeSpace(list[|list| - 1]);
    TrimIdempotent(text);
  }
}

=== FILE: folder_boundary.dfy ===
/**
 * `lib/api/folderBoundary.ts`: when a root folder is configured, a folder is
 * reachable only if it is the root or the root appears among its parents as
 * reported by the upstream `list_parents` call. The configured value and the
 * call's outcome are parameters; the check fails closed on upstream errors.
 */
module FolderBoundary {
  import opened Common
  import opened Strings
  import opened Json
  import opened Errors
  import opened Mappers
  import opened Records
  import opened VisibilityConfig

  /** `extractFolderId`: the first present id alias as a string; "" only when the chain ends at `undefined`. */
  function ExtractFolderId(entry: Json): (r: string)
    ensures CollectionId(entry) == JUndef ==> r == ""
    ensures CollectionId(entry) != JUndef ==> r == ToStr(CollectionId(entry))
  {
    var id := CollectionId(entry);
    if id != JUndef then ToStr(id) else ""
  }

  /** An entry with no id aliases has the empty id; one whose last alias is `null` has the id "null". */
  lemma ExtractFolderIdAbsent()
    ensures ExtractFolderId(JObj(map[])) == ""
    ensures ExtractFolderId(JObj(map["share_id" := JNull])) == "null"
  {
    assert CollectionId(JObj(map[])) == JUndef;
    assert CollectionId(JObj(map["share_id" := JNull])) == JNull;
  }

  /** The loop's test: this parent is the root. */
  function IsRootEntry(root: string): Json -> bool {
    entry => ExtractFolderId(entry) == root
  }

  predicate RootAmongParents(list: seq<Json>, root: string) {
    exists i :: 0 <= i < |list| && ExtractFolderId(list[i]) == root
  }

  /** The outcome of `isFolderWithinBoundary`, and whether it asked the upstream for the parent chain. */
  datatype BoundaryCheck = BoundaryCheck(result: Result<bool>, askedUpstream: bool)

  /**
   * `isFolderWithinBoundary`, given the root-folder variable and the outcome
   * the `list_parents` call would have.
   */
  function IsFolderWithinBoundary(rootEnv: Option<string>, folderId: string, parents: CallOutcome): (r: BoundaryCheck)
    ensures !HasRootFolderBoundary(rootEnv) ==> r == BoundaryCheck(Ok(true), false)
    ensures r.askedUpstream <==>
              HasRootFolderBoundary(rootEnv) && NormalizeId(folderId) != NormalizeId(GetRootFolderId(rootEnv).value)
    ensures !r.askedUpstream ==> r.result == Ok(true)
    ensures r.askedUpstream && parents.Threw? && parents.failure.Synology? ==> r.result == Ok(false)
    ensures r.askedUpstream && parents.Threw? && !parents.failure.Synology? ==> r.result == Err(parents.failure)
    ensures r.askedUpstream && r.result == Ok(true) ==>
              parents.Returned? && RootAmongParents(ExtractList(parents.data).list, NormalizeId(GetRootFolderId(rootEnv).value))
  {
    if !HasRootFolderBoundary(rootEnv) then BoundaryCheck(Ok(true), false)
    else
      var rootId := GetRootFolderId(rootEnv).value;
      var normalizedFolderId := NormalizeId(folderId);
      var normalizedRootId := NormalizeId(rootId);
      if normalizedFolderId == normalizedRootId then BoundaryCheck(Ok(true), false)
      else
        match parents
        case Returned(data) =>
          var list := ExtractList(data).list;
          var found := FindRecord(list, IsRootEntry(normalizedRootId));
          BoundaryCheck(if found.Err? then Err(found.failure) else Ok(found.value.Some?), true)
        case Threw(f) =>
          BoundaryCheck(if f.Synology? then Ok(false) else Err(f), true)
  }

  /** With a root configured, a folder whose parent listing is missing or not an array is outside. */
  lemma MissingParentListDenies(rootEnv: Option<string>, folderId: string, data: Json)
    requires HasRootFolderBoundary(rootEnv)
    requires NormalizeId(folderId) != NormalizeId(GetRootFolderId(rootEnv).value)
    requires !Get(ReadRecord(data), "list").JArr?
    ensures IsFolderWithinBoundary(rootEnv, folderId, Returned(data)).result == Ok(false)
  {
  }

  /**
   * With a root configured, a folder other than the root is inside exactly
   * when the root is among its listed parents (for a listing of records).
   */
  lemma WithinIffRootIsParent(rootEnv: Option<string>, folderId: string, list: seq<Json>)
    requires HasRootFolderBoundary(rootEnv)
    requires NormalizeId(folderId) != NormalizeId(GetRootFolderId(rootEnv).value)
    requires forall k :: 0 <= k < |list| ==> !Nullish(list[k])
    ensures var r := IsFolderWithinBoundary(rootEnv, folderId, Returned(JObj(map["list" := JArr(list)]))).result;
            r.Ok? && (r.value <==> RootAmongParents(list, NormalizeId(GetRootFolderId(rootEnv).value)))
  {
    var data := JObj(map["list" := JArr(list)]);
    assert ExtractList(data).list == list;
    WithinIffRootListed(rootEnv, folderId, data);
  }

  lemma WithinIffRootListed(rootEnv: Option<string>, folderId: string, data: Json)
    requires HasRootFolderBoundary(rootEnv)
    requires NormalizeId(folderId) != NormalizeId(GetRootFolderId(rootEnv).value)
    requires forall k :: 0 <= k < |ExtractList(data).list| ==> !Nullish(ExtractList(data).list[k])
    ensures var r := IsFolderWithinBoundary(rootEnv, folderId, Returned(data)).result;
            r.Ok? && (r.value <==> RootAmongParents(ExtractList(data).list, NormalizeId(GetRootFolderId(rootEnv).value)))
  {
    RootSearch(ExtractList(data).list, NormalizeId(GetRootFolderId(rootEnv).value));
  }

  /** Over a listing of records, the search for the root succeeds, and finds it iff it is listed. */
  lemma RootSearch(list: seq<Json>, root: string)
    requires forall k :: 0 <= k < |list| ==> !Nullish(list[k])
    ensures var found := FindRecord(list, IsRootEntry(root));
            found.Ok? && (found.value.Some? <==> RootAmongParents(list, root))
  {
    var found := FindRecord(list, IsRootEntry(root));
    if found.Ok? && found.value.Some? {
      assert IsRootEntry(root)(list[found.value.value]);
    }
    if RootAmongParents(list, root) {
      var k :| 0 <= k < |list| && ExtractFolderId(list[k]) == root;
      assert IsRootEntry(root)(list[k]);
    }
  }

  /** The folder spelled as the root, even differently ("007" for "7"), is inside without an upstream call. */
  lemma RootItselfWithin(rootEnv: Option<string>, folderId: string, n: int, parents: CallOutcome)
    requires GetRootFolderId(rootEnv).Some?
    requires ParseNumber(GetRootFolderId(rootEnv).value) == Some(n)
    requires ParseNumber(folderId) == Some(n)
    ensures IsFolderWithinBoundary(rootEnv, folderId, parents) == BoundaryCheck(Ok(true), false)
  {
    NormalizeIdOfNumber(GetRootFolderId(rootEnv).value, n);
    NormalizeIdOfNumber(folderId, n);
  }

  /** `assertFolderWithinBoundary`: NOT_FOUND (default message "Collection not found") exactly when the check says outside. */
  function AssertFolderWithinBoundary(rootEnv: Option<string>, folderId: string, parents: CallOutcome, message: Option<string>): (r: Result<()>)
    ensures var c := IsFolderWithinBoundary(rootEnv, folderId, parents).result;
            (r == Ok(()) <==> c == Ok(true))
            && (c == Ok(false) ==> r == Err(Api(NotFound(message.GetOr("Collection not found")))))
            && (c.Err? ==> r == Err(c.failure))
  {
    match IsFolderWithinBoundary(rootEnv, folderId, parents).result
    case Ok(within) => if within then Ok(()) else Err(Api(NotFound(message.GetOr("Collection not found"))))
    case Err(f) => Err(f)
  }
}

=== FILE: folder_card.dfy ===
/**
 * The folder tile's label (`components/gallery/folder-card.tsx`): a folder
 * title that is a path shows only its last segment.
 */
module FolderCard {
  import opened Strings

  /** `title.replace(/^\/+/, "")`: every leading '/' removed. */
  function StripLeadingSlashes(title: string): (r: string)
    ensures |r| <= |title| && r == title[|title| - |r|..]
    ensures forall i :: 0 <= i < |title| - |r| ==> title[i] == '/'
    ensures |r| == 0 || r[0] != '/'
  {
    if |title| > 0 && title[0] == '/' then StripLeadingSlashes(title[1..]) else title
  }

  /** The last element of `s.split("/")`: the part after the last '/', or all of `s`. */
  function LastSegment(s: string): (r: string)
    ensures '/' !in r
    ensures |r| <= |s| && s[|s| - |r|..] == r
    ensures |r| == |s| || s[|s| - |r| - 1] == '/'
  {
    SplitLast(s, '/');
    var segments := Split(s, '/');
    segments[|segments| - 1]
  }

  /**
   * `getFolderDisplayName`: the last '/'-separated segment of the stripped
   * title, or the whole stripped title when that segment is empty.
   */
  function DisplayName(title: string): (r: string)
    ensures var cleaned := StripLeadingSlashes(title);
            (r == cleaned || (r != "" && '/' !in r && EndsWith(cleaned, ['/'] + r)))
            && (|cleaned| > 0 && cleaned[|cleaned| - 1] != '/' ==> r != "" && '/' !in r)
            && (|cleaned| > 0 && cleaned[|cleaned| - 1] == '/' ==> r == cleaned)
  {
    var cleaned := StripLeadingSlashes(title);
    var last := LastSegment(cleaned);
    LastSegmentPlacement(cleaned);
    if last != "" then last else cleaned
  }

  /** Where the last segment sits: the whole string, or just after a '/'; empty exactly when the string ends in '/'. */
  lemma LastSegmentPlacement(s: string)
    ensures var last := LastSegment(s);
            && (last == s || EndsWith(s, ['/'] + last))
            && (|s| > 0 ==> (last == "" <==> s[|s| - 1] == '/'))
  {
    var last := LastSegment(s);
    if |last| > 0 {
      assert s[|s| - 1] == last[|last| - 1];
    }
    if |last| < |s| {
      assert s[|s| - |last| - 1..] == ['/'] + last;
    } else {
      assert last == s[0..];
    }
  }

  /** A title without any '/' is shown as it is. */
  lemma PlainTitleUnchanged(title: string)
    requires '/' !in title
    ensures DisplayName(title) == title
  {
    SplitHead(title, '/', "");
  }

  /** A '/'-free suffix that starts the string or follows a '/' is the string's last segment. */
  lemma SegmentIsUnique(s: string, a: string)
    requires '/' !in a && |a| <= |s| && s[|s| - |a|..] == a
    requires |a| == |s| || s[|s| - |a| - 1] == '/'
    ensures LastSegment(s) == a
  {
    var b := LastSegment(s);
    if |b| < |a| {
      assert false;
    } else if |b| > |a| {
      assert false;
    }
    assert b == s[|s| - |b|..];
  }

  /** A nested path shows its final folder: "/Trips/2024/Alps" is labelled "Alps". */
  lemma NestedPathShowsLastFolder(parents: string, name: string)
    requires '/' !in name && name != ""
    requires |parents| > 0 && parents[0] != '/'
    ensures DisplayName("/" + parents + "/" + name) == name
  {
    var title := "/" + parents + "/" + name;
    var cleaned := parents + "/" + name;
    assert title[1..] == cleaned;
    assert StripLeadingSlashes(title) == cleaned;
    assert cleaned[|cleaned| - |name|..] == name;
    assert cleaned[|cleaned| - |name| - 1] == '/';
    SegmentIsUnique(cleaned, name);
  }

  /** A title ending in '/' is shown whole, without its leading slashes. */
  lemma TrailingSlashShowsWholePath(title: string)
    requires |title| > 0 && title[|title| - 1] == '/'
    requires |title| > 0 && title[0] != '/'
    ensures DisplayName(title) == title
  {
  }
}

=== FILE: folder_info.dfy ===
/**
 * `lib/api/folderInfo.ts`: look a folder up with `getinfo`, and when that
 * yields nothing usable fall back to its `list_parents` chain. Upstream
 * errors (`SynologyApiError`) are swallowed at each stage; anything else
 * propagates. The two calls' outcomes are parameters.
 */
module FolderInfo {
  import opened Common
  import opened Json
  import opened Errors
  import opened Mappers
  import opened Records

  /** `extractSingle`: the first entry of a non-empty `list`, else an object `info`, else nothing. */
  function ExtractSingle(data: Json): (r: Option<Json>)
    ensures |ExtractList(data).list| > 0 ==> r == Some(ExtractList(data).list[0])
    ensures |ExtractList(data).list| == 0 ==>
              (r.Some? <==> Truthy(Get(data, "info")) && (Get(data, "info").JObj? || Get(data, "info").JArr?))
    ensures |ExtractList(data).list| == 0 && r.Some? ==> r.value == Get(data, "info")
  {
    var record := ReadRecord(data);
    var list := Get(record, "list");
    if list.JArr? && |list.elems| > 0 then Some(list.elems[0])
    else
      var info := Get(record, "info");
      if Truthy(info) && (info.JObj? || info.JArr?) then Some(info) else None
  }

  /** The `find` callback: the entry's first present id alias, as a string, is the wanted id. */
  function MatchesId(idValue: string): Json -> bool {
    entry => CollectionId(entry) != JUndef && ToStr(CollectionId(entry)) == idValue
  }

  /**
   * `extractFolderFromParents`: nothing for an empty or missing list; else the
   * first entry whose id matches the normalised collection id, else the last
   * entry.
   */
  function ExtractFolderFromParents(data: Json, collectionId: string): (r: Result<Option<Json>>)
    ensures var list := ExtractList(data).list;
            (r == Ok(None) <==> |list| == 0)
    ensures var list := ExtractList(data).list;
            r.Ok? && r.value.Some? ==> r.value.value in list
    ensures var list := ExtractList(data).list;
            r.Err? ==> r.failure == Other(PropertyOfNullish)
    ensures var list := ExtractList(data).list;
            |list| > 0 && AllRecords(list) ==>
              r.Ok? && r.value.Some? && MatchElseLast(list, MatchesId(NormalizeId(collectionId)), r.value.value)
  {
    var list := ExtractList(data).list;
    if |list| > 0 && AllRecords(list) then
      ParentsPickMatchElseLast(list, collectionId);
      PickParent(list, collectionId)
    else
      PickParent(list, collectionId)
  }

  /** No entry is `null` or `undefined`. */
  predicate AllRecords(list: seq<Json>) {
    forall k :: 0 <= k < |list| ==> !Nullish(list[k])
  }

  /** `picked` is the first entry satisfying `p`, or the last entry when none does. */
  predicate MatchElseLast(list: seq<Json>, p: Json -> bool, picked: Json)
    requires |list| > 0
  {
    && (forall i :: 0 <= i < |list| && FirstMatch(list, p, i) ==> picked == list[i])
    && ((forall k :: 0 <= k < |list| ==> !p(list[k])) ==> picked == list[|list| - 1])
  }

  /** The choice among the listed parents: the first whose id matches, else the last. */
  function PickParent(list: seq<Json>, collectionId: string): (r: Result<Option<Json>>)
    ensures r == Ok(None) <==> |list| == 0
    ensures r.Ok? && r.value.Some? ==> r.value.value in list
    ensures r.Err? ==> r.failure == Other(PropertyOfNullish)
  {
    if |list| == 0 then Ok(None)
    else
      match FindRecord(list, MatchesId(NormalizeId(collectionId)))
      case Err(f) => Err(f)
      case Ok(found) => Ok(Some(if found.Some? then list[found.value] else list[|list| - 1]))
  }

  /** Among records, the first match when there is one, else the last entry. */
  lemma ParentsPickMatchElseLast(list: seq<Json>, collectionId: string)
    requires |list| > 0
    requires AllRecords(list)
    ensures PickParent(list, collectionId).Ok? && PickParent(list, collectionId).value.Some?
    ensures MatchElseLast(list, MatchesId(NormalizeId(collectionId)), PickParent(list, collectionId).value.value)
  {
    FindRecordFindsFirst(list, MatchesId(NormalizeId(collectionId)));
  }

  /** The outcome of `fetchFolderInfoWithFallback`, and whether it fell back to `list_parents`. */
  datatype FolderLookup = FolderLookup(result: Result<Option<Json>>, askedParents: bool)

  /** `fetchFolderInfoWithFallback`, given what `getinfo` and `list_parents` would return or throw. */
  function FetchFolderInfoWithFallback(collectionId: string, getinfo: CallOutcome, parents: CallOutcome): (r: FolderLookup)
    ensures getinfo.Returned? && ExtractSingle(getinfo.data).Some? && Truthy(ExtractSingle(getinfo.data).value) ==>
              r == FolderLookup(Ok(ExtractSingle(getinfo.data)), false)
    ensures getinfo.Threw? && !getinfo.failure.Synology? ==> r == FolderLookup(Err(getinfo.failure), false)
    ensures r.askedParents <==>
              (getinfo.Threw? && getinfo.failure.Synology?)
              || (getinfo.Returned? && !(ExtractSingle(getinfo.data).Some? && Truthy(ExtractSingle(getinfo.data).value)))
    ensures r.askedParents && parents.Threw? ==>
              r.result == if parents.failure.Synology? then Ok(None) else Err(parents.failure)
    ensures r.askedParents && parents.Returned? ==> r.result == ExtractFolderFromParents(parents.data, collectionId)
  {
    var first :=
      match getinfo
      case Returned(data) =>
        var info := ExtractSingle(data);
        if info.Some? && Truthy(info.value) then Some(Ok(info)) else None
      case Threw(f) => if f.Synology? then None else Some(Err(f));
    if first.Some? then FolderLookup(first.value, false)
    else
      match parents
      case Returned(data) => FolderLookup(ExtractFolderFromParents(data, collectionId), true)
      case Threw(f) => FolderLookup(if f.Synology? then Ok(None) else Err(f), true)
  }

  /** Both upstream calls failing with upstream errors yields "not found", never an error. */
  lemma BothUpstreamFailuresGiveNothing(collectionId: string, m1: string, c1: Option<int>, m2: string, c2: Option<int>)
    ensures FetchFolderInfoWithFallback(collectionId, Threw(Synology(m1, c1)), Threw(Synology(m2, c2))) == FolderLookup(Ok(None), true)
  {
  }

  /** A folder found by `getinfo` is returned whatever `list_parents` would have said. */
  lemma GetinfoHitIgnoresParents(collectionId: string, info: Json, p1: CallOutcome, p2: CallOutcome)
    requires Truthy(info)
    ensures var g := Returned(JObj(map["list" := JArr([info])]));
            FetchFolderInfoWithFallback(collectionId, g, p1) == FetchFolderInfoWithFallback(collectionId, g, p2)
            == FolderLookup(Ok(Some(info)), false)
  {
    var g := JObj(map["list" := JArr([info])]);
    assert ExtractList(g).list == [info];
  }
}

=== FILE: item_info.dfy ===
/**
 * `lib/api/itemInfo.ts`: resolving one item by id. With a folder id the item
 * is looked up in a scan of the folder (paged `list` calls) that is cached per
 * folder, passphrase and normalised `additional` list for 60 seconds; without
 * one, or when the scan fails upstream, `getinfo` is tried under each id key
 * in turn. The clock, the cache and the upstream outcomes are parameters;
 * concurrent scans sharing one in-flight promise are not modelled.
 */
module ItemInfo {
  import opened Common
  import opened Strings
  import opened Json
  import opened Errors
  import opened Seqs
  import opened StringOrder
  import opened Mappers
  import opened Records
  import Filtering
  import Visibility
  import FolderInfo

  const FolderScanLimit: nat := 200
  const FolderCacheTtlMs: int := 60000

  /** `entry.trim().toLowerCase()`. */
  function NormEntry(s: string): string {
    Lower(Trim(s))
  }

  // ---------------------------------------------------------------------------
  // the `additional` list

  /**
   * `ensureAdditionalIncludes` (item-info version): the list unchanged when
   * the required name is blank or already present (ignoring case and
   * surrounding whitespace), else the list with the name appended.
   */
  function EnsureAdditionalIncludes(additional: seq<string>, required: string): (r: seq<string>)
    ensures r == additional || r == additional + [required]
    ensures NormEntry(required) != "" ==> exists i :: 0 <= i < |r| && NormEntry(r[i]) == NormEntry(required)
    ensures r != additional <==>
              NormEntry(required) != "" && forall i :: 0 <= i < |additional| ==> NormEntry(additional[i]) != NormEntry(required)
  {
    var target := NormEntry(required);
    if target == "" then additional
    else if exists i :: 0 <= i < |additional| && NormEntry(additional[i]) == target then additional
    else
      assert (additional + [required])[|additional|] == required;
      additional + [required]
  }

  /** Ensuring the same name twice is ensuring it once. */
  lemma EnsureAdditionalIdempotent(additional: seq<string>, required: string)
    ensures EnsureAdditionalIncludes(EnsureAdditionalIncludes(additional, required), required)
            == EnsureAdditionalIncludes(additional, required)
  {
  }

  // ---------------------------------------------------------------------------
  // the folder cache key

  /** The `additional` entries as the cache key sees them: trimmed, lower-cased, blanks dropped. */
  function NormalizedAdditional(additional: seq<string>): seq<string> {
    Filter(Filtering.NonEmpty, Map(NormEntry, additional))
  }

  /** `buildFolderCacheKey`: `<folder>::<passphrase>::<sorted normalised additional joined by "|">`. */
  function BuildFolderCacheKey(folderId: string, passphrase: Option<string>, additional: seq<string>): string {
    folderId + "::" + passphrase.GetOr("") + "::" + Join(Sort(NormalizedAdditional(additional)), "|")
  }

  /** The key depends on `additional` only through the multiset of its normalised, non-blank entries. */
  lemma CacheKeyCanonical(folderId: string, passphrase: Option<string>, a: seq<string>, b: seq<string>)
    requires multiset(NormalizedAdditional(a)) == multiset(NormalizedAdditional(b))
    ensures BuildFolderCacheKey(folderId, passphrase, a) == BuildFolderCacheKey(folderId, passphrase, b)
  {
    SortCanonical(NormalizedAdditional(a), NormalizedAdditional(b));
  }

  /** Reordering `additional` does not change the key. */
  lemma CacheKeyIgnoresOrder(folderId: string, passphrase: Option<string>, a: seq<string>, b: seq<string>)
    requires multiset(a) == multiset(b)
    ensures BuildFolderCacheKey(folderId, passphrase, a) == BuildFolderCacheKey(folderId, passphrase, b)
  {
    MapMultiset(NormEntry, a, b);
    FilterMultiset(Filtering.NonEmpty, Map(NormEntry, a), Map(NormEntry, b));
    CacheKeyCanonical(folderId, passphrase, a, b);
  }

  /** Changing the case or the surrounding whitespace of entries does not change the key. */
  lemma CacheKeyIgnoresCaseAndSpace(folderId: string, passphrase: Option<string>, a: seq<string>, b: seq<string>)
    requires |a| == |b|
    requires forall i :: 0 <= i < |a| ==> NormEntry(a[i]) == NormEntry(b[i])
    ensures BuildFolderCacheKey(folderId, passphrase, a) == BuildFolderCacheKey(folderId, passphrase, b)
  {
    assert Map(NormEntry, a) == Map(NormEntry, b);
  }

  /** Adding a blank entry does not change the key. */
  lemma CacheKeyIgnoresBlank(folderId: string, passphrase: Option<string>, a: seq<string>, blank: string)
    requires |Trim(blank)| == 0
    ensures BuildFolderCacheKey(folderId, passphrase, a + [blank]) == BuildFolderCacheKey(folderId, passphrase, a)
  {
    var na := Map(NormEntry, a);
    assert NormEntry(blank) == "" by { assert |Lower(Trim(blank))| == 0; }
    assert Map(NormEntry, [blank]) == [""];
    MapAppend(NormEntry, a, [blank]);
    assert Map(NormEntry, a + [blank]) == na + [""];
    FilterAppend(Filtering.NonEmpty, na, [""]);
    assert Filter(Filtering.NonEmpty, [""]) == [];
    assert NormalizedAdditional(a + [blank]) == Filter(Filtering.NonEmpty, na) + [];
    assert Filter(Filtering.NonEmpty, na) + [] == NormalizedAdditional(a);
  }

  // ---------------------------------------------------------------------------
  // the folder cache

  /** A scanned folder: its items by id and when the scan stops being reused. */
  datatype CacheEntry = CacheEntry(expiresAt: int, items: map<string, Json>)

  type FolderCache = map<string, CacheEntry>

  /** The cache entry under `key`, while it is live at `now`. */
  function LiveItems(cache: FolderCache, key: string, now: int): (r: Option<map<string, Json>>)
    ensures r.Some? <==> key in cache && cache[key].expiresAt > now
    ensures r.Some? ==> r.value == cache[key].items
  {
    if key in cache && cache[key].expiresAt > now then Some(cache[key].items) else None
  }

  /** `items.get(itemId) ?? null`. */
  function Lookup(items: map<string, Json>, itemId: string): Option<Json> {
    if itemId in items then Some(items[itemId]) else None
  }

  /** `getCachedFolderItem`: the item from a live cache entry, or nothing. */
  function GetCachedFolderItem(cache: FolderCache, now: int, itemId: string, folderId: string,
                               passphrase: Option<string>, additional: seq<string>): (r: Option<Json>)
    ensures var key := BuildFolderCacheKey(folderId, passphrase, additional);
            r.Some? <==> key in cache && cache[key].expiresAt > now && itemId in cache[key].items
    ensures var key := BuildFolderCacheKey(folderId, passphrase, additional);
            r.Some? ==> r.value == cache[key].items[itemId]
  {
    var live := LiveItems(cache, BuildFolderCacheKey(folderId, passphrase, additional), now);
    if live.None? then None else Lookup(live.value, itemId)
  }

  /** What `findItemInFolder` returns, the cache afterwards, and whether it ran a scan. */
  datatype FolderScan = FolderScan(result: Result<Option<Json>>, cache: FolderCache, scanned: bool)

  /**
   * `findItemInFolder`: a live cache entry answers without scanning;
   * otherwise `load` is the scan's outcome, and a successful scan is stored
   * with an expiry of `doneAt` plus the 60-second TTL. A failed scan leaves
   * the cache alone.
   */
  function FindItemInFolder(cache: FolderCache, now: int, doneAt: int, itemId: string, folderId: string,
                            passphrase: Option<string>, additional: seq<string>,
                            load: Result<map<string, Json>>): (r: FolderScan)
    ensures var key := BuildFolderCacheKey(folderId, passphrase, additional);
            !r.scanned <==> LiveItems(cache, key, now).Some?
    ensures var key := BuildFolderCacheKey(folderId, passphrase, additional);
            !r.scanned ==> r.cache == cache && r.result == Ok(Lookup(cache[key].items, itemId))
    ensures var key := BuildFolderCacheKey(folderId, passphrase, additional);
            r.scanned && load.Ok? ==>
              r.result == Ok(Lookup(load.value, itemId))
              && r.cache == cache[key := CacheEntry(doneAt + FolderCacheTtlMs, load.value)]
    ensures r.scanned && load.Err? ==> r.cache == cache && r.result == Err(load.failure)
  {
    var key := BuildFolderCacheKey(folderId, passphrase, additional);
    var live := LiveItems(cache, key, now);
    if live.Some? then FolderScan(Ok(Lookup(live.value, itemId)), cache, false)
    else
      match load
      case Ok(items) => FolderScan(Ok(Lookup(items, itemId)), cache[key := CacheEntry(doneAt + FolderCacheTtlMs, items)], true)
      case Err(f) => FolderScan(Err(f), cache, true)
  }

  /**
   * A stored scan serves later reads for exactly 60 seconds after it
   * completed: a read at `t` sees the scanned item iff `t < doneAt + 60000`.
   */
  lemma ScanServedUntilExpiry(cache: FolderCache, now: int, doneAt: int, t: int, itemId: string, folderId: string,
                              passphrase: Option<string>, additional: seq<string>, items: map<string, Json>)
    requires FindItemInFolder(cache, now, doneAt, itemId, folderId, passphrase, additional, Ok(items)).scanned
    ensures var after := FindItemInFolder(cache, now, doneAt, itemId, folderId, passphrase, additional, Ok(items)).cache;
            GetCachedFolderItem(after, t, itemId, folderId, passphrase, additional)
            == if t < doneAt + FolderCacheTtlMs then Lookup(items, itemId) else None
  {
  }

  // ---------------------------------------------------------------------------
  // the folder scan

  /** `entry.id ?? entry.unit_id ?? entry.item_id ?? entry.photo_id ?? null`. */
  function ScanId(entry: Json): Json {
    Alias(entry, ItemIdKeys)
  }

  /** The scan stores entries whose id is present, under `String(id)`. */
  predicate Indexed(entry: Json) {
    !Nullish(ScanId(entry))
  }

  function ScanKey(entry: Json): string {
    ToStr(ScanId(entry))
  }

  /** Every stored entry sits under its own id. */
  predicate WellKeyed(items: map<string, Json>) {
    forall k :: k in items ==> Indexed(items[k]) && ScanKey(items[k]) == k
  }

  /** Entry `i` is the last one in `list` with its id. */
  predicate LastWithKey(list: seq<Json>, i: int) {
    0 <= i < |list| && Indexed(list[i])
    && forall j :: i < j < |list| ==> !(Indexed(list[j]) && ScanKey(list[j]) == ScanKey(list[i]))
  }

  predicate KeyInPage(list: seq<Json>, k: string) {
    exists i :: 0 <= i < |list| && Indexed(list[i]) && ScanKey(list[i]) == k
  }

  /**
   * The entries of one page stored over `items`: each entry with an id under
   * that id, later entries overwriting earlier ones.
   */
  function IndexEntries(items: map<string, Json>, list: seq<Json>): (r: map<string, Json>)
    ensures WellKeyed(items) ==> WellKeyed(r)
    ensures forall k :: k in r <==> k in items || KeyInPage(list, k)
    decreases |list|
  {
    if |list| == 0 then items
    else
      var prev := IndexEntries(items, list[..|list| - 1]);
      var e := list[|list| - 1];
      KeyInPageSnoc(list);
      if Indexed(e) then prev[ScanKey(e) := e] else prev
  }

  lemma KeyInPageSnoc(list: seq<Json>)
    requires |list| > 0
    ensures forall k :: KeyInPage(list, k) <==>
              KeyInPage(list[..|list| - 1], k) || (Indexed(list[|list| - 1]) && ScanKey(list[|list| - 1]) == k)
  {
    var front := list[..|list| - 1];
    forall k | KeyInPage(list, k)
      ensures KeyInPage(front, k) || (Indexed(list[|list| - 1]) && ScanKey(list[|list| - 1]) == k)
    {
      var i :| 0 <= i < |list| && Indexed(list[i]) && ScanKey(list[i]) == k;
      if i < |list| - 1 {
        assert front[i] == list[i];
      }
    }
    forall k | KeyInPage(front, k)
      ensures KeyInPage(list, k)
    {
      var i :| 0 <= i < |front| && Indexed(front[i]) && ScanKey(front[i]) == k;
      assert list[i] == front[i];
    }
  }

  /** The last entry with a given id is the one stored under it. */
  lemma {:induction false} IndexEntriesLast(items: map<string, Json>, list: seq<Json>, i: int)
    requires LastWithKey(list, i)
    ensures ScanKey(list[i]) in IndexEntries(items, list)
    ensures IndexEntries(items, list)[ScanKey(list[i])] == list[i]
    decreases |list|
  {
    var front := list[..|list| - 1];
    var e := list[|list| - 1];
    var prev := IndexEntries(items, front);
    var k := ScanKey(list[i]);
    assert IndexEntries(items, list) == if Indexed(e) then prev[ScanKey(e) := e] else prev;
    if i < |list| - 1 {
      LastWithKeyFront(list, i);
      IndexEntriesLast(items, front, i);
      assert k in prev && prev[k] == list[i];
      assert !(Indexed(e) && ScanKey(e) == k);
    }
  }

  lemma LastWithKeyFront(list: seq<Json>, i: int)
    requires LastWithKey(list, i) && i < |list| - 1
    ensures LastWithKey(list[..|list| - 1], i) && list[..|list| - 1][i] == list[i]
  {
    var front := list[..|list| - 1];
    forall j | i < j < |front|
      ensures !(Indexed(front[j]) && ScanKey(front[j]) == ScanKey(front[i]))
    {
      assert front[j] == list[j];
    }
  }

  /** An id the page does not mention keeps its earlier entry. */
  lemma {:induction false} IndexEntriesKeeps(items: map<string, Json>, list: seq<Json>, k: string)
    requires k in items && !KeyInPage(list, k)
    ensures IndexEntries(items, list)[k] == items[k]
    decreases |list|
  {
    if |list| > 0 {
      KeyInPageSnoc(list);
      IndexEntriesKeeps(items, list[..|list| - 1], k);
    }
  }

  /**
   * The inner loop over one page. Reading the id of a `null` or `undefined`
   * entry throws, and the partial map is then discarded, so the page either
   * fails as a whole or stores every entry as `IndexEntries` does.
   */
  function IndexPage(items: map<string, Json>, list: seq<Json>): (r: Result<map<string, Json>>)
    ensures r.Ok? <==> NoNullish(list)
    ensures r.Err? ==> r.failure == Other(PropertyOfNullish)
    ensures r.Ok? ==> r.value == IndexEntries(items, list)
  {
    if exists i :: 0 <= i < |list| && Nullish(list[i]) then Err(Other(PropertyOfNullish))
    else Ok(IndexEntries(items, list))
  }

  /** No entry of the page is `null` or `undefined`. */
  predicate NoNullish(list: seq<Json>) {
    forall i :: 0 <= i < |list| ==> !Nullish(list[i])
  }

  /** The list a page call returned, or nothing when it threw. */
  function PageList(page: nat -> CallOutcome, offset: nat): seq<Json> {
    if page(offset).Returned? then ExtractList(page(offset).data).list else []
  }

  /** The scan stopped after this page: it came back empty or reached the reported total. */
  predicate LastPage(page: nat -> CallOutcome, offset: nat) {
    page(offset).Returned?
    && (|PageList(page, offset)| == 0 || offset + |PageList(page, offset)| >= ExtractList(page(offset).data).total)
  }

  /** The scan went on after this page. */
  predicate ContinuedAfter(page: nat -> CallOutcome, offset: nat) {
    page(offset).Returned? && !LastPage(page, offset)
  }

  /** Each requested offset but the last continued the scan, and the next offset follows its page. */
  ghost predicate Chained(page: nat -> CallOutcome, offsets: seq<nat>) {
    forall i :: 0 <= i < |offsets| - 1 ==>
      ContinuedAfter(page, offsets[i]) && offsets[i + 1] == offsets[i] + |PageList(page, offsets[i])|
  }

  /** Every id on every requested page is in `items`. */
  ghost predicate AllStored(page: nat -> CallOutcome, offsets: seq<nat>, items: map<string, Json>) {
    forall i, k :: 0 <= i < |offsets| && KeyInPage(PageList(page, offsets[i]), k) ==> k in items
  }

  /**
   * The map the scan builds from the pages at `offsets`, read in order:
   * each page's entries stored over the previous pages' ones.
   */
  function IndexPages(page: nat -> CallOutcome, offsets: seq<nat>): (r: map<string, Json>)
    ensures WellKeyed(r)
    ensures AllStored(page, offsets, r)
    decreases |offsets|
  {
    if |offsets| == 0 then map[]
    else
      var prefix := offsets[..|offsets| - 1];
      var before := IndexPages(page, prefix);
      var last := offsets[|offsets| - 1];
      assert offsets == prefix + [last];
      AllStoredExtend(page, prefix, before, last, IndexEntries(before, PageList(page, last)));
      IndexEntries(before, PageList(page, last))
  }

  /** None of the first `n` requested pages listed a `null` or `undefined` entry. */
  ghost predicate PagesNoNullish(page: nat -> CallOutcome, offsets: seq<nat>, n: nat) {
    n <= |offsets| && forall i :: 0 <= i < n ==> NoNullish(PageList(page, offsets[i]))
  }

  lemma PagesNoNullishExtend(page: nat -> CallOutcome, offsets: seq<nat>, offset: nat)
    requires PagesNoNullish(page, offsets, |offsets|)
    ensures PagesNoNullish(page, offsets + [offset], |offsets|)
    ensures NoNullish(PageList(page, offset)) ==> PagesNoNullish(page, offsets + [offset], |offsets| + 1)
  {
    var next := offsets + [offset];
    forall i | 0 <= i < |offsets|
      ensures NoNullish(PageList(page, next[i]))
    {
      assert next[i] == offsets[i];
    }
  }

  lemma ChainedExtend(page: nat -> CallOutcome, offsets: seq<nat>, offset: nat)
    requires Chained(page, offsets)
    requires |offsets| > 0 ==> ContinuedAfter(page, offsets[|offsets| - 1])
    requires |offsets| > 0 ==> offset == offsets[|offsets| - 1] + |PageList(page, offsets[|offsets| - 1])|
    ensures Chained(page, offsets + [offset])
  {
    var next := offsets + [offset];
    forall i | 0 <= i < |next| - 1
      ensures ContinuedAfter(page, next[i]) && next[i + 1] == next[i] + |PageList(page, next[i])|
    {
      assert next[i] == offsets[i];
    }
  }

  lemma AllStoredExtend(page: nat -> CallOutcome, offsets: seq<nat>, items: map<string, Json>,
                        offset: nat, after: map<string, Json>)
    requires AllStored(page, offsets, items)
    requires forall k :: k in items ==> k in after
    requires forall k :: KeyInPage(PageList(page, offset), k) ==> k in after
    ensures AllStored(page, offsets + [offset], after)
  {
    var next := offsets + [offset];
    forall i, k | 0 <= i < |next| && KeyInPage(PageList(page, next[i]), k)
      ensures k in after
    {
      if i < |offsets| {
        assert next[i] == offsets[i];
      }
    }
  }

  /** The map after one more page is that page's entries stored over the map so far. */
  lemma ScanStep(page: nat -> CallOutcome, offsets: seq<nat>, items: map<string, Json>, offset: nat)
    requires items == IndexPages(page, offsets)
    ensures IndexPages(page, offsets + [offset]) == IndexEntries(items, PageList(page, offset))
  {
    assert (offsets + [offset])[..|offsets|] == offsets;
  }

  /**
   * `loadFolderItems`. `page(offset)` is the outcome of the `list` call at
   * that offset (limit 200). The upstream's reported totals are assumed
   * bounded, which is what makes the scan finite; `offsets` records the
   * offsets requested.
   */
  method LoadFolderItems(page: nat -> CallOutcome, bound: nat) returns (r: Result<map<string, Json>>, offsets: seq<nat>)
    requires forall o: nat :: page(o).Returned? ==> ExtractList(page(o).data).total <= bound
    ensures |offsets| >= 1 && offsets[0] == 0
    ensures Chained(page, offsets)
    ensures r.Ok? ==> LastPage(page, offsets[|offsets| - 1])
    ensures r.Err? && page(offsets[|offsets| - 1]).Threw? ==> r.failure == page(offsets[|offsets| - 1]).failure
    ensures r.Err? && page(offsets[|offsets| - 1]).Returned? ==> r.failure == Other(PropertyOfNullish)
    ensures r.Err? && page(offsets[|offsets| - 1]).Returned? ==> !NoNullish(PageList(page, offsets[|offsets| - 1]))
    ensures r.Ok? ==> r.value == IndexPages(page, offsets)
    ensures r.Ok? ==> WellKeyed(r.value)
    ensures r.Ok? ==> AllStored(page, offsets, r.value)
    ensures r.Ok? ==> PagesNoNullish(page, offsets, |offsets|)
    ensures PagesNoNullish(page, offsets, |offsets| - 1)
  {
    var items: map<string, Json> := map[];
    var offset: nat := 0;
    var total: Option<int> := None;
    offsets := [];
    while total.None? || offset < total.value
      invariant total.None? <==> |offsets| == 0
      invariant total.None? ==> offset == 0
      invariant total.Some? ==> total.value <= bound
      invariant |offsets| > 0 ==> offsets[0] == 0
      invariant |offsets| > 0 ==> offset == offsets[|offsets| - 1] + |PageList(page, offsets[|offsets| - 1])|
      invariant |offsets| > 0 ==> page(offsets[|offsets| - 1]).Returned?
      invariant |offsets| > 0 ==> |PageList(page, offsets[|offsets| - 1])| > 0
      invariant |offsets| > 0 ==> total.value == ExtractList(page(offsets[|offsets| - 1]).data).total
      invariant Chained(page, offsets)
      invariant items == IndexPages(page, offsets)
      invariant PagesNoNullish(page, offsets, |offsets|)
      decreases bound + 1 - offset
    {
      if |offsets| > 0 {
        assert ContinuedAfter(page, offsets[|offsets| - 1]);
      }
      ChainedExtend(page, offsets, offset);
      PagesNoNullishExtend(page, offsets, offset);
      ScanStep(page, offsets, items, offset);
      offsets := offsets + [offset];
      assert offsets[|offsets| - 1] == offset;
      var outcome := page(offset);
      if outcome.Threw? {
        return Err(outcome.failure), offsets;
      }
      var listed := ExtractList(outcome.data);
      assert listed.list == PageList(page, offset);
      var indexed := IndexPage(items, listed.list);
      if indexed.Err? {
        return indexed, offsets;
      }
      total := Some(listed.total);
      items := indexed.value;
      if |listed.list| == 0 {
        return Ok(items), offsets;
      }
      offset := offset + |listed.list|;
    }
    return Ok(items), offsets;
  }

  // ---------------------------------------------------------------------------
  // direct lookup

  /** One `getinfo` request: the id key used, and the `additional` list when it was sent. */
  datatype GetinfoCall = GetinfoCall(key: string, additional: Option<seq<string>>)

  /** `getinfo` answered with something `extractSingle` accepts and that is truthy. */
  predicate Hit(o: CallOutcome) {
    o.Returned? && FolderInfo.ExtractSingle(o.data).Some? && Truthy(FolderInfo.ExtractSingle(o.data).value)
  }

  /** A `getinfo` outcome that does not settle the lookup: no usable item, and at most an upstream error. */
  predicate Miss(o: CallOutcome) {
    !Hit(o) && !(o.Threw? && !o.failure.Synology?)
  }

  /** None of the requests settles the lookup. */
  predicate AllMiss(calls: seq<GetinfoCall>, getinfo: GetinfoCall -> CallOutcome) {
    forall i :: 0 <= i < |calls| ==> Miss(getinfo(calls[i]))
  }

  /** The result of the lookup loop, the requests it made, and how many keys it reached. */
  datatype DirectLookup = DirectLookup(result: Result<Option<Json>>, calls: seq<GetinfoCall>, tried: nat)

  /** The keys of the requests sent with `additional`, in order. */
  function FirstAttempts(calls: seq<GetinfoCall>): seq<string> {
    if |calls| == 0 then []
    else (if calls[0].additional.Some? then [calls[0].key] else []) + FirstAttempts(calls[1..])
  }

  /** A request without `additional` only ever directly follows a request for the same key that failed upstream. */
  predicate RetriesFollowUpstreamErrors(calls: seq<GetinfoCall>, getinfo: GetinfoCall -> CallOutcome) {
    forall i :: 0 <= i < |calls| && calls[i].additional.None? ==>
      i > 0 && calls[i - 1].key == calls[i].key && calls[i - 1].additional.Some?
      && getinfo(calls[i - 1]).Threw? && getinfo(calls[i - 1]).failure.Synology?
  }

  /** A request with `additional` that fails upstream is always followed by the same key without it. */
  predicate UpstreamErrorsRetried(calls: seq<GetinfoCall>, getinfo: GetinfoCall -> CallOutcome) {
    forall i :: 0 <= i < |calls| && calls[i].additional.Some? && getinfo(calls[i]).Threw? && getinfo(calls[i]).failure.Synology? ==>
      i + 1 < |calls| && calls[i + 1] == GetinfoCall(calls[i].key, None)
  }

  /** Every request that sends a field list sends `additional`. */
  predicate SendsFieldList(calls: seq<GetinfoCall>, additional: seq<string>) {
    forall i :: 0 <= i < |calls| && calls[i].additional.Some? ==> calls[i].additional.value == additional
  }

  /** One key's requests, and the lookup's answer when they settle it (`None`: go on to the next key). */
  datatype KeyAttempt = KeyAttempt(answer: Option<Result<Option<Json>>>, calls: seq<GetinfoCall>)

  /**
   * One iteration of the loop over id keys: `getinfo` with `additional`, and,
   * only after that request fails upstream, once more without it.
   */
  function TryKey(key: string, additional: seq<string>, getinfo: GetinfoCall -> CallOutcome): (a: KeyAttempt)
    ensures 1 <= |a.calls| <= 2 && a.calls[0] == GetinfoCall(key, Some(additional))
    ensures |a.calls| == 2 ==> a.calls[1] == GetinfoCall(key, None)
    ensures SendsFieldList(a.calls, additional)
    ensures |a.calls| == 2 <==> getinfo(a.calls[0]).Threw? && getinfo(a.calls[0]).failure.Synology?
    ensures FirstAttempts(a.calls) == [key]
    ensures RetriesFollowUpstreamErrors(a.calls, getinfo)
    ensures UpstreamErrorsRetried(a.calls, getinfo)
    ensures a.answer.None? ==> AllMiss(a.calls, getinfo)
    ensures AllMiss(a.calls[..|a.calls| - 1], getinfo)
    ensures a.answer.Some? && a.answer.value.Ok? ==>
              Hit(getinfo(a.calls[|a.calls| - 1])) && a.answer.value.value == FolderInfo.ExtractSingle(getinfo(a.calls[|a.calls| - 1]).data)
    ensures a.answer.Some? && a.answer.value.Err? ==>
              getinfo(a.calls[|a.calls| - 1]) == Threw(a.answer.value.failure) && !a.answer.value.failure.Synology?
  {
    var first := GetinfoCall(key, Some(additional));
    var o := getinfo(first);
    if Hit(o) then KeyAttempt(Some(Ok(FolderInfo.ExtractSingle(o.data))), [first])
    else if o.Threw? && !o.failure.Synology? then KeyAttempt(Some(Err(o.failure)), [first])
    else if o.Returned? then KeyAttempt(None, [first])
    else
      var second := GetinfoCall(key, None);
      var o2 := getinfo(second);
      assert [first, second][1..] == [second];
      assert FirstAttempts([second]) == [] by { assert [second][1..] == []; }
      var answer :=
        if Hit(o2) then Some(Ok(FolderInfo.ExtractSingle(o2.data)))
        else if o2.Threw? && !o2.failure.Synology? then Some(Err(o2.failure))
        else None;
      KeyAttempt(answer, [first, second])
  }

  /**
   * What a lookup over `keys` may have done: tried a prefix of the keys in
   * order, sent the caller's field list with every request that has one,
   * reported "not found" only after every key, and answered with the last
   * request's extracted item, or with its non-Synology error.
   */
  predicate LookupTrace(keys: seq<string>, additional: seq<string>, getinfo: GetinfoCall -> CallOutcome, r: DirectLookup) {
    && r.tried <= |keys| && FirstAttempts(r.calls) == keys[..r.tried]
    && SendsFieldList(r.calls, additional)
    && (r.result == Ok(None) ==> r.tried == |keys|)
    && (r.result.Ok? && r.result.value.Some? ==>
          |r.calls| > 0 && Hit(getinfo(r.calls[|r.calls| - 1]))
          && r.result.value == FolderInfo.ExtractSingle(getinfo(r.calls[|r.calls| - 1]).data))
    && (r.result.Err? ==>
          |r.calls| > 0 && getinfo(r.calls[|r.calls| - 1]) == Threw(r.result.failure) && !r.result.failure.Synology?)
  }

  /**
   * The lookup stops at the first request that settles it: every earlier
   * request missed, and "not found" means that no request hit.
   */
  predicate StopsAtFirstSettle(getinfo: GetinfoCall -> CallOutcome, r: DirectLookup) {
    && (|r.calls| > 0 ==> AllMiss(r.calls[..|r.calls| - 1], getinfo))
    && (r.result == Ok(None) ==> AllMiss(r.calls, getinfo))
  }

  /**
   * The `for (const key of ITEM_ID_KEYS)` loop: `TryKey` for each key in
   * turn until one settles the lookup; nothing found after the last key.
   */
  function LookupByKeys(keys: seq<string>, additional: seq<string>, getinfo: GetinfoCall -> CallOutcome): (r: DirectLookup)
    ensures LookupTrace(keys, additional, getinfo, r)
    ensures StopsAtFirstSettle(getinfo, r)
    decreases |keys|
  {
    if |keys| == 0 then DirectLookup(Ok(None), [], 0)
    else
      var a := TryKey(keys[0], additional, getinfo);
      if a.answer.Some? then
        assert keys[..1] == [keys[0]];
        DirectLookup(a.answer.value, a.calls, 1)
      else
        var rest := LookupByKeys(keys[1..], additional, getinfo);
        TraceJoin(keys, additional, getinfo, a.calls, rest);
        MissesJoin(a.calls, rest.calls, getinfo, rest.result == Ok(None));
        DirectLookup(rest.result, a.calls + rest.calls, rest.tried + 1)
  }

  /** One key's unanswered requests followed by the trace of the remaining keys make a trace of all the keys. */
  lemma TraceJoin(keys: seq<string>, additional: seq<string>, getinfo: GetinfoCall -> CallOutcome,
                  head: seq<GetinfoCall>, rest: DirectLookup)
    requires |keys| > 0 && |head| > 0 && FirstAttempts(head) == [keys[0]]
    requires SendsFieldList(head, additional)
    requires LookupTrace(keys[1..], additional, getinfo, rest)
    ensures LookupTrace(keys, additional, getinfo, DirectLookup(rest.result, head + rest.calls, rest.tried + 1))
  {
    var all := head + rest.calls;
    assert FirstAttempts(all) == keys[..rest.tried + 1] by {
      LookupStep(keys, head, rest);
    }
    CallsAppend(head, rest.calls, additional);
  }

  /** Unsettling requests followed by a trace that settles only at its end settle only at the end. */
  lemma MissesJoin(head: seq<GetinfoCall>, calls: seq<GetinfoCall>, getinfo: GetinfoCall -> CallOutcome, allMiss: bool)
    requires |head| > 0 && AllMiss(head, getinfo)
    requires |calls| > 0 ==> AllMiss(calls[..|calls| - 1], getinfo)
    requires allMiss ==> AllMiss(calls, getinfo)
    ensures AllMiss((head + calls)[..|head + calls| - 1], getinfo)
    ensures allMiss ==> AllMiss(head + calls, getinfo)
  {
    var all := head + calls;
    forall i | 0 <= i < |all| - 1
      ensures Miss(getinfo(all[i]))
    {
      if i < |head| {
        assert all[i] == head[i];
      } else {
        assert all[i] == calls[..|calls| - 1][i - |head|];
      }
    }
    if allMiss {
      forall i | 0 <= i < |all|
        ensures Miss(getinfo(all[i]))
      {
        if i < |head| {
          assert all[i] == head[i];
        } else {
          assert all[i] == calls[i - |head|];
        }
      }
    }
  }

  /**
   * The lookup starts with the first key and its field list, and every
   * request without the field list retries, for the same key, a request that
   * failed upstream.
   */
  lemma {:induction false} LookupRetries(keys: seq<string>, additional: seq<string>, getinfo: GetinfoCall -> CallOutcome)
    ensures var r := LookupByKeys(keys, additional, getinfo);
            && (|r.calls| > 0 ==> |keys| > 0 && r.calls[0] == GetinfoCall(keys[0], Some(additional)))
            && RetriesFollowUpstreamErrors(r.calls, getinfo)
    decreases |keys|
  {
    if |keys| > 0 {
      var a := TryKey(keys[0], additional, getinfo);
      if a.answer.None? {
        var rest := LookupByKeys(keys[1..], additional, getinfo);
        LookupRetries(keys[1..], additional, getinfo);
        RetriesPrepend(a.calls, rest.calls, getinfo);
        assert (a.calls + rest.calls)[0] == a.calls[0];
      }
    }
  }

  /** Every request with the field list that fails upstream is retried without it. */
  lemma {:induction false} LookupRetriesEveryUpstreamError(keys: seq<string>, additional: seq<string>,
                                                           getinfo: GetinfoCall -> CallOutcome)
    ensures UpstreamErrorsRetried(LookupByKeys(keys, additional, getinfo).calls, getinfo)
    decreases |keys|
  {
    if |keys| > 0 {
      var a := TryKey(keys[0], additional, getinfo);
      if a.answer.None? {
        var rest := LookupByKeys(keys[1..], additional, getinfo);
        LookupRetriesEveryUpstreamError(keys[1..], additional, getinfo);
        RetriedAppend(a.calls, rest.calls, getinfo);
      }
    }
  }

  lemma RetriedAppend(head: seq<GetinfoCall>, calls: seq<GetinfoCall>, getinfo: GetinfoCall -> CallOutcome)
    requires UpstreamErrorsRetried(head, getinfo) && UpstreamErrorsRetried(calls, getinfo)
    ensures UpstreamErrorsRetried(head + calls, getinfo)
  {
    var all := head + calls;
    forall i | 0 <= i < |all| && all[i].additional.Some? && getinfo(all[i]).Threw? && getinfo(all[i]).failure.Synology?
      ensures i + 1 < |all| && all[i + 1] == GetinfoCall(all[i].key, None)
    {
      if i < |head| {
        assert all[i] == head[i];
        assert all[i + 1] == head[i + 1];
      } else {
        assert all[i] == calls[i - |head|];
        assert all[i + 1] == calls[i + 1 - |head|];
      }
    }
  }

  /** One step of the loop: the first key's requests, and the rest of the lookup when that key misses. */
  lemma LookupUnfold(keys: seq<string>, additional: seq<string>, getinfo: GetinfoCall -> CallOutcome)
    requires |keys| > 0
    ensures var a := TryKey(keys[0], additional, getinfo);
            var rest := LookupByKeys(keys[1..], additional, getinfo);
            LookupByKeys(keys, additional, getinfo)
            == if a.answer.Some? then DirectLookup(a.answer.value, a.calls, 1)
               else DirectLookup(rest.result, a.calls + rest.calls, rest.tried + 1)
  {
  }

  /** None of the first `n` keys' requests settles the lookup. */
  predicate KeysMiss(keys: seq<string>, additional: seq<string>, getinfo: GetinfoCall -> CallOutcome, n: nat) {
    n <= |keys| && forall k :: 0 <= k < n ==> TryKey(keys[k], additional, getinfo).answer.None?
  }

  /** The first `n` keys miss exactly when the first key misses and the next `n - 1` do. */
  lemma KeysMissCons(keys: seq<string>, additional: seq<string>, getinfo: GetinfoCall -> CallOutcome, n: nat)
    requires 0 < n <= |keys|
    ensures KeysMiss(keys, additional, getinfo, n)
            <==> TryKey(keys[0], additional, getinfo).answer.None? && KeysMiss(keys[1..], additional, getinfo, n - 1)
  {
    if TryKey(keys[0], additional, getinfo).answer.None? && KeysMiss(keys[1..], additional, getinfo, n - 1) {
      forall k | 0 < k < n
        ensures TryKey(keys[k], additional, getinfo).answer.None?
      {
        assert keys[k] == keys[1..][k - 1];
      }
    }
    if KeysMiss(keys, additional, getinfo, n) {
      forall k | 0 <= k < n - 1
        ensures TryKey(keys[1..][k], additional, getinfo).answer.None?
      {
        assert keys[1..][k] == keys[k + 1];
      }
    }
  }

  /** A first key that misses only adds its requests and one to the count of keys tried. */
  lemma SkipMissedKey(keys: seq<string>, additional: seq<string>, getinfo: GetinfoCall -> CallOutcome)
    requires |keys| > 0 && TryKey(keys[0], additional, getinfo).answer.None?
    ensures LookupByKeys(keys, additional, getinfo).result == LookupByKeys(keys[1..], additional, getinfo).result
    ensures LookupByKeys(keys, additional, getinfo).tried == LookupByKeys(keys[1..], additional, getinfo).tried + 1
  {
    LookupUnfold(keys, additional, getinfo);
  }

  /** A first key that settles the lookup is its answer, and the only key tried. */
  lemma FirstKeySettles(keys: seq<string>, additional: seq<string>, getinfo: GetinfoCall -> CallOutcome)
    requires |keys| > 0 && TryKey(keys[0], additional, getinfo).answer.Some?
    ensures LookupByKeys(keys, additional, getinfo).result == TryKey(keys[0], additional, getinfo).answer.value
    ensures LookupByKeys(keys, additional, getinfo).tried == 1
  {
    LookupUnfold(keys, additional, getinfo);
  }

  /**
   * The lookup answers with the first key whose requests settle it: the
   * keys before it are each tried and missed, and no later key is tried.
   */
  lemma {:induction false} LookupAnswersFirstSettledKey(keys: seq<string>, additional: seq<string>,
                                                        getinfo: GetinfoCall -> CallOutcome, j: nat)
    requires j < |keys| && TryKey(keys[j], additional, getinfo).answer.Some?
    requires KeysMiss(keys, additional, getinfo, j)
    ensures LookupByKeys(keys, additional, getinfo).result == TryKey(keys[j], additional, getinfo).answer.value
    ensures LookupByKeys(keys, additional, getinfo).tried == j + 1
    decreases j
  {
    if j == 0 {
      FirstKeySettles(keys, additional, getinfo);
    } else {
      KeysMissCons(keys, additional, getinfo, j);
      SkipMissedKey(keys, additional, getinfo);
      assert keys[1..][j - 1] == keys[j];
      LookupAnswersFirstSettledKey(keys[1..], additional, getinfo, j - 1);
    }
  }

  /** "Not found" exactly when every key's requests miss. */
  lemma {:induction false} NotFoundIffEveryKeyMisses(keys: seq<string>, additional: seq<string>,
                                                     getinfo: GetinfoCall -> CallOutcome)
    ensures LookupByKeys(keys, additional, getinfo).result == Ok(None) <==> KeysMiss(keys, additional, getinfo, |keys|)
    decreases |keys|
  {
    if |keys| > 0 {
      KeysMissCons(keys, additional, getinfo, |keys|);
      if TryKey(keys[0], additional, getinfo).answer.None? {
        SkipMissedKey(keys, additional, getinfo);
        NotFoundIffEveryKeyMisses(keys[1..], additional, getinfo);
      } else {
        FirstKeySettles(keys, additional, getinfo);
      }
    }
  }

  lemma {:induction false} FirstAttemptsAppend(a: seq<GetinfoCall>, b: seq<GetinfoCall>)
    ensures FirstAttempts(a + b) == FirstAttempts(a) + FirstAttempts(b)
  {
    if |a| > 0 {
      assert (a + b)[1..] == a[1..] + b;
      FirstAttemptsAppend(a[1..], b);
    } else {
      assert a + b == b;
    }
  }

  /** Prepending one key's requests to the rest of the loop keeps the trace's shape. */
  lemma LookupStep(keys: seq<string>, head: seq<GetinfoCall>, rest: DirectLookup)
    requires |keys| > 0 && FirstAttempts(head) == [keys[0]]
    requires rest.tried <= |keys| - 1 && FirstAttempts(rest.calls) == keys[1..][..rest.tried]
    ensures FirstAttempts(head + rest.calls) == keys[..rest.tried + 1]
  {
    FirstAttemptsAppend(head, rest.calls);
    assert keys[..rest.tried + 1] == [keys[0]] + keys[1..][..rest.tried];
  }

  /** Joining two traces that each send only `additional` keeps the first request first and the last last. */
  lemma CallsAppend(head: seq<GetinfoCall>, calls: seq<GetinfoCall>, additional: seq<string>)
    requires |head| > 0
    requires SendsFieldList(head, additional)
    requires SendsFieldList(calls, additional)
    ensures (head + calls)[0] == head[0]
    ensures |calls| > 0 ==> (head + calls)[|head + calls| - 1] == calls[|calls| - 1]
    ensures SendsFieldList(head + calls, additional)
  {
    var all := head + calls;
    forall i | 0 <= i < |all| && all[i].additional.Some?
      ensures all[i].additional.value == additional
    {
      if i < |head| {
        assert all[i] == head[i];
      } else {
        assert all[i] == calls[i - |head|];
      }
    }
  }

  lemma RetriesPrepend(head: seq<GetinfoCall>, calls: seq<GetinfoCall>, getinfo: GetinfoCall -> CallOutcome)
    requires RetriesFollowUpstreamErrors(head, getinfo)
    requires RetriesFollowUpstreamErrors(calls, getinfo)
    requires |calls| > 0 ==> calls[0].additional.Some?
    ensures RetriesFollowUpstreamErrors(head + calls, getinfo)
  {
    var all := head + calls;
    forall i | 0 <= i < |all| && all[i].additional.None?
      ensures i > 0 && all[i - 1].key == all[i].key && all[i - 1].additional.Some?
              && getinfo(all[i - 1]).Threw? && getinfo(all[i - 1]).failure.Synology?
    {
      if i >= |head| {
        var k := i - |head|;
        assert all[i] == calls[k];
        assert k > 0;
        assert all[i - 1] == calls[k - 1];
      } else {
        assert all[i] == head[i];
        assert all[i - 1] == head[i - 1];
      }
    }
  }

  // ---------------------------------------------------------------------------
  // the lookup as a whole

  /** The three readings of `Date.now()`: the cache check, the scan's own cache check, and the scan's completion. */
  datatype Clock = Clock(check: int, scanStart: int, scanDone: int)

  /** What `fetchItemInfoWithFallback` returns, with the cache afterwards and the upstream requests made. */
  datatype ItemLookup = ItemLookup(result: Result<Option<Json>>, cache: FolderCache, scanned: bool, calls: seq<GetinfoCall>)

  /**
   * `fetchItemInfoWithFallback`. `load` is the outcome a folder scan
   * (`LoadFolderItems`) would have; `getinfo` answers the direct requests.
   * With a folder id, a cached or scanned answer is final, a miss included;
   * only an upstream failure of the scan falls through to the direct lookup.
   */
  function FetchItemInfoWithFallback(itemId: string, passphrase: Option<string>, additional: seq<string>,
                                     folderId: Option<string>, cache: FolderCache, clock: Clock,
                                     load: Result<map<string, Json>>, getinfo: GetinfoCall -> CallOutcome): (r: ItemLookup)
    ensures folderId.None? || folderId.value == "" ==>
              r.cache == cache && !r.scanned && r.result == LookupByKeys(ItemIdKeys, additional, getinfo).result
    ensures r.scanned ==> folderId.Some? && load.Err? ==> r.cache == cache
    ensures r.scanned && load.Ok? && r.result.Ok? && r.result.value.None? ==> |r.calls| == 0
    ensures |r.calls| > 0 ==> folderId.None? || folderId.value == "" || (r.scanned && load.Err? && load.failure.Synology?)
    ensures r.result.Ok? && r.result.value.Some? ==> Truthy(r.result.value.value)
    ensures SendsFieldList(r.calls, additional)
    ensures folderId.Some? && folderId.value != "" ==>
              r == FromFolder(itemId, passphrase, additional, folderId.value, cache, clock, load,
                              LookupByKeys(ItemIdKeys, additional, getinfo))
  {
    if folderId.Some? && folderId.value != "" then
      FromFolder(itemId, passphrase, additional, folderId.value, cache, clock, load, LookupByKeys(ItemIdKeys, additional, getinfo))
    else
      var direct := LookupByKeys(ItemIdKeys, additional, getinfo);
      ItemLookup(direct.result, cache, false, direct.calls)
  }

  /**
   * The `if (folderId)` branch: the cached item, else the scan's answer;
   * `direct` is the lookup by id keys that a scan failing upstream falls
   * back to.
   */
  function FromFolder(itemId: string, passphrase: Option<string>, additional: seq<string>, folderId: string,
                      cache: FolderCache, clock: Clock, load: Result<map<string, Json>>, direct: DirectLookup): (r: ItemLookup)
    ensures || (r.calls == direct.calls && r.result == direct.result && r.scanned && r.cache == cache
                && load.Err? && load.failure.Synology?)
            || (r.calls == [] && (r.result.Ok? && r.result.value.Some? ==> Truthy(r.result.value.value))
                && (r.scanned && load.Err? ==> r.cache == cache))
  {
    var idString := NormalizeId(itemId);
    var cached := GetCachedFolderItem(cache, clock.check, idString, folderId, passphrase, additional);
    if CachedHit(itemId, passphrase, additional, folderId, cache, clock.check) then ItemLookup(Ok(cached), cache, false, [])
    else
      var scan := FindItemInFolder(cache, clock.scanStart, clock.scanDone, idString, folderId,
                                   passphrase, additional, load);
      match scan.result
      case Ok(item) =>
        ItemLookup(Ok(TruthyOnly(item)), scan.cache, scan.scanned, [])
      case Err(f) =>
        if !f.Synology? then ItemLookup(Err(f), scan.cache, scan.scanned, [])
        else ItemLookup(direct.result, scan.cache, scan.scanned, direct.calls)
  }

  /** A live cache entry holds a truthy item under the normalised id. */
  predicate CachedHit(itemId: string, passphrase: Option<string>, additional: seq<string>, folderId: string,
                      cache: FolderCache, now: int) {
    var cached := GetCachedFolderItem(cache, now, NormalizeId(itemId), folderId, passphrase, additional);
    cached.Some? && Truthy(cached.value)
  }

  /** `if (item) return item; ... return null`: a falsy item counts as none. */
  function TruthyOnly(item: Option<Json>): (r: Option<Json>)
    ensures r.Some? <==> item.Some? && Truthy(item.value)
    ensures r.Some? ==> r == item
  {
    if item.Some? && Truthy(item.value) then item else None
  }

  /** A live cache entry holding a truthy item answers at once, with no scan and no request. */
  lemma CachedItemAnswers(itemId: string, passphrase: Option<string>, additional: seq<string>, folderId: string,
                   cache: FolderCache, clock: Clock, load: Result<map<string, Json>>, direct: DirectLookup)
    requires CachedHit(itemId, passphrase, additional, folderId, cache, clock.check)
    ensures var r := FromFolder(itemId, passphrase, additional, folderId, cache, clock, load, direct);
            && r.result == Ok(GetCachedFolderItem(cache, clock.check, NormalizeId(itemId), folderId, passphrase, additional))
            && r.cache == cache && !r.scanned && r.calls == []
  {
  }

  /**
   * Without a cached hit, an entry still live when the scan starts answers
   * the lookup, a miss or a falsy item included, with no request.
   */
  lemma LiveEntryAnswers(itemId: string, passphrase: Option<string>, additional: seq<string>, folderId: string,
                   cache: FolderCache, clock: Clock, load: Result<map<string, Json>>, direct: DirectLookup)
    requires !CachedHit(itemId, passphrase, additional, folderId, cache, clock.check)
    requires LiveItems(cache, BuildFolderCacheKey(folderId, passphrase, additional), clock.scanStart).Some?
    ensures var key := BuildFolderCacheKey(folderId, passphrase, additional);
            var r := FromFolder(itemId, passphrase, additional, folderId, cache, clock, load, direct);
            && r.result == Ok(TruthyOnly(Lookup(cache[key].items, NormalizeId(itemId))))
            && r.cache == cache && !r.scanned && r.calls == []
  {
    var scan := FindItemInFolder(cache, clock.scanStart, clock.scanDone, NormalizeId(itemId), folderId, passphrase, additional, load);
    assert !scan.scanned;
  }

  /**
   * A scan that completes answers the lookup with what it found, a miss
   * included, stores the scanned folder for 60 seconds after it completed,
   * and sends no `getinfo` request.
   */
  lemma ScanAnswers(itemId: string, passphrase: Option<string>, additional: seq<string>, folderId: string,
                   cache: FolderCache, clock: Clock, load: Result<map<string, Json>>, direct: DirectLookup)
    requires !CachedHit(itemId, passphrase, additional, folderId, cache, clock.check)
    requires LiveItems(cache, BuildFolderCacheKey(folderId, passphrase, additional), clock.scanStart).None?
    requires load.Ok?
    ensures var key := BuildFolderCacheKey(folderId, passphrase, additional);
            var r := FromFolder(itemId, passphrase, additional, folderId, cache, clock, load, direct);
            && r.result == Ok(TruthyOnly(Lookup(load.value, NormalizeId(itemId))))
            && r.scanned && r.calls == []
            && r.cache == cache[key := CacheEntry(clock.scanDone + FolderCacheTtlMs, load.value)]
  {
    var key := BuildFolderCacheKey(folderId, passphrase, additional);
    var id := NormalizeId(itemId);
    var entry := CacheEntry(clock.scanDone + FolderCacheTtlMs, load.value);
    var scan := FindItemInFolder(cache, clock.scanStart, clock.scanDone, id, folderId, passphrase, additional, load);
    assert scan.scanned && scan.result == Ok(Lookup(load.value, id)) && scan.cache == cache[key := entry];
  }

  /** A scan that fails upstream falls back to the direct lookup by id keys. */
  lemma ScanFailureFallsBack(itemId: string, passphrase: Option<string>, additional: seq<string>, folderId: string,
                   cache: FolderCache, clock: Clock, load: Result<map<string, Json>>, direct: DirectLookup)
    requires !CachedHit(itemId, passphrase, additional, folderId, cache, clock.check)
    requires LiveItems(cache, BuildFolderCacheKey(folderId, passphrase, additional), clock.scanStart).None?
    requires load.Err? && load.failure.Synology?
    ensures var r := FromFolder(itemId, passphrase, additional, folderId, cache, clock, load, direct);
            && r.result == direct.result
            && r.calls == direct.calls
            && r.scanned && r.cache == cache
  {
    var scan := FindItemInFolder(cache, clock.scanStart, clock.scanDone, NormalizeId(itemId), folderId, passphrase, additional, load);
    assert scan.scanned && scan.result == Err(load.failure);
  }

  /** Any other scan failure is rethrown, without a direct lookup. */
  lemma ScanErrorRethrown(itemId: string, passphrase: Option<string>, additional: seq<string>, folderId: string,
                   cache: FolderCache, clock: Clock, load: Result<map<string, Json>>, direct: DirectLookup)
    requires !CachedHit(itemId, passphrase, additional, folderId, cache, clock.check)
    requires LiveItems(cache, BuildFolderCacheKey(folderId, passphrase, additional), clock.scanStart).None?
    requires load.Err? && !load.failure.Synology?
    ensures var r := FromFolder(itemId, passphrase, additional, folderId, cache, clock, load, direct);
            r.result == Err(load.failure) && r.calls == [] && r.scanned && r.cache == cache
  {
    var scan := FindItemInFolder(cache, clock.scanStart, clock.scanDone, NormalizeId(itemId), folderId, passphrase, additional, load);
    assert scan.scanned && scan.result == Err(load.failure);
  }

  /** `fetchVisibleItemInfo`'s outcome: the visible item or the error, with the lookup's effects. */
  datatype VisibleLookup = VisibleLookup(result: Result<Json>, cache: FolderCache, calls: seq<GetinfoCall>, additional: seq<string>)

  /** The `additional` field that carries an item's tags. */
  const TagsField: string := "tag"

  /** Some entry of the list names the `tag` field, ignoring case and surrounding whitespace. */
  predicate RequestsTags(additional: seq<string>) {
    exists i :: 0 <= i < |additional| && NormEntry(additional[i]) == TagsField
  }

  lemma EnsureTagRequestsTags(additional: seq<string>)
    ensures RequestsTags(EnsureAdditionalIncludes(additional, TagsField))
  {
    var r := EnsureAdditionalIncludes(additional, TagsField);
    TagIsNormal();
    var i :| 0 <= i < |r| && NormEntry(r[i]) == NormEntry(TagsField);
    assert NormEntry(r[i]) == TagsField;
  }

  lemma TagIsNormal()
    ensures NormEntry(TagsField) == TagsField != ""
  {
    TagIsLowerWord();
    LowercaseWordIsNormal(TagsField);
  }

  lemma TagIsLowerWord()
    ensures |TagsField| > 0 && forall i :: 0 <= i < |TagsField| ==> 'a' <= TagsField[i] <= 'z'
  {
  }

  /** The visibility gate after the lookup: a missing and a hide-tagged item fail alike. */
  function VisibleResult(lookup: Result<Option<Json>>, message: string): (r: Result<Json>)
    ensures r.Ok? <==> lookup.Ok? && lookup.value.Some? && !Filtering.HasHideTag(lookup.value.value)
    ensures r.Ok? ==> r.value == lookup.value.value
    ensures lookup.Err? ==> r == Err(lookup.failure)
    ensures lookup.Ok? && !r.Ok? ==> r == Err(Api(NotFound(message)))
  {
    match lookup
    case Err(f) => Err(f)
    case Ok(None) => Err(Api(NotFound(message)))
    case Ok(Some(item)) =>
      match Visibility.AssertVisibleItem(item, Some(message))
      case Ok(_) => Ok(item)
      case Err(f) => Err(f)
  }

  /**
   * `fetchVisibleItemInfo`: the lookup always asks for tags; an absent item
   * and a hide-tagged item both fail with NOT_FOUND and the same message
   * (default "Item not found").
   */
  function FetchVisibleItemInfo(itemId: string, passphrase: Option<string>, additional: seq<string>,
                                folderId: Option<string>, notFoundMessage: Option<string>, cache: FolderCache,
                                clock: Clock, load: Result<map<string, Json>>,
                                getinfo: GetinfoCall -> CallOutcome): (r: VisibleLookup)
    ensures RequestsTags(r.additional)
    ensures SendsFieldList(r.calls, r.additional)
    ensures r.result.Ok? ==> !Filtering.HasHideTag(r.result.value)
    ensures r.result == VisibleResult(
              FetchItemInfoWithFallback(itemId, passphrase, r.additional, folderId, cache, clock, load, getinfo).result,
              notFoundMessage.GetOr("Item not found"))
  {
    var withTags := EnsureAdditionalIncludes(additional, TagsField);
    EnsureTagRequestsTags(additional);
    var lookup := FetchItemInfoWithFallback(itemId, passphrase, withTags, folderId, cache, clock, load, getinfo);
    VisibleLookup(VisibleResult(lookup.result, notFoundMessage.GetOr("Item not found")), lookup.cache, lookup.calls, withTags)
  }
}

=== FILE: json.dfy ===
/**
 * Upstream records are untyped JavaScript values. This module models them and
 * the handful of JavaScript operators the server applies to them: nullish
 * coalescing (`??`), truthiness (`!x`), property access through optional
 * chaining (`record?.key`), `String(x)` and finite `Number(x)`.
 */
module Json {
  import opened Common
  import opened Strings

  /** A JavaScript value as parsed from an upstream JSON body (numbers are integral). */
  datatype Json =
    | JUndef
    | JNull
    | JBool(b: bool)
    | JNum(n: int)
    | JStr(s: string)
    | JArr(elems: seq<Json>)
    | JObj(fields: map<string, Json>)

  /** The values `??` skips. */
  predicate Nullish(j: Json) {
    j.JUndef? || j.JNull?
  }

  /** `a ?? b`. */
  function Coalesce(a: Json, b: Json): Json {
    if Nullish(a) then b else a
  }

  /** `Boolean(j)`: `undefined`, `null`, `false`, `0` and `""` are falsy. */
  predicate Truthy(j: Json) {
    match j
    case JUndef => false
    case JNull => false
    case JBool(b) => b
    case JNum(n) => n != 0
    case JStr(s) => |s| > 0
    case JArr(_) => true
    case JObj(_) => true
  }

  /**
   * `readRecord(j)?.[key]`: the field of an object, `undefined` otherwise. The
   * keys this layer reads are never array indices, `length` or inherited
   * names, so arrays and primitives yield `undefined` too.
   */
  function Get(j: Json, key: string): Json {
    if j.JObj? && key in j.fields then j.fields[key] else JUndef
  }

  /** `j.k0 ?? j.k1 ?? … ?? j.kn`: the first non-nullish alias, else the last alias's own value. */
  function Alias(j: Json, keys: seq<string>): (r: Json)
    requires |keys| > 0
    ensures !Nullish(r) ==> exists i :: 0 <= i < |keys| && r == Get(j, keys[i])
                                      && forall k :: 0 <= k < i ==> Nullish(Get(j, keys[k]))
    ensures Nullish(r) <==> forall i :: 0 <= i < |keys| ==> Nullish(Get(j, keys[i]))
    ensures Nullish(r) ==> r == Get(j, keys[|keys| - 1])
  {
    if |keys| == 1 then Get(j, keys[0])
    else
      var rest := Alias(j, keys[1..]);
      assert forall i :: 1 <= i < |keys| ==> keys[i] == keys[1..][i - 1];
      if Nullish(Get(j, keys[0])) then
        assert forall i :: 0 <= i < |keys| - 1 ==> Nullish(Get(j, keys[1..][i])) ==> Nullish(Get(j, keys[i + 1]));
        rest
      else Get(j, keys[0])
  }

  /** `String(j)`. Arrays print their elements joined by commas, with `null`/`undefined` elements empty. */
  function ToStr(j: Json): string
    decreases j
  {
    match j
    case JUndef => "undefined"
    case JNull => "null"
    case JBool(b) => if b then "true" else "false"
    case JNum(n) => IntToString(n)
    case JStr(s) => s
    case JArr(es) =>
      Join(seq(|es|, i requires 0 <= i < |es| => if Nullish(es[i]) then "" else ToStr(es[i])), ",")
    case JObj(_) => "[object Object]"
  }

  /** `Number(j)` when the result is finite; `None` stands for `NaN` and the infinities. */
  function ToNumber(j: Json): Option<int> {
    match j
    case JUndef => None
    case JNull => Some(0)
    case JBool(b) => Some(if b then 1 else 0)
    case JNum(n) => Some(n)
    case JStr(s) => ParseNumber(s)
    case JArr(_) => ParseNumber(ToStr(j))
    case JObj(_) => None
  }

  /** `String(x)` of a finite number reads back as that number. */
  lemma ToNumberOfPrinted(n: int)
    ensures ToNumber(JStr(ToStr(JNum(n)))) == Some(n)
  {
    NumberOfIntToString(n);
  }
}

=== FILE: mappers.dfy ===
/**
 * `lib/api/mappers.ts`: normalisation of upstream folder and item records into
 * the API's `Collection` and `Item` shapes, plus the small parsers the routes
 * share (`parseNumberParam`, `parseNumericId`, `extractList`). Ids are found
 * through alias chains with `??`; a record whose first present id alias is
 * falsy is dropped. Percent-encoding is the identity here and timestamps are
 * not converted.
 */
module Mappers {
  import opened Common
  import opened Strings
  import opened Json

  const CollectionIdKeys: seq<string> := ["id", "folder_id", "album_id", "share_id"]
  const ItemIdKeys: seq<string> := ["id", "unit_id", "item_id", "photo_id"]

  /** `readRecord`: a truthy object (arrays included), otherwise `null`. */
  function ReadRecord(v: Json): (r: Json)
    ensures r != JNull ==> r == v
    ensures r != JNull <==> v.JObj? || v.JArr?
  {
    if !Truthy(v) || !(v.JObj? || v.JArr?) then JNull else v
  }

  // ---------------------------------------------------------------------------
  // numeric parameters and ids

  /** `parseNumberParam`: absent or empty gives the fallback; otherwise `Number(value)` when finite, else the fallback. */
  function ParseNumberParam(value: Option<string>, fallback: int): (r: int)
    ensures value.None? || value.value == "" ==> r == fallback
    ensures value.Some? && value.value != "" && ParseNumber(value.value).None? ==> r == fallback
    ensures value.Some? && ParseNumber(value.value).Some? && value.value != "" ==> r == ParseNumber(value.value).value
  {
    if value.None? || value.value == "" then fallback
    else
      match ParseNumber(value.value)
      case Some(n) => n
      case None => fallback
  }

  /** A printed integer parameter is read back as that integer, whatever the fallback. */
  lemma ParseNumberParamOfPrinted(n: int, fallback: int)
    ensures ParseNumberParam(Some(IntToString(n)), fallback) == n
  {
    NumberOfIntToString(n);
  }

  /** `Number("  ")` is 0, so a blank (but not empty) parameter is 0 rather than the fallback. */
  lemma ParseNumberParamBlank(fallback: int)
    ensures ParseNumberParam(Some(" "), fallback) == 0
  {
    assert Trim(" ") == "";
  }

  /** The value `parseNumericId` returns: a number when the text parses as a finite number, else the text. */
  datatype NumericId = NumId(n: int) | StrId(s: string)

  function ParseNumericId(value: string): (r: NumericId)
    ensures r.NumId? <==> ParseNumber(value).Some?
    ensures r.StrId? ==> r.s == value
  {
    match ParseNumber(value)
    case Some(n) => NumId(n)
    case None => StrId(value)
  }

  /** The id as the JavaScript value sent upstream. */
  function NumericIdValue(id: NumericId): Json {
    match id
    case NumId(n) => JNum(n)
    case StrId(s) => JStr(s)
  }

  /** `String(parseNumericId(value))`: the canonical spelling ids are compared in. */
  function NormalizeId(value: string): string {
    ToStr(NumericIdValue(ParseNumericId(value)))
  }

  /** A printed integer is its own numeric id. */
  lemma ParseNumericIdOfPrinted(n: int)
    ensures ParseNumericId(IntToString(n)) == NumId(n)
  {
    NumberOfIntToString(n);
  }

  /** Normalising an already normalised id changes nothing. */
  lemma NormalizeIdIdempotent(value: string)
    ensures NormalizeId(NormalizeId(value)) == NormalizeId(value)
  {
    match ParseNumber(value)
    case Some(n) => NumberOfIntToString(n);
    case None =>
  }

  /** Different spellings of one number normalise to the same id. */
  lemma NormalizeIdOfNumber(value: string, n: int)
    requires ParseNumber(value) == Some(n)
    ensures NormalizeId(value) == IntToString(n) == NormalizeId(IntToString(n))
  {
    NumberOfIntToString(n);
  }

  // ---------------------------------------------------------------------------
  // lists

  /** What `extractList` returns. */
  datatype ListPage = ListPage(list: seq<Json>, total: int)

  /**
   * `extractList`: the `list` array (empty when absent or not an array) and
   * `total ?? total_count` as a number, falling back to the list's length
   * when absent or not finite.
   */
  function ExtractList(data: Json): (r: ListPage)
    ensures var l := Get(ReadRecord(data), "list"); r.list == if l.JArr? then l.elems else []
    ensures var t := Coalesce(Get(data, "total"), Get(data, "total_count"));
            Nullish(t) ==> r.total == |r.list|
    ensures var t := Coalesce(Get(data, "total"), Get(data, "total_count"));
            !Nullish(t) ==> r.total == ToNumber(t).GetOr(|r.list|)
  {
    var record := ReadRecord(data);
    var listValue := Get(record, "list");
    var list := if listValue.JArr? then listValue.elems else [];
    var totalValue := Coalesce(Get(record, "total"), Get(record, "total_count"));
    var total := if totalValue.JNum? then Some(totalValue.n) else ToNumber(Coalesce(totalValue, JNum(|list|)));
    ListPage(list, total.GetOr(|list|))
  }

  /** The response envelope the upstream sends for a page of a list. */
  function ListEnvelope(list: seq<Json>, total: int): Json {
    JObj(map["list" := JArr(list), "total" := JNum(total)])
  }

  /** `extractList` recovers the list and total the upstream sent. */
  lemma ExtractListOfEnvelope(list: seq<Json>, total: int)
    ensures ExtractList(ListEnvelope(list, total)) == ListPage(list, total)
  {
  }

  /** A total sent as text is read as the number it spells. */
  lemma ExtractListTextTotal(list: seq<Json>, total: int)
    ensures ExtractList(JObj(map["list" := JArr(list), "total_count" := JStr(IntToString(total))])).total == total
  {
    var text := IntToString(total);
    TextTotalRecord(list, text);
    NumberOfIntToString(total);
    TotalFromText(JObj(map["list" := JArr(list), "total_count" := JStr(text)]), text, total);
  }

  lemma TextTotalRecord(list: seq<Json>, text: string)
    ensures var data := JObj(map["list" := JArr(list), "total_count" := JStr(text)]);
            Get(data, "total") == JUndef && Get(data, "total_count") == JStr(text)
  {
  }

  /** A record without `total` whose `total_count` is numeric text reports that number as its total. */
  lemma TotalFromText(data: Json, text: string, total: int)
    requires Get(data, "total") == JUndef && Get(data, "total_count") == JStr(text)
    requires ToNumber(JStr(text)) == Some(total)
    ensures ExtractList(data).total == total
  {
  }

  // ---------------------------------------------------------------------------
  // collections

  /** `Collection` (`lib/api/proxyUtils.ts`); `type` is always "folder" and the timestamps are not modelled. */
  datatype Collection = Collection(
    id: string,
    title: string,
    description: Option<string>,
    itemCount: int,
    coverItemId: Option<string>,
    coverThumbnailUrl: Option<string>)

  /**
   * The library mapper appends `?folder_id=<id>` to the cover thumbnail URL;
   * the copy in the collections route does not.
   */
  datatype CoverUrlStyle = WithFolderQuery | Bare

  function CollectionId(data: Json): Json {
    Alias(data, CollectionIdKeys)
  }

  function CoverThumbnailUrl(origin: string, cover: string, id: string, style: CoverUrlStyle): string {
    var base := origin + "/api/items/" + cover + "/thumbnail";
    if style == WithFolderQuery then base + "?folder_id=" + id else base
  }

  /** `mapCollection`. */
  function MapCollection(data: Json, origin: string, style: CoverUrlStyle): (r: Option<Collection>)
    ensures r.None? <==> !Truthy(CollectionId(data))
    ensures r.Some? ==> r.value.id == ToStr(CollectionId(data))
    ensures r.Some? ==> (r.value.coverItemId.Some? <==> r.value.coverThumbnailUrl.Some?)
    ensures r.Some? && r.value.coverItemId.Some? ==>
              StartsWith(r.value.coverThumbnailUrl.value, origin + "/api/items/" + r.value.coverItemId.value + "/thumbnail")
    ensures r.Some? ==> (r.value.description.Some? <==> Truthy(Get(data, "description")))
    ensures r.Some? && r.value.description.Some? ==> r.value.description.value == ToStr(Get(data, "description"))
    ensures r.Some? ==> CollectionTitleRule(data, r.value)
    ensures r.Some? ==> CollectionCountRule(data, r.value)
    ensures r.Some? ==> CoverUrlRule(data, origin, style, r.value)
  {
    var idValue := CollectionId(data);
    if !Truthy(idValue) then None
    else
      var titleValue := Coalesce(Get(data, "name"), Coalesce(Get(data, "title"), idValue));
      var descriptionValue := Coalesce(Get(data, "description"), JNull);
      var countValue := Coalesce(Get(data, "item_count"), Coalesce(Get(data, "count"), JNum(0)));
      var coverValue := Coalesce(Get(data, "cover_unit_id"), JNull);
      var id := ToStr(idValue);
      Some(Collection(
        id,
        ToStr(titleValue),
        if Truthy(descriptionValue) then Some(ToStr(descriptionValue)) else None,
        ToNumber(countValue).GetOr(0),
        if Truthy(coverValue) then Some(ToStr(coverValue)) else None,
        if Truthy(coverValue) then Some(CoverThumbnailUrl(origin, ToStr(coverValue), id, style)) else None))
  }

  /** The title is `name` when present, else `title` when present, else the id. */
  predicate CollectionTitleRule(data: Json, c: Collection) {
    && (!Nullish(Get(data, "name")) ==> c.title == ToStr(Get(data, "name")))
    && (Nullish(Get(data, "name")) && !Nullish(Get(data, "title")) ==> c.title == ToStr(Get(data, "title")))
    && (Nullish(Get(data, "name")) && Nullish(Get(data, "title")) ==> c.title == c.id)
  }

  /**
   * The item count is the number `item_count` spells when it is present,
   * else the number `count` spells when that is present, else 0; a value
   * that spells no finite number counts 0.
   */
  predicate CollectionCountRule(data: Json, c: Collection) {
    && (!Nullish(Get(data, "item_count")) ==> c.itemCount == ToNumber(Get(data, "item_count")).GetOr(0))
    && (Nullish(Get(data, "item_count")) && !Nullish(Get(data, "count")) ==> c.itemCount == ToNumber(Get(data, "count")).GetOr(0))
    && (Nullish(Get(data, "item_count")) && Nullish(Get(data, "count")) ==> c.itemCount == 0)
  }

  /**
   * A cover is the truthy `cover_unit_id`; its thumbnail URL is the item's
   * thumbnail endpoint, with `?folder_id=<collection id>` in the library copy
   * and nothing after it in the route's copy.
   */
  predicate CoverUrlRule(data: Json, origin: string, style: CoverUrlStyle, c: Collection) {
    var cover := Get(data, "cover_unit_id");
    var base := origin + "/api/items/" + ToStr(cover) + "/thumbnail";
    && (c.coverItemId.Some? <==> Truthy(cover))
    && (c.coverItemId.Some? ==> c.coverItemId.value == ToStr(cover))
    && (c.coverItemId.Some? && style == Bare ==> c.coverThumbnailUrl == Some(base))
    && (c.coverItemId.Some? && style == WithFolderQuery ==> c.coverThumbnailUrl == Some(base + "?folder_id=" + c.id))
  }

  /** A count sent as text, under either key, is read as the number it spells. */
  lemma CollectionItemCount(data: Json, origin: string, style: CoverUrlStyle, n: int)
    requires MapCollection(data, origin, style).Some?
    requires Get(data, "item_count") == JStr(IntToString(n))
             || (Nullish(Get(data, "item_count")) && Get(data, "count") == JStr(IntToString(n)))
    ensures MapCollection(data, origin, style).value.itemCount == n
  {
    var c := MapCollection(data, origin, style).value;
    NumberOfIntToString(n);
    CountFromText(data, c, IntToString(n), n);
  }

  lemma CountFromText(data: Json, c: Collection, text: string, n: int)
    requires CollectionCountRule(data, c) && ParseNumber(text) == Some(n)
    requires Get(data, "item_count") == JStr(text)
             || (Nullish(Get(data, "item_count")) && Get(data, "count") == JStr(text))
    ensures c.itemCount == n
  {
    assert ToNumber(JStr(text)) == Some(n);
  }

  /** The title falls back to the id when neither `name` nor `title` is present. */
  lemma CollectionTitleFallback(data: Json, origin: string, style: CoverUrlStyle)
    requires MapCollection(data, origin, style).Some?
    requires Nullish(Get(data, "name")) && Nullish(Get(data, "title"))
    ensures MapCollection(data, origin, style).value.title == MapCollection(data, origin, style).value.id
  {
  }

  /** The two copies of the mapper agree on everything but the cover URL's query. */
  lemma CollectionStylesAgree(data: Json, origin: string)
    ensures MapCollection(data, origin, WithFolderQuery).None? <==> MapCollection(data, origin, Bare).None?
    ensures MapCollection(data, origin, WithFolderQuery).Some? ==>
              MapCollection(data, origin, WithFolderQuery).value.(coverThumbnailUrl := None)
              == MapCollection(data, origin, Bare).value.(coverThumbnailUrl := None)
  {
  }

  /** A mapped collection's id, sent back as a record's `id`, maps to the same id. */
  lemma CollectionIdStable(data: Json, origin: string, style: CoverUrlStyle)
    requires MapCollection(data, origin, style).Some?
    requires |MapCollection(data, origin, style).value.id| > 0
    ensures var id := MapCollection(data, origin, style).value.id;
            MapCollection(JObj(map["id" := JStr(id)]), origin, style).value.id == id
  {
  }

  // ---------------------------------------------------------------------------
  // items

  datatype ItemType = Photo | Video | OtherType

  /** `parseItemType`: upstream type codes and type names to the three item kinds. */
  function ParseItemType(value: Json): (t: ItemType)
    ensures value.JNum? ==> t == (if value.n == 1 || value.n == 3 then Photo else if value.n == 2 then Video else OtherType)
    ensures !value.JNum? && !value.JStr? ==> t == OtherType
    ensures value.JStr? && Lower(value.s) == "live" ==> t == Photo
    ensures value.JStr? ==>
              (t == Photo <==> Lower(value.s) == "live" || Contains(Lower(value.s), "photo") || Contains(Lower(value.s), "image"))
    ensures value.JStr? ==>
              (t == OtherType <==> Lower(value.s) != "live" && !Contains(Lower(value.s), "photo")
                                   && !Contains(Lower(value.s), "image") && !Contains(Lower(value.s), "video"))
  {
    match value
    case JNum(n) => if n == 1 then Photo else if n == 2 then Video else if n == 3 then Photo else OtherType
    case JStr(s) =>
      var lower := Lower(s);
      if lower == "live" then Photo
      else if Contains(lower, "photo") || Contains(lower, "image") then Photo
      else if Contains(lower, "video") then Video
      else OtherType
    case _ => OtherType
  }

  /** Type names are compared case-insensitively. */
  lemma ItemTypeCaseInsensitive(s: string)
    ensures ParseItemType(JStr(s)) == ParseItemType(JStr(Lower(s)))
  {
    LowerIdempotent(s);
  }

  /** A type name mentioning "photo" or "image" is a photo even when it also mentions "video". */
  lemma PhotoWinsOverVideo(s: string)
    requires Contains(Lower(s), "photo") || Contains(Lower(s), "image")
    ensures ParseItemType(JStr(s)) == Photo
  {
  }

  /** A type name is a video exactly when it mentions "video" and nothing that makes it a photo. */
  lemma VideoByName(s: string)
    ensures ParseItemType(JStr(s)) == Video <==>
              Lower(s) != "live" && !Contains(Lower(s), "photo") && !Contains(Lower(s), "image") && Contains(Lower(s), "video")
  {
  }

  datatype ThumbSize = Sm | M | Xl

  function SizeName(z: ThumbSize): string {
    match z
    case Sm => "sm"
    case M => "m"
    case Xl => "xl"
  }

  /** The order in which sizes are preferred. */
  function SizeRank(z: ThumbSize): nat {
    match z
    case Sm => 0
    case M => 1
    case Xl => 2
  }

  predicate Ready(thumbnail: Json, z: ThumbSize) {
    Get(thumbnail, SizeName(z)) == JStr("ready")
  }

  /** `pickThumbnailSize`: the most preferred size marked "ready", if any. */
  function PickThumbnailSize(thumbnail: Json): (r: Option<ThumbSize>)
    ensures r.Some? ==> Ready(thumbnail, r.value)
    ensures r.Some? ==> forall z :: SizeRank(z) < SizeRank(r.value) ==> !Ready(thumbnail, z)
    ensures r.None? <==> forall z :: !Ready(thumbnail, z)
  {
    if Nullish(thumbnail) then None
    else if Get(thumbnail, "sm") == JStr("ready") then assert Ready(thumbnail, Sm); Some(Sm)
    else if Get(thumbnail, "m") == JStr("ready") then assert Ready(thumbnail, M); Some(M)
    else if Get(thumbnail, "xl") == JStr("ready") then assert Ready(thumbnail, Xl); Some(Xl)
    else None
  }

  /** `Item` (`lib/api/proxyUtils.ts`) without the timestamps. */
  datatype Item = Item(
    id: string,
    kind: ItemType,
    filename: string,
    mimeType: Option<string>,
    sizeBytes: Option<int>,
    width: Option<int>,
    height: Option<int>,
    exif: Option<Json>,
    thumbnailUrl: string,
    downloadUrl: string)

  function ItemId(data: Json): Json {
    Alias(data, ItemIdKeys)
  }

  /** `URLSearchParams.toString()` without percent-encoding. */
  function QueryString(params: seq<(string, string)>): string {
    Join(seq(|params|, i requires 0 <= i < |params| => params[i].0 + "=" + params[i].1), "&")
  }

  /** `base` followed by `?query` when the query is non-empty. */
  function WithQuery(base: string, params: seq<(string, string)>): string {
    var q := QueryString(params);
    if |q| > 0 then base + "?" + q else base
  }

  /** A parameter set only when its value is present and non-empty. */
  function OptParam(key: string, value: Option<string>): seq<(string, string)> {
    if value.Some? && |value.value| > 0 then [(key, value.value)] else []
  }

  /** A parameter set when the value is truthy, to its `String` form, which may be empty. */
  function TruthyParam(key: string, value: Json): seq<(string, string)> {
    if Truthy(value) then [(key, ToStr(value))] else []
  }

  /** `cache_key` of the thumbnail record, when it is a string or a number. */
  function CacheKey(thumbnail: Json): Option<string> {
    var v := Get(thumbnail, "cache_key");
    if v.JStr? || v.JNum? then Some(ToStr(v)) else None
  }

  /**
   * `mimeType`: set when `mime_type` or `mime` is truthy, to `mime_type` when
   * that is present (even when it is falsy) and to `mime` otherwise.
   */
  function ItemMime(data: Json): (r: Option<string>)
    ensures r.Some? <==> Truthy(Get(data, "mime_type")) || Truthy(Get(data, "mime"))
    ensures r.Some? && !Nullish(Get(data, "mime_type")) ==> r.value == ToStr(Get(data, "mime_type"))
    ensures r.Some? && Nullish(Get(data, "mime_type")) ==> r.value == ToStr(Get(data, "mime"))
  {
    if Truthy(Get(data, "mime_type")) || Truthy(Get(data, "mime"))
    then Some(ToStr(Coalesce(Get(data, "mime_type"), Get(data, "mime")))) else None
  }

  /** A present but empty `mime_type` wins over `mime`: the item's type is then the empty string. */
  lemma EmptyMimeTypeWins(data: Json, mime: string)
    requires Get(data, "mime_type") == JStr("") && Get(data, "mime") == JStr(mime) && mime != ""
    ensures ItemMime(data) == Some("")
  {
  }

  /**
   * `sizeBytes`: set when `filesize` or `size` is truthy, to the number
   * `filesize` spells when present and `size` otherwise, and left out when
   * that is not a finite number.
   */
  function ItemSizeBytes(data: Json): (r: Option<int>)
    ensures r.Some? ==> Truthy(Get(data, "filesize")) || Truthy(Get(data, "size"))
    ensures Truthy(Get(data, "filesize")) ==> r == ToNumber(Get(data, "filesize"))
    ensures Nullish(Get(data, "filesize")) && Truthy(Get(data, "size")) ==> r == ToNumber(Get(data, "size"))
    ensures !Truthy(Get(data, "filesize")) && !Nullish(Get(data, "filesize")) && Truthy(Get(data, "size")) ==>
              r == ToNumber(Get(data, "filesize"))
    ensures !Truthy(Get(data, "filesize")) && !Truthy(Get(data, "size")) ==> r.None?
  {
    if Truthy(Get(data, "filesize")) || Truthy(Get(data, "size"))
    then ToNumber(Coalesce(Get(data, "filesize"), Get(data, "size"))) else None
  }

  /** A present `filesize` of 0 wins over a truthy `size`: the item's size is then 0. */
  lemma ZeroFilesizeWins(data: Json, size: int)
    requires Get(data, "filesize") == JNum(0) && Get(data, "size") == JNum(size) && size != 0
    ensures ItemSizeBytes(data) == Some(0)
  {
  }

  /** `width`/`height`: the resolution record's field, else the record's own field, else its legacy name. */
  function Dimension(resolution: Json, data: Json, key: string, legacy: string): (r: Option<int>)
    ensures !Nullish(Get(resolution, key)) ==> r == ToNumber(Get(resolution, key))
    ensures Nullish(Get(resolution, key)) && !Nullish(Get(data, key)) ==> r == ToNumber(Get(data, key))
    ensures Nullish(Get(resolution, key)) && Nullish(Get(data, key)) ==> r == ToNumber(Get(data, legacy))
  {
    ToNumber(Coalesce(Get(resolution, key), Coalesce(Get(data, key), Get(data, legacy))))
  }

  /** `additional.exif` when it is an object. */
  function Exif(additional: Json): Option<Json> {
    var v := Get(additional, "exif");
    if Truthy(v) && (v.JObj? || v.JArr?) then Some(v) else None
  }

  /** `<origin>/api/items/<id><endpoint>` with the given parameters and then `folder_id`. */
  function ItemUrl(origin: string, id: string, endpoint: string, params: seq<(string, string)>, folderId: Option<string>): (u: string)
    ensures StartsWith(u, origin + "/api/items/" + id + endpoint)
    ensures folderId.Some? && |folderId.value| > 0 ==> EndsWith(u, "folder_id=" + folderId.value)
  {
    var all := params + OptParam("folder_id", folderId);
    QueryEndsWithLast(all, "folder_id", folderId);
    WithQuery(origin + "/api/items/" + id + endpoint, all)
  }

  /**
   * The download link: `cache_key` when there is one, then `filename`
   * whenever the filename value is truthy, even when it prints as the empty
   * string, then `folder_id`.
   */
  function DownloadUrl(origin: string, id: string, cacheKey: Option<string>, filenameValue: Json,
                       folderId: Option<string>): (u: string)
    ensures cacheKey.None? && folderId.None? && Truthy(filenameValue) ==>
              u == origin + "/api/items/" + id + "/download?filename=" + ToStr(filenameValue)
    ensures cacheKey.None? && folderId.None? && !Truthy(filenameValue) ==>
              u == origin + "/api/items/" + id + "/download"
  {
    var params := OptParam("cache_key", cacheKey) + TruthyParam("filename", filenameValue);
    if cacheKey.None? && folderId.None? && Truthy(filenameValue) then
      SingleQuery(origin + "/api/items/" + id + "/download", "filename", ToStr(filenameValue));
      assert params + OptParam("folder_id", folderId) == [("filename", ToStr(filenameValue))];
      ItemUrl(origin, id, "/download", params, folderId)
    else
      ItemUrl(origin, id, "/download", params, folderId)
  }

  /** A query of one parameter is `key=value`. */
  lemma SingleQuery(base: string, key: string, value: string)
    ensures WithQuery(base, [(key, value)]) == base + "?" + key + "=" + value
  {
    assert QueryString([(key, value)]) == key + "=" + value;
  }

  /**
   * A truthy filename that prints as the empty string, such as an empty
   * array, is still sent: the download URL ends in `?filename=`.
   */
  lemma EmptyFilenameStillSent(origin: string, id: string)
    ensures DownloadUrl(origin, id, None, JArr([]), None) == origin + "/api/items/" + id + "/download?filename="
  {
    assert ToStr(JArr([])) == "";
  }

  /** `mapItem`. */
  function MapItem(data: Json, origin: string, folderId: Option<string>): (r: Option<Item>)
    ensures r.None? <==> !Truthy(ItemId(data))
    ensures r.Some? ==> r.value.id == ToStr(ItemId(data))
    ensures r.Some? ==> r.value.filename == ToStr(Coalesce(Get(data, "filename"), Coalesce(Get(data, "name"), JStr(r.value.id))))
    ensures r.Some? ==> StartsWith(r.value.thumbnailUrl, origin + "/api/items/" + r.value.id + "/thumbnail")
    ensures r.Some? ==> StartsWith(r.value.downloadUrl, origin + "/api/items/" + r.value.id + "/download")
    ensures r.Some? ==> (r.value.mimeType.Some? <==> Truthy(Get(data, "mime_type")) || Truthy(Get(data, "mime")))
    ensures r.Some? && folderId.Some? && |folderId.value| > 0 ==>
              EndsWith(r.value.thumbnailUrl, "folder_id=" + folderId.value)
              && EndsWith(r.value.downloadUrl, "folder_id=" + folderId.value)
    ensures r.Some? ==>
              var thumbnail := ReadRecord(Get(ReadRecord(Get(data, "additional")), "thumbnail"));
              var size := PickThumbnailSize(thumbnail);
              && r.value.thumbnailUrl
                 == WithQuery(origin + "/api/items/" + r.value.id + "/thumbnail",
                              OptParam("cache_key", CacheKey(thumbnail))
                              + OptParam("size", if size.Some? then Some(SizeName(size.value)) else None)
                              + OptParam("folder_id", folderId))
              && r.value.downloadUrl
                 == WithQuery(origin + "/api/items/" + r.value.id + "/download",
                              OptParam("cache_key", CacheKey(thumbnail))
                              + (if Truthy(Coalesce(Get(data, "filename"), Coalesce(Get(data, "name"), JStr(r.value.id))))
                                 then [("filename", r.value.filename)] else [])
                              + OptParam("folder_id", folderId))
  {
    var idValue := ItemId(data);
    if !Truthy(idValue) then None
    else
      var id := ToStr(idValue);
      var filenameValue := Coalesce(Get(data, "filename"), Coalesce(Get(data, "name"), JStr(id)));
      var additional := ReadRecord(Get(data, "additional"));
      var resolution := ReadRecord(Get(additional, "resolution"));
      var thumbnail := ReadRecord(Get(additional, "thumbnail"));
      var cacheKey := CacheKey(thumbnail);
      var size := PickThumbnailSize(thumbnail);
      var thumbParams :=
        OptParam("cache_key", cacheKey) + OptParam("size", if size.Some? then Some(SizeName(size.value)) else None);
      Some(Item(
        id,
        ParseItemType(Coalesce(Get(data, "type"), Coalesce(Get(data, "item_type"), Get(data, "media_type")))),
        ToStr(filenameValue),
        ItemMime(data),
        ItemSizeBytes(data),
        Dimension(resolution, data, "width", "resolutionx"),
        Dimension(resolution, data, "height", "resolutiony"),
        Exif(additional),
        ItemUrl(origin, id, "/thumbnail", thumbParams, folderId),
        DownloadUrl(origin, id, cacheKey, filenameValue, folderId)))
  }

  /**
   * The item's kind is read from `type ?? item_type ?? media_type`; its MIME
   * type, size, width, height and EXIF follow their field rules, the
   * dimensions looking in `additional.resolution` first.
   */
  lemma MapItemFields(data: Json, origin: string, folderId: Option<string>)
    requires MapItem(data, origin, folderId).Some?
    ensures var item := MapItem(data, origin, folderId).value;
            var additional := ReadRecord(Get(data, "additional"));
            var resolution := ReadRecord(Get(additional, "resolution"));
            && item.kind == ParseItemType(Coalesce(Get(data, "type"), Coalesce(Get(data, "item_type"), Get(data, "media_type"))))
            && item.mimeType == ItemMime(data)
            && item.sizeBytes == ItemSizeBytes(data)
            && item.width == Dimension(resolution, data, "width", "resolutionx")
            && item.height == Dimension(resolution, data, "height", "resolutiony")
            && item.exif == Exif(additional)
  {
  }

  /** When the last parameter is `key=value`, the URL ends with it. */
  lemma QueryEndsWithLast(params: seq<(string, string)>, key: string, value: Option<string>)
    requires value.Some? && |value.value| > 0 ==> |params| > 0 && params[|params| - 1] == (key, value.value)
    ensures forall base :: value.Some? && |value.value| > 0 ==> EndsWith(WithQuery(base, params), key + "=" + value.value)
  {
    if value.Some? && |value.value| > 0 {
      var parts := seq(|params|, i requires 0 <= i < |params| => params[i].0 + "=" + params[i].1);
      JoinEndsWithLast(parts, "&");
    }
  }

  lemma {:induction false} JoinEndsWithLast(parts: seq<string>, sep: string)
    requires |parts| > 0
    ensures EndsWith(Join(parts, sep), parts[|parts| - 1])
  {
    if |parts| > 1 {
      JoinEndsWithLast(parts[1..], sep);
      var rest := Join(parts[1..], sep);
      assert Join(parts, sep) == (parts[0] + sep) + rest;
    }
  }
}

=== FILE: photo_viewer.dfy ===
/**
 * The photo viewer's state (`hooks/use-photo-viewer.ts`): which item is
 * shown, if any, and whether its image is still loading. The hook's React
 * state becomes a `Viewer` value, each callback a transition, and the
 * keyboard listener (installed only while the viewer is open) a transition
 * on a key. `itemCount` is the hook's argument.
 */
module PhotoViewer {
  import opened Common

  /** `viewerIndex` (null when closed) and `isImageLoading`. */
  datatype Viewer = Viewer(index: Option<int>, imageLoading: bool)

  /** The hook's initial state: closed, with the loading flag set. */
  const Initial: Viewer := Viewer(None, true)

  predicate IsOpen(v: Viewer) {
    v.index.Some?
  }

  /** `hasPrevious`. */
  predicate HasPrevious(v: Viewer) {
    v.index.Some? && v.index.value > 0
  }

  /** `hasNext`. */
  predicate HasNext(v: Viewer, itemCount: int) {
    v.index.Some? && v.index.value < itemCount - 1
  }

  /** `open`: shows the item at `index` (not range-checked) and marks its image as loading. */
  function Open(v: Viewer, index: int): (r: Viewer)
    ensures IsOpen(r) && r.index == Some(index) && r.imageLoading
  {
    Viewer(Some(index), true)
  }

  /** `close`: hides the viewer and leaves the loading flag alone. */
  function Close(v: Viewer): (r: Viewer)
    ensures !IsOpen(r) && r.imageLoading == v.imageLoading
  {
    v.(index := None)
  }

  /** `goToPrevious`: steps back one item when there is one; marks the image as loading either way. */
  function GoToPrevious(v: Viewer): (r: Viewer)
    ensures r.imageLoading
    ensures IsOpen(r) == IsOpen(v)
    ensures r.index != v.index ==> r.index.value == v.index.value - 1
  {
    Viewer(if v.index.Some? && v.index.value > 0 then Some(v.index.value - 1) else v.index, true)
  }

  /** `goToNext`: steps forward one item when there is one; marks the image as loading either way. */
  function GoToNext(v: Viewer, itemCount: int): (r: Viewer)
    ensures r.imageLoading
    ensures IsOpen(r) == IsOpen(v)
    ensures r.index != v.index ==> r.index.value == v.index.value + 1
  {
    Viewer(if v.index.Some? && v.index.value < itemCount - 1 then Some(v.index.value + 1) else v.index, true)
  }

  /** `onImageLoad`. */
  function OnImageLoad(v: Viewer): (r: Viewer)
    ensures !r.imageLoading && r.index == v.index
  {
    v.(imageLoading := false)
  }

  /** `hasPrevious` is exactly the condition under which `goToPrevious` moves. */
  lemma PreviousMovesIffHasPrevious(v: Viewer)
    ensures HasPrevious(v) <==> GoToPrevious(v).index != v.index
  {
  }

  /** `hasNext` is exactly the condition under which `goToNext` moves. */
  lemma NextMovesIffHasNext(v: Viewer, itemCount: int)
    ensures HasNext(v, itemCount) <==> GoToNext(v, itemCount).index != v.index
  {
  }

  /** Stepping back and then forward returns to the item shown before. */
  lemma PreviousThenNext(v: Viewer, itemCount: int)
    requires HasPrevious(v) && v.index.value < itemCount
    ensures GoToNext(GoToPrevious(v), itemCount).index == v.index
  {
  }

  datatype Key = Escape | ArrowLeft | ArrowRight | OtherKey

  /**
   * The `keydown` listener: absent while the viewer is closed; Escape closes;
   * the arrows move only when there is an item in that direction; every other
   * key, and an arrow with nowhere to go, changes nothing.
   */
  function KeyDown(v: Viewer, key: Key, itemCount: int): (r: Viewer)
    ensures !IsOpen(v) ==> r == v
    ensures IsOpen(v) && key == Escape ==> !IsOpen(r)
    ensures key == ArrowLeft ==> if HasPrevious(v) then r == GoToPrevious(v) else r == v
    ensures key == ArrowRight ==> if HasNext(v, itemCount) then r == GoToNext(v, itemCount) else r == v
    ensures key == OtherKey ==> r == v
  {
    if !IsOpen(v) then v
    else match key
      case Escape => Close(v)
      case ArrowLeft => if HasPrevious(v) then GoToPrevious(v) else v
      case ArrowRight => if HasNext(v, itemCount) then GoToNext(v, itemCount) else v
      case OtherKey => v
  }

  /** One thing that can happen to the viewer. */
  datatype Step = OpenAt(at: int) | CloseViewer | Previous | Next | ImageLoaded | Press(key: Key)

  function Apply(v: Viewer, step: Step, itemCount: int): Viewer {
    match step
    case OpenAt(i) => Open(v, i)
    case CloseViewer => Close(v)
    case Previous => GoToPrevious(v)
    case Next => GoToNext(v, itemCount)
    case ImageLoaded => OnImageLoad(v)
    case Press(key) => KeyDown(v, key, itemCount)
  }

  function Run(v: Viewer, steps: seq<Step>, itemCount: int): Viewer
    decreases |steps|
  {
    if |steps| == 0 then v else Run(Apply(v, steps[0], itemCount), steps[1..], itemCount)
  }

  /** The viewer is closed or shows one of the `itemCount` items. */
  predicate InRange(v: Viewer, itemCount: int) {
    v.index.None? || 0 <= v.index.value < itemCount
  }

  /** A single step opened at a valid item keeps the index in range. */
  lemma ApplyKeepsRange(v: Viewer, step: Step, itemCount: int)
    requires InRange(v, itemCount)
    requires step.OpenAt? ==> 0 <= step.at < itemCount
    ensures InRange(Apply(v, step, itemCount), itemCount)
  {
  }

  /**
   * Whatever sequence of steps and key presses follows, an index in
   * `[0, itemCount - 1]` stays there, provided the viewer is only ever opened
   * at a valid item.
   */
  lemma {:induction false} RunKeepsRange(v: Viewer, steps: seq<Step>, itemCount: int)
    requires InRange(v, itemCount)
    requires forall k :: 0 <= k < |steps| && steps[k].OpenAt? ==> 0 <= steps[k].at < itemCount
    ensures InRange(Run(v, steps, itemCount), itemCount)
    decreases |steps|
  {
    if |steps| > 0 {
      ApplyKeepsRange(v, steps[0], itemCount);
      var rest := steps[1..];
      assert forall k :: 0 <= k < |rest| ==> rest[k] == steps[k + 1];
      RunKeepsRange(Apply(v, steps[0], itemCount), rest, itemCount);
    }
  }

  /** Arrow keys alone never open or close the viewer. */
  lemma {:induction false} ArrowsKeepOpenness(v: Viewer, keys: seq<Key>, itemCount: int)
    requires forall k :: 0 <= k < |keys| ==> keys[k] != Escape
    ensures IsOpen(RunKeys(v, keys, itemCount)) == IsOpen(v)
    decreases |keys|
  {
    if |keys| > 0 {
      var rest := keys[1..];
      assert forall k :: 0 <= k < |rest| ==> rest[k] == keys[k + 1];
      ArrowsKeepOpenness(KeyDown(v, keys[0], itemCount), rest, itemCount);
    }
  }

  function RunKeys(v: Viewer, keys: seq<Key>, itemCount: int): Viewer
    decreases |keys|
  {
    if |keys| == 0 then v else RunKeys(KeyDown(v, keys[0], itemCount), keys[1..], itemCount)
  }
}

=== FILE: proxy.dfy ===
/**
 * The request guard run before every route (`proxy.ts`): admin pages need
 * a valid admin token, as does the analytics statistics endpoint; the login
 * page and everything else pass. The JWT signature check is a predicate
 * parameter.
 */
module Proxy {
  import opened Common
  import opened Strings

  /** `COOKIE_NAME`. */
  const CookieName: string := "admin_token"
  const LoginPath: string := "/admin/login"
  const AdminPrefix: string := "/admin"
  const StatsPath: string := "/api/analytics/stats"

  /**
   * `verifyTokenFromCookie`: false without a non-empty cookie or a non-empty
   * `ADMIN_JWT_SECRET`; otherwise whatever `jwtVerify` decides (a thrown
   * verification error counts as false).
   */
  predicate TokenValid(cookie: Option<string>, secret: Option<string>, jwtVerify: (string, string) -> bool) {
    cookie.Some? && cookie.value != "" && secret.Some? && secret.value != "" && jwtVerify(cookie.value, secret.value)
  }

  datatype Decision = PassThrough | RedirectToLogin | Unauthorized

  function Status(d: Decision): int {
    match d
    case PassThrough => 200
    case RedirectToLogin => 307
    case Unauthorized => 401
  }

  /** The paths the guard checks the token for. */
  predicate Guarded(path: string) {
    (StartsWith(path, AdminPrefix) && path != LoginPath) || path == StatsPath
  }

  /** The statistics endpoint does not lie under "/admin". */
  lemma StatsNotAdmin()
    ensures !StartsWith(StatsPath, AdminPrefix)
  {
    assert StatsPath[2] != AdminPrefix[2];
  }

  /** `proxy` for a request path whose token is `tokenValid`. */
  function Decide(path: string, tokenValid: bool): (d: Decision)
    ensures d == RedirectToLogin <==> StartsWith(path, AdminPrefix) && path != LoginPath && !tokenValid
    ensures d == Unauthorized <==> path == StatsPath && !tokenValid
    ensures d == PassThrough <==> tokenValid || !Guarded(path)
  {
    StatsNotAdmin();
    if StartsWith(path, AdminPrefix) && path != LoginPath && !tokenValid then RedirectToLogin
    else if path == StatsPath && !tokenValid then Unauthorized
    else PassThrough
  }

  /** `proxy` on a request: the path and the cookie, with the secret and the verifier as parameters. */
  function ProxyRequest(path: string, cookie: Option<string>, secret: Option<string>,
                        jwtVerify: (string, string) -> bool): (d: Decision)
    ensures !Guarded(path) ==> d == PassThrough
    ensures Guarded(path) ==> (d == PassThrough <==> TokenValid(cookie, secret, jwtVerify))
    ensures secret.None? || secret == Some("") ==> (d == PassThrough <==> !Guarded(path))
  {
    Decide(path, TokenValid(cookie, secret, jwtVerify))
  }

  /** The login page is reachable whatever the cookie says. */
  lemma LoginNeverChecked(tokenValid: bool)
    ensures Decide(LoginPath, tokenValid) == PassThrough
  {
  }

  /** The prefix test is textual: a lookalike such as "/administrator" is guarded like an admin page. */
  lemma LookalikeIsGuarded()
    ensures Decide("/administrator", false) == RedirectToLogin
  {
    assert "/administrator"[..|AdminPrefix|] == AdminPrefix;
  }

  /** The statistics endpoint answers 401 rather than redirecting, since it is not under "/admin". */
  lemma StatsAnswers401()
    ensures Decide(StatsPath, false) == Unauthorized && Status(Decide(StatsPath, false)) == 401
  {
  }

  /** A valid token passes every path; an invalid one is stopped exactly at the guarded paths. */
  lemma TokenDecidesGuardedPaths(path: string)
    ensures Decide(path, true) == PassThrough
    ensures Decide(path, false) != PassThrough <==> Guarded(path)
  {
  }
}

=== FILE: rate_limit.dfy ===
/**
 * The sliding-window rate limiter (`lib/api/rateLimit.ts`). Each (scope,
 * client) pair owns a log of request timestamps in whole seconds; one call
 * prunes the entries that left the window, counts the rest, and records
 * itself whether or not it is allowed. The Redis pipeline is one atomic
 * transition on a map from key to log.
 */
module RateLimit {
  import opened Common
  import opened Strings
  import opened Seqs

  /** `{ limit, windowSeconds }`. */
  datatype RateLimitConfig = RateLimitConfig(limit: nat, windowSeconds: nat)

  datatype RateLimitResult = RateLimitResult(success: bool, remaining: int, resetAt: int)

  /** Every log, by Redis key. */
  type RateLogs = map<string, seq<int>>

  /**
   * `getClientId`: the first comma-separated entry of `x-forwarded-for`,
   * trimmed, or "unknown" when the header is absent or empty.
   */
  function GetClientId(forwarded: Option<string>): (r: string)
    ensures forwarded.None? || forwarded.value == "" ==> r == "unknown"
    ensures forwarded.Some? && forwarded.value != "" ==> NoEdgeSpace(r)
  {
    if forwarded.Some? && forwarded.value != "" then Trim(Split(forwarded.value, ',')[0]) else "unknown"
  }

  /** The client is the trimmed text before the first comma, or the whole trimmed header when it has none. */
  lemma ClientIdIsFirstEntry(first: string, rest: string)
    requires ',' !in first
    ensures GetClientId(Some(first + "," + rest)) == Trim(first)
    ensures first != "" ==> GetClientId(Some(first)) == Trim(first)
  {
    SplitHead(first, ',', rest);
    assert first + "," + rest == first + [','] + rest;
  }

  /** `ratelimit:${key}:${clientId}`. */
  function RateLimitKey(scope: string, client: string): string {
    "ratelimit:" + scope + ":" + client
  }

  /** `Math.floor(Date.now() / 1000)`; Dafny's division by a positive divisor rounds down as `Math.floor` does. */
  function Seconds(nowMs: int): int {
    nowMs / 1000
  }

  /** The entries `ZREMRANGEBYSCORE key 0 windowStart` keeps: both bounds are inclusive. */
  function Survives(windowStart: int): int -> bool {
    score => !(0 <= score <= windowStart)
  }

  function LogOf(logs: RateLogs, key: string): seq<int> {
    if key in logs then logs[key] else []
  }

  datatype Checked = Checked(result: RateLimitResult, logs: RateLogs)

  /**
   * `checkRateLimit`: prune, count, append `now`, then allow iff the count
   * was below the limit. `resetAt` is the end of the window in seconds.
   */
  function CheckRateLimit(logs: RateLogs, scope: string, client: string, nowMs: int, config: RateLimitConfig): (r: Checked)
    ensures var now := Seconds(nowMs);
            var kept := Filter(Survives(now - config.windowSeconds), LogOf(logs, RateLimitKey(scope, client)));
            (r.result.success <==> |kept| < config.limit)
            && (r.result.success ==> r.result.remaining == config.limit - |kept| - 1)
            && LogOf(r.logs, RateLimitKey(scope, client)) == kept + [now]
    ensures r.result.success ==> 0 <= r.result.remaining <= config.limit - 1
    ensures !r.result.success ==> r.result.remaining == 0
    ensures r.result.resetAt == Seconds(nowMs) + config.windowSeconds
    ensures forall k :: k != RateLimitKey(scope, client) ==> LogOf(r.logs, k) == LogOf(logs, k)
    ensures forall score :: score in LogOf(r.logs, RateLimitKey(scope, client)) ==>
              score == Seconds(nowMs) || score > Seconds(nowMs) - config.windowSeconds || score < 0
  {
    var key := RateLimitKey(scope, client);
    var now := Seconds(nowMs);
    var kept := Filter(Survives(now - config.windowSeconds), LogOf(logs, key));
    var count := |kept|;
    var result :=
      if count >= config.limit then RateLimitResult(false, 0, now + config.windowSeconds)
      else RateLimitResult(true, config.limit - count - 1, now + config.windowSeconds);
    Checked(result, logs[key := kept + [now]])
  }

  /** The same client calling at each of `times` (milliseconds) in turn; the results in order. */
  function CallSeries(logs: RateLogs, scope: string, client: string, times: seq<int>, config: RateLimitConfig): (r: (seq<RateLimitResult>, RateLogs))
    ensures |r.0| == |times|
    decreases |times|
  {
    if |times| == 0 then ([], logs)
    else
      var first := CheckRateLimit(logs, scope, client, times[0], config);
      var rest := CallSeries(first.logs, scope, client, times[1..], config);
      ([first.result] + rest.0, rest.1)
  }

  /** `times`, in seconds, never go backwards and all lie within one window before `last`. */
  predicate WithinOneWindow(times: seq<int>, last: int, window: nat) {
    (forall i, j :: 0 <= i < j < |times| ==> Seconds(times[i]) <= Seconds(times[j]))
    && (forall i :: 0 <= i < |times| ==> Seconds(times[i]) <= Seconds(last) && Seconds(times[i]) > Seconds(last) - window)
  }

  /** A log whose last entries are the seconds of `times`. */
  predicate EndsWithSeconds(log: seq<int>, times: seq<int>) {
    |log| >= |times| && forall i :: 0 <= i < |times| ==> log[|log| - |times| + i] == Seconds(times[i])
  }

  lemma PruneSplit(head: seq<int>, tail: seq<int>, ws: int)
    requires forall i :: 0 <= i < |tail| ==> Survives(ws)(tail[i])
    ensures Filter(Survives(ws), head + tail) == Filter(Survives(ws), head) + tail
  {
    FilterAppend(Survives(ws), head, tail);
    FilterKeepsAll(Survives(ws), tail);
  }

  /** Pruning keeps every entry of a log's tail that came after the window start. */
  lemma PruneKeepsTail(log: seq<int>, times: seq<int>, ws: int)
    requires EndsWithSeconds(log, times)
    requires forall i :: 0 <= i < |times| ==> Seconds(times[i]) > ws
    ensures Filter(Survives(ws), log) == Filter(Survives(ws), log[..|log| - |times|]) + log[|log| - |times|..]
  {
    var head, tail := log[..|log| - |times|], log[|log| - |times|..];
    assert log == head + tail;
    TailSurvives(log, times, ws);
    assert forall i :: 0 <= i < |tail| ==> tail[i] == log[|log| - |times| + i];
    PruneSplit(head, tail, ws);
  }

  lemma TailSurvives(log: seq<int>, times: seq<int>, ws: int)
    requires EndsWithSeconds(log, times)
    requires forall i :: 0 <= i < |times| ==> Seconds(times[i]) > ws
    ensures forall i :: |log| - |times| <= i < |log| ==> Survives(ws)(log[i])
  {
    forall i | |log| - |times| <= i < |log|
      ensures Survives(ws)(log[i])
    {
      var k := i - (|log| - |times|);
      assert log[|log| - |times| + k] == Seconds(times[k]);
    }
  }

  /**
   * After calls at `times`, all within one window before `last`, the log ends
   * with their seconds, and a call at `last` still counts all of them.
   */
  lemma {:induction false} SeriesLogsEveryCall(logs: RateLogs, scope: string, client: string, done: seq<int>,
                                               times: seq<int>, last: int, config: RateLimitConfig)
    requires WithinOneWindow(done + times, last, config.windowSeconds)
    requires EndsWithSeconds(LogOf(logs, RateLimitKey(scope, client)), done)
    ensures EndsWithSeconds(LogOf(CallSeries(logs, scope, client, times, config).1, RateLimitKey(scope, client)), done + times)
    decreases |times|
  {
    if |times| > 0 {
      var first := CheckRateLimit(logs, scope, client, times[0], config);
      EarlierInWindow(done, times, last, config.windowSeconds);
      CallLogged(logs, scope, client, done, times[0], config);
      assert (done + [times[0]]) + times[1..] == done + times;
      SeriesLogsEveryCall(first.logs, scope, client, done + [times[0]], times[1..], last, config);
    }
  }

  /** Calls made before `times[0]` in the same window are still inside the window a call at `times[0]` opens. */
  lemma EarlierInWindow(done: seq<int>, times: seq<int>, last: int, window: nat)
    requires |times| > 0 && WithinOneWindow(done + times, last, window)
    ensures forall i :: 0 <= i < |done| ==> Seconds(done[i]) > Seconds(times[0]) - window
  {
    forall i | 0 <= i < |done|
      ensures Seconds(done[i]) > Seconds(times[0]) - window
    {
      assert done[i] == (done + times)[i];
      assert times[0] == (done + times)[|done|];
    }
  }

  /** One call keeps the logged calls that are still in its window and appends its own second. */
  lemma CallLogged(logs: RateLogs, scope: string, client: string, done: seq<int>, t: int, config: RateLimitConfig)
    requires EndsWithSeconds(LogOf(logs, RateLimitKey(scope, client)), done)
    requires forall i :: 0 <= i < |done| ==> Seconds(done[i]) > Seconds(t) - config.windowSeconds
    ensures EndsWithSeconds(LogOf(CheckRateLimit(logs, scope, client, t, config).logs, RateLimitKey(scope, client)), done + [t])
  {
    var log := LogOf(logs, RateLimitKey(scope, client));
    var ws := Seconds(t) - config.windowSeconds;
    PruneKeepsTail(log, done, ws);
    EndsAfterAppend(Filter(Survives(ws), log[..|log| - |done|]), log, done, t);
  }

  lemma EndsAfterAppend(front: seq<int>, log: seq<int>, done: seq<int>, t: int)
    requires EndsWithSeconds(log, done)
    ensures EndsWithSeconds(front + log[|log| - |done|..] + [Seconds(t)], done + [t])
  {
    var tail := log[|log| - |done|..];
    var r := front + tail + [Seconds(t)];
    forall i | 0 <= i < |done + [t]|
      ensures r[|r| - |done + [t]| + i] == Seconds((done + [t])[i])
    {
      if i < |done| {
        assert r[|r| - |done + [t]| + i] == tail[i] == log[|log| - |done| + i];
      }
    }
  }

  /**
   * With limit `L`, of `L + 1` calls by one client within one window the last
   * is rejected: every earlier call, rejected ones included, is still counted.
   */
  lemma LimitPlusOneRejected(logs: RateLogs, scope: string, client: string, times: seq<int>, last: int, config: RateLimitConfig)
    requires |times| == config.limit
    requires WithinOneWindow(times, last, config.windowSeconds)
    ensures var before := CallSeries(logs, scope, client, times, config).1;
            !CheckRateLimit(before, scope, client, last, config).result.success
  {
    var before := CallSeries(logs, scope, client, times, config).1;
    SeriesCounted(logs, scope, client, times, last, config);
    var r := CheckRateLimit(before, scope, client, last, config);
  }

  /** Every call of the series is still in the log a call at `last` counts. */
  lemma SeriesCounted(logs: RateLogs, scope: string, client: string, times: seq<int>, last: int, config: RateLimitConfig)
    requires WithinOneWindow(times, last, config.windowSeconds)
    ensures var log := LogOf(CallSeries(logs, scope, client, times, config).1, RateLimitKey(scope, client));
            |Filter(Survives(Seconds(last) - config.windowSeconds), log)| >= |times|
  {
    SeriesLogsAll(logs, scope, client, times, last, config);
    var log := LogOf(CallSeries(logs, scope, client, times, config).1, RateLimitKey(scope, client));
    CountedInWindow(log, times, last, config.windowSeconds);
  }

  /** `SeriesLogsEveryCall` from a log nothing is known about. */
  lemma SeriesLogsAll(logs: RateLogs, scope: string, client: string, times: seq<int>, last: int, config: RateLimitConfig)
    requires WithinOneWindow(times, last, config.windowSeconds)
    ensures EndsWithSeconds(LogOf(CallSeries(logs, scope, client, times, config).1, RateLimitKey(scope, client)), times)
  {
    var none: seq<int> := [];
    assert none + times == times;
    assert EndsWithSeconds(LogOf(logs, RateLimitKey(scope, client)), none);
    SeriesLogsEveryCall(logs, scope, client, none, times, last, config);
  }

  lemma CountedInWindow(log: seq<int>, times: seq<int>, last: int, window: nat)
    requires WithinOneWindow(times, last, window)
    requires EndsWithSeconds(log, times)
    ensures |Filter(Survives(Seconds(last) - window), log)| >= |times|
  {
    PruneKeepsTail(log, times, Seconds(last) - window);
  }

  /** The position of the first ':' in `t`, or `|t|` when there is none. */
  function FirstColon(t: string): (i: nat)
    ensures i <= |t|
  {
    if |t| == 0 || t[0] == ':' then 0 else 1 + FirstColon(t[1..])
  }

  lemma {:induction false} FirstColonAfterScope(scope: string, client: string)
    requires ':' !in scope
    ensures FirstColon(scope + ":" + client) == |scope|
  {
    if |scope| > 0 {
      assert (scope + ":" + client)[1..] == scope[1..] + ":" + client;
      FirstColonAfterScope(scope[1..], client);
    }
  }

  /** The first ':' of `scope + ":" + client` ends a colon-free scope. */
  lemma ColonSeparates(s1: string, c1: string, s2: string, c2: string)
    requires ':' !in s1 && ':' !in s2
    requires s1 + ":" + c1 == s2 + ":" + c2
    ensures s1 == s2 && c1 == c2
  {
    var t := s1 + ":" + c1;
    FirstColonAfterScope(s1, c1);
    FirstColonAfterScope(s2, c2);
    assert s1 == t[..|s1|] == s2;
    assert c1 == t[|s1| + 1..] == c2;
  }

  /** A key's scope never contains ':', so the key determines the scope and the client. */
  lemma KeysSeparate(s1: string, c1: string, s2: string, c2: string)
    requires ':' !in s1 && ':' !in s2
    ensures RateLimitKey(s1, c1) == RateLimitKey(s2, c2) <==> s1 == s2 && c1 == c2
  {
    var k1, k2 := RateLimitKey(s1, c1), RateLimitKey(s2, c2);
    if k1 == k2 {
      var p := |"ratelimit:"|;
      assert k1[p..] == s1 + ":" + c1;
      assert k2[p..] == s2 + ":" + c2;
      ColonSeparates(s1, c1, s2, c2);
    }
  }

  /** A call by one (scope, client) pair leaves every other pair's log as it was. */
  lemma PairsIndependent(logs: RateLogs, s1: string, c1: string, s2: string, c2: string, nowMs: int, config: RateLimitConfig)
    requires ':' !in s1 && ':' !in s2
    requires s1 != s2 || c1 != c2
    ensures LogOf(CheckRateLimit(logs, s1, c1, nowMs, config).logs, RateLimitKey(s2, c2)) == LogOf(logs, RateLimitKey(s2, c2))
  {
    KeysSeparate(s1, c1, s2, c2);
  }
}

=== FILE: records.dfy ===
/**
 * Scanning an upstream list with `for … of` or `Array.prototype.find`. The
 * callbacks read properties of each entry, so a `null` or `undefined` entry
 * reached before a match throws a `TypeError`.
 */
module Records {
  import opened Common
  import opened Json
  import opened Errors

  const PropertyOfNullish: string := "TypeError: Cannot read properties of null"

  /** The index of the first entry satisfying `p`, scanning from the front. */
  function FindRecord(list: seq<Json>, p: Json -> bool): (r: Result<Option<nat>>)
    ensures r == Ok(None) <==> forall k :: 0 <= k < |list| ==> !Nullish(list[k]) && !p(list[k])
    ensures r.Ok? && r.value.Some? ==> r.value.value < |list| && p(list[r.value.value])
    ensures r.Ok? && r.value.Some? ==>
              forall k :: 0 <= k <= r.value.value ==> !Nullish(list[k]) && (k < r.value.value ==> !p(list[k]))
    ensures r.Err? ==> r.failure == Other(PropertyOfNullish)
    ensures r.Err? ==>
              exists i :: 0 <= i < |list| && Nullish(list[i]) && forall k :: 0 <= k < i ==> !Nullish(list[k]) && !p(list[k])
  {
    if |list| == 0 then Ok(None)
    else if Nullish(list[0]) then Err(Other(PropertyOfNullish))
    else if p(list[0]) then Ok(Some(0))
    else
      match FindRecord(list[1..], p)
      case Ok(None) => Ok(None)
      case Ok(Some(i)) => Ok(Some(i + 1))
      case Err(f) => Err(f)
  }

  /** `i` is the first index whose entry satisfies `p`. */
  predicate FirstMatch(list: seq<Json>, p: Json -> bool, i: int) {
    0 <= i < |list| && p(list[i]) && forall k :: 0 <= k < i ==> !p(list[k])
  }

  /** In a list of records, the scan finds the first match, and finds nothing only when nothing matches. */
  lemma FindRecordFindsFirst(list: seq<Json>, p: Json -> bool)
    requires forall k :: 0 <= k < |list| ==> !Nullish(list[k])
    ensures FindRecord(list, p).Ok?
    ensures FindRecord(list, p).value.None? ==> forall k :: 0 <= k < |list| ==> !p(list[k])
    ensures forall i :: FirstMatch(list, p, i) ==> FindRecord(list, p).value == Some(i)
  {
    var r := FindRecord(list, p);
    forall i | FirstMatch(list, p, i)
      ensures r.value == Some(i)
    {
    }
  }
}

=== FILE: reported_items.dfy ===
/**
 * `excludeReportedItems` from `lib/api/reportedItems.ts`: drop every item
 * whose id, as a string, has been reported. The report storage around it is
 * not part of this model.
 */
module ReportedItems {
  import opened Json
  import opened Seqs

  /** `String(item.id)`. */
  function IdString(item: Json): string {
    ToStr(Get(item, "id"))
  }

  /** The filter's predicate: the item's id is not among the reported ones. */
  function NotReported(reported: set<string>): Json -> bool {
    x => IdString(x) !in reported
  }

  /** `excludeReportedItems`: keeps, in order, every occurrence of exactly the items whose id is not reported. */
  function ExcludeReportedItems(items: seq<Json>, reported: set<string>): (r: seq<Json>)
    ensures forall i :: 0 <= i < |r| ==> IdString(r[i]) !in reported
    ensures forall x :: multiset(r)[x] == if IdString(x) in reported then 0 else multiset(items)[x]
    ensures IsSubseq(r, items)
  {
    FilterIsSubseq(NotReported(reported), items);
    FilterCountsAll(NotReported(reported), items);
    Filter(NotReported(reported), items)
  }

  /** Nothing reported: nothing removed. */
  lemma ExcludeNothing(items: seq<Json>)
    ensures ExcludeReportedItems(items, {}) == items
  {
    FilterKeepsAll(NotReported({}), items);
  }

  /** Excluding twice with the same report set is the same as excluding once. */
  lemma ExcludeIdempotent(items: seq<Json>, reported: set<string>)
    ensures ExcludeReportedItems(ExcludeReportedItems(items, reported), reported) == ExcludeReportedItems(items, reported)
  {
    FilterIdempotent(NotReported(reported), items);
  }
}

=== FILE: reports.dfy ===
/**
 * The report endpoint (`app/api/reports/route.ts`): a visitor flags an item.
 * The request is rate limited per client first, then the item id is
 * validated, then a recent duplicate by the same client short-circuits, and
 * only then is the optional filename cleaned and the report stored. The
 * duplicate query and the generated report id are parameters.
 */
module Reports {
  import opened Common
  import opened Strings
  import opened Json
  import opened Errors
  import opened Seqs
  import opened RateLimit
  import Records

  const ReportsRateLimit: RateLimitConfig := RateLimitConfig(10, 60)
  const ItemIdMaxLength: nat := 128
  const FilenameMaxLength: nat := 255
  const DuplicateWindowSeconds: nat := 3600

  // ---------------------------------------------------------------------------
  // item id

  /** `/^[A-Za-z0-9_-]+$/`, one character at a time. */
  predicate IdChar(c: char) {
    ('A' <= c <= 'Z') || ('a' <= c <= 'z') || ('0' <= c <= '9') || c == '_' || c == '-'
  }

  /** At most 128 UTF-16 code units, all of them `[A-Za-z0-9_-]`. */
  predicate ValidId(s: string) {
    0 < |s| && Utf16Length(s) <= ItemIdMaxLength && forall i :: 0 <= i < |s| ==> IdChar(s[i])
  }

  const ItemIdRequired := "itemId is required"
  const ItemIdTooLong := "itemId exceeds maximum length of 128 characters"
  const ItemIdPattern := "itemId must be alphanumeric and may include - or _"

  /**
   * `validateItemId`: a string or number whose `String` form is a non-empty
   * run of at most 128 UTF-16 code units, all letters, digits, `_` and `-`,
   * returned as that string. The three rejections are tried in that order.
   */
  function ValidateItemId(raw: Json): (r: Result<string>)
    ensures r.Ok? <==> (raw.JStr? || raw.JNum?) && ValidId(ToStr(raw))
    ensures r.Ok? ==> r.value == ToStr(raw) && ValidId(r.value)
    ensures r.Ok? && raw.JStr? ==> r.value == raw.s
    ensures !(raw.JStr? || raw.JNum?) || ToStr(raw) == "" ==> r == Err(Api(BadRequest(ItemIdRequired, None)))
    ensures (raw.JStr? || raw.JNum?) && ToStr(raw) != "" && Utf16Length(ToStr(raw)) > ItemIdMaxLength ==>
              r == Err(Api(BadRequest(ItemIdTooLong, None)))
    ensures (raw.JStr? || raw.JNum?) && ToStr(raw) != "" && Utf16Length(ToStr(raw)) <= ItemIdMaxLength
            && (exists i :: 0 <= i < |ToStr(raw)| && !IdChar(ToStr(raw)[i])) ==>
              r == Err(Api(BadRequest(ItemIdPattern, None)))
    ensures r.Err? ==> r.failure.Api? && r.failure.api.status == 400 && r.failure.api.code == "BAD_REQUEST"
  {
    var value := if raw.JStr? || raw.JNum? then ToStr(raw) else "";
    if |value| == 0 then Err(Api(BadRequest(ItemIdRequired, None)))
    else if Utf16Length(value) > ItemIdMaxLength then
      Err(Api(BadRequest(ItemIdTooLong, None)))
    else if !(forall i :: 0 <= i < |value| ==> IdChar(value[i])) then
      Err(Api(BadRequest(ItemIdPattern, None)))
    else Ok(value)
  }

  /**
   * The length limit counts code units: 65 characters above U+FFFF are 130
   * units and get the length message, not the pattern message.
   */
  lemma AstralIdTooLong(s: string)
    requires |s| == 65 && forall i :: 0 <= i < |s| ==> (s[i] as int) > 0xFFFF
    ensures ValidateItemId(JStr(s)) == Err(Api(BadRequest(ItemIdTooLong, None)))
  {
    Utf16LengthOfAstral(s);
  }

  /** `Number.MAX_SAFE_INTEGER`, the largest integer a JSON number carries exactly. */
  const MaxSafeInteger: nat := 9007199254740991

  /** A safe integer is accepted as its decimal form, which reads back as the number. */
  lemma NumericItemId(n: nat)
    requires n <= MaxSafeInteger
    ensures ValidateItemId(JNum(n)) == Ok(IntToString(n))
    ensures ToNumber(JStr(ValidateItemId(JNum(n)).value)) == Some(n)
  {
    var s := NatToString(n);
    assert ToStr(JNum(n)) == s;
    SafeIntegerDigits(n);
    assert forall i :: 0 <= i < |s| ==> IdChar(s[i]) && (s[i] as int) <= 0xFFFF by {
      assert forall i :: 0 <= i < |s| ==> IsDigit(s[i]);
    }
    Utf16LengthOfBmp(s);
    ToNumberOfPrinted(n);
  }

  /** A safe integer has at most 16 decimal digits. */
  lemma SafeIntegerDigits(n: nat)
    requires n <= MaxSafeInteger
    ensures |NatToString(n)| <= 16
  {
    assert Pow10(1) == 10;
    assert Pow10(2) == 100;
    assert Pow10(3) == 1000;
    assert Pow10(4) == 10000;
    assert Pow10(5) == 100000;
    assert Pow10(6) == 1000000;
    assert Pow10(7) == 10000000;
    assert Pow10(8) == 100000000;
    assert Pow10(9) == 1000000000;
    assert Pow10(10) == 10000000000;
    assert Pow10(11) == 100000000000;
    assert Pow10(12) == 1000000000000;
    assert Pow10(13) == 10000000000000;
    assert Pow10(14) == 100000000000000;
    assert Pow10(15) == 1000000000000000;
    assert Pow10(16) == 10000000000000000;
    NatToStringLength(n, 16);
  }

  function Pow10(k: nat): (p: nat)
    ensures p >= 1
  {
    if k == 0 then 1 else 10 * Pow10(k - 1)
  }

  /** A number below `10^k` has at most `k` digits. */
  lemma {:induction false} NatToStringLength(n: nat, k: nat)
    requires k >= 1 && n < Pow10(k)
    ensures |NatToString(n)| <= k
  {
    if n >= 10 {
      NatToStringLength(n / 10, k - 1);
    }
  }

  // ---------------------------------------------------------------------------
  // filename

  /** The characters `/[\x00-\x1F\x7F<>]/g` removes. */
  predicate Forbidden(c: char) {
    c <= '\U{001F}' || c == '\U{007F}' || c == '<' || c == '>'
  }

  function Allowed(): char -> bool {
    c => !Forbidden(c)
  }

  predicate NotSpace(c: char) {
    !IsSpace(c)
  }

  /**
   * `.replace(/\s+/g, " ")`: every maximal run of whitespace becomes one
   * space. The other characters are kept, all of them and in order, and the
   * text starts and ends with whitespace exactly when the input does.
   */
  function CollapseSpace(s: string): (r: string)
    ensures forall i :: 0 <= i < |r| ==> (IsSpace(r[i]) ==> r[i] == ' ')
    ensures forall i :: 0 <= i < |r| ==> r[i] == ' ' || r[i] in s
    ensures forall i :: 0 <= i < |r| - 1 ==> !(IsSpace(r[i]) && IsSpace(r[i + 1]))
    ensures Filter(NotSpace, r) == Filter(NotSpace, s)
    ensures Words(r) == Words(s)
    ensures |s| > 0 ==> |r| > 0 && r[0] == (if IsSpace(s[0]) then ' ' else s[0])
                        && (IsSpace(r[|r| - 1]) <==> IsSpace(s[|s| - 1]))
    ensures |s| == 0 ==> |r| == 0
  {
    CollapseShape(s);
    CollapseSource(s);
    CollapseKeepsNonSpace(s);
    CollapseKeepsWords(s);
    CollapseRuns(s)
  }

  /** The recursion behind `CollapseSpace`: a whitespace character followed by another is dropped, a remaining one becomes a space. */
  function CollapseRuns(s: string): string {
    if |s| == 0 then ""
    else if IsSpace(s[0]) && |s| > 1 && IsSpace(s[1]) then CollapseRuns(s[1..])
    else [if IsSpace(s[0]) then ' ' else s[0]] + CollapseRuns(s[1..])
  }

  lemma {:induction false} CollapseShape(s: string)
    ensures var r := CollapseRuns(s);
            && (forall i :: 0 <= i < |r| ==> (IsSpace(r[i]) ==> r[i] == ' '))
            && (forall i :: 0 <= i < |r| - 1 ==> !(IsSpace(r[i]) && IsSpace(r[i + 1])))
            && (|s| > 0 ==> |r| > 0 && r[0] == (if IsSpace(s[0]) then ' ' else s[0])
                            && (IsSpace(r[|r| - 1]) <==> IsSpace(s[|s| - 1])))
            && (|s| == 0 ==> |r| == 0)
  {
    if |s| > 0 {
      CollapseShape(s[1..]);
      var rest := CollapseRuns(s[1..]);
      var r := CollapseRuns(s);
      assert |s| > 1 ==> s[1..][|s| - 2] == s[|s| - 1];
      if !(IsSpace(s[0]) && |s| > 1 && IsSpace(s[1])) {
        assert r == [if IsSpace(s[0]) then ' ' else s[0]] + rest;
        assert forall i :: 1 <= i < |r| ==> r[i] == rest[i - 1];
      }
    }
  }

  lemma {:induction false} CollapseSource(s: string)
    ensures forall i :: 0 <= i < |CollapseRuns(s)| ==> CollapseRuns(s)[i] == ' ' || CollapseRuns(s)[i] in s
  {
    if |s| > 0 {
      CollapseSource(s[1..]);
      var rest := CollapseRuns(s[1..]);
      var r := CollapseRuns(s);
      var skip := IsSpace(s[0]) && |s| > 1 && IsSpace(s[1]);
      assert skip ==> r == rest;
      assert !skip ==> r == [if IsSpace(s[0]) then ' ' else s[0]] + rest;
      forall i | 0 <= i < |r|
        ensures r[i] == ' ' || r[i] in s
      {
        var j := if skip then i else i - 1;
        if j >= 0 {
          assert r[i] == rest[j];
          assert rest[j] == ' ' || rest[j] in s[1..];
        } else {
          assert r[i] == ' ' || r[i] == s[0];
        }
      }
    }
  }

  lemma {:induction false} CollapseKeepsNonSpace(s: string)
    ensures Filter(NotSpace, CollapseRuns(s)) == Filter(NotSpace, s)
  {
    if |s| > 0 {
      CollapseKeepsNonSpace(s[1..]);
      var rest := CollapseRuns(s[1..]);
      var r := CollapseRuns(s);
      if !(IsSpace(s[0]) && |s| > 1 && IsSpace(s[1])) {
        assert r == [if IsSpace(s[0]) then ' ' else s[0]] + rest;
        assert r[1..] == rest;
      }
    }
  }

  lemma {:induction false} CollapseKeepsWords(s: string)
    ensures Words(CollapseRuns(s)) == Words(s)
  {
    if |s| > 0 {
      CollapseKeepsWords(s[1..]);
      CollapseShape(s[1..]);
      var rest := CollapseRuns(s[1..]);
      if IsSpace(s[0]) && |s| > 1 && IsSpace(s[1]) {
      } else if IsSpace(s[0]) {
        assert ([' '] + rest)[1..] == rest;
      } else {
        assert s == [s[0]] + s[1..];
        WordsCons(s[0], s[1..]);
        WordsCons(s[0], rest);
      }
    }
  }

  /** Text whose only whitespace is single spaces. */
  predicate Collapsed(s: string) {
    (forall i :: 0 <= i < |s| ==> (IsSpace(s[i]) ==> s[i] == ' '))
    && (forall i :: 0 <= i < |s| - 1 ==> !(IsSpace(s[i]) && IsSpace(s[i + 1])))
  }

  /** Collapsing already collapsed text changes nothing. */
  lemma CollapseOfCollapsed(s: string)
    requires Collapsed(s)
    ensures CollapseSpace(s) == s
  {
    CollapseRunsOfCollapsed(s);
  }

  lemma {:induction false} CollapseRunsOfCollapsed(s: string)
    requires Collapsed(s)
    ensures CollapseRuns(s) == s
  {
    if |s| > 0 {
      assert Collapsed(s[1..]) by {
        assert forall i :: 0 <= i < |s| - 1 ==> s[1..][i] == s[i + 1];
      }
      CollapseRunsOfCollapsed(s[1..]);
      assert [s[0]] + s[1..] == s;
    }
  }

  /**
   * The cleaning chain before the length check: the forbidden characters are
   * dropped, whitespace runs collapsed and the ends trimmed. Every allowed
   * non-space character of the input is kept, in order, and nothing else
   * but single inner spaces.
   */
  function CleanFilename(s: string): (r: string)
    ensures forall i :: 0 <= i < |r| ==> !Forbidden(r[i])
    ensures NoEdgeSpace(r) && Collapsed(r)
    ensures Filter(NotSpace, r) == Filter(NotSpace, Filter(Allowed(), s))
    ensures Words(r) == Words(Filter(Allowed(), s))
  {
    var kept := Filter(Allowed(), s);
    var collapsed := CollapseSpace(kept);
    assert forall i :: 0 <= i < |collapsed| ==> !Forbidden(collapsed[i]) by {
      forall i | 0 <= i < |collapsed|
        ensures !Forbidden(collapsed[i])
      {
        assert collapsed[i] == ' ' || collapsed[i] in kept;
      }
    }
    TrimKeepsCleanliness(collapsed);
    TrimKeepsNonSpace(collapsed);
    WordsOfTrim(collapsed);
    Trim(collapsed)
  }

  /** Trimming keeps an infix, so it keeps every property that holds character by character or pair by pair. */
  lemma TrimKeepsCleanliness(collapsed: string)
    requires forall i :: 0 <= i < |collapsed| ==> !Forbidden(collapsed[i])
    requires Collapsed(collapsed)
    ensures forall i :: 0 <= i < |Trim(collapsed)| ==> !Forbidden(Trim(collapsed)[i])
    ensures Collapsed(Trim(collapsed))
  {
    var k := TrimIsInfix(collapsed);
    InfixKeepsCleanliness(collapsed, k, Trim(collapsed));
  }

  lemma InfixKeepsCleanliness(s: string, k: nat, r: string)
    requires k + |r| <= |s| && r == s[k..k + |r|]
    requires forall i :: 0 <= i < |s| ==> !Forbidden(s[i])
    requires Collapsed(s)
    ensures forall i :: 0 <= i < |r| ==> !Forbidden(r[i])
    ensures Collapsed(r)
  {
    forall i | 0 <= i < |r|
      ensures !Forbidden(r[i]) && (IsSpace(r[i]) ==> r[i] == ' ')
    {
      assert r[i] == s[k + i];
    }
    forall i | 0 <= i < |r| - 1
      ensures !(IsSpace(r[i]) && IsSpace(r[i + 1]))
    {
      assert r[i] == s[k + i] && r[i + 1] == s[k + i + 1];
    }
  }

  /** Trimming removes whitespace only. */
  lemma TrimKeepsNonSpace(s: string)
    ensures Filter(NotSpace, Trim(s)) == Filter(NotSpace, s)
  {
    var k := TrimIsInfix(s);
    FramedNonSpace(s, k, Trim(s));
  }

  /** An infix with only whitespace around it keeps every non-space character. */
  lemma FramedNonSpace(s: string, k: nat, r: string)
    requires k + |r| <= |s| && r == s[k..k + |r|]
    requires forall i :: 0 <= i < k ==> IsSpace(s[i])
    requires forall i :: k + |r| <= i < |s| ==> IsSpace(s[i])
    ensures Filter(NotSpace, r) == Filter(NotSpace, s)
  {
    var front := s[..k];
    var back := s[k + |r|..];
    assert s == front + r + back;
    FilterKeepsNone(NotSpace, front);
    FilterKeepsNone(NotSpace, back);
    FilterAppend(NotSpace, front + r, back);
    FilterAppend(NotSpace, front, r);
  }

  /** Text that is already clean is its own cleaning. */
  lemma CleanFilenameOfClean(name: string)
    requires forall i :: 0 <= i < |name| ==> !Forbidden(name[i])
    requires NoEdgeSpace(name) && Collapsed(name)
    ensures CleanFilename(name) == name
  {
    AllowedKeepsClean(name);
    CollapseOfCollapsed(name);
    TrimIdempotent(name);
  }

  lemma AllowedKeepsClean(name: string)
    requires forall i :: 0 <= i < |name| ==> !Forbidden(name[i])
    ensures Filter(Allowed(), name) == name
  {
    assert forall i :: 0 <= i < |name| ==> Allowed()(name[i]);
    FilterKeepsAll(Allowed(), name);
  }

  /**
   * `sanitizeFilename`: `None` for a non-string or for text that cleans to
   * nothing; a cleaned name longer than 255 UTF-16 code units is a bad
   * request; any other cleaned name is the result.
   */
  function SanitizeFilename(raw: Json): (r: Result<Option<string>>)
    ensures !raw.JStr? ==> r == Ok(None)
    ensures raw.JStr? && CleanFilename(raw.s) == "" ==> r == Ok(None)
    ensures r.Err? <==> raw.JStr? && Utf16Length(CleanFilename(raw.s)) > FilenameMaxLength
    ensures r.Err? ==> r.failure == Api(BadRequest("filename exceeds maximum length of 255 characters", None))
    ensures raw.JStr? && CleanFilename(raw.s) != "" && Utf16Length(CleanFilename(raw.s)) <= FilenameMaxLength ==>
              r == Ok(Some(CleanFilename(raw.s)))
    ensures r.Ok? && r.value.Some? ==>
              var name := r.value.value;
              0 < |name| && Utf16Length(name) <= FilenameMaxLength && NoEdgeSpace(name) && Collapsed(name)
              && (forall i :: 0 <= i < |name| ==> !Forbidden(name[i]))
  {
    if !raw.JStr? then Ok(None)
    else
      var cleaned := CleanFilename(raw.s);
      if |cleaned| == 0 then Ok(None)
      else if Utf16Length(cleaned) > FilenameMaxLength then
        Err(Api(BadRequest("filename exceeds maximum length of 255 characters", None)))
      else Ok(Some(cleaned))
  }

  /** A cleaned filename passes through the cleaning again unchanged. */
  lemma SanitizeIdempotent(s: string)
    requires SanitizeFilename(JStr(s)).Ok? && SanitizeFilename(JStr(s)).value.Some?
    ensures SanitizeFilename(JStr(SanitizeFilename(JStr(s)).value.value)) == SanitizeFilename(JStr(s))
  {
    var name := SanitizeFilename(JStr(s)).value.value;
    assert name == CleanFilename(s);
    SanitizeOfClean(name);
  }

  /** A clean name within the limit is accepted as it is. */
  lemma SanitizeOfClean(name: string)
    requires 0 < |name| && Utf16Length(name) <= FilenameMaxLength && NoEdgeSpace(name) && Collapsed(name)
    requires forall i :: 0 <= i < |name| ==> !Forbidden(name[i])
    ensures SanitizeFilename(JStr(name)) == Ok(Some(name))
  {
    CleanFilenameOfClean(name);
  }

  /**
   * The limit counts UTF-16 code units: 128 characters from above U+FFFF
   * (emoji, say) make 256 units and are refused, although they are fewer
   * than 255 characters.
   */
  lemma AstralNameTooLong(s: string)
    requires |s| == 128
    requires forall i :: 0 <= i < |s| ==> (s[i] as int) > 0xFFFF
    ensures SanitizeFilename(JStr(s)).Err?
  {
    assert forall i :: 0 <= i < |s| ==> !IsSpace(s[i]) && !Forbidden(s[i]);
    CleanFilenameOfClean(s);
    Utf16LengthOfAstral(s);
  }

  // ---------------------------------------------------------------------------
  // POST

  /** The report that is stored. */
  datatype StoredReport = StoredReport(itemId: string, clientId: string, reportId: string, filename: Option<string>)

  /** The route's answers. */
  datatype ReportResponse =
    | RateLimited(retryAfter: int)
    | Duplicate
    | Created(report: StoredReport)
    | Failed(error: ErrorResponse)

  function Status(r: ReportResponse): int {
    match r
    case RateLimited(_) => 429
    case Duplicate => 200
    case Created(_) => 201
    case Failed(e) => e.status
  }

  datatype ReportOutcome = ReportOutcome(response: ReportResponse, logs: RateLogs)

  /**
   * A parsed, non-null body: validate the item id, answer a duplicate,
   * clean the filename, create the report. `isDuplicate` is what
   * `hasRecentDuplicate` resolves to or rejects with: whether a report for
   * the same item from the same client was created within the last
   * `DuplicateWindowSeconds`.
   */
  function ReportFor(client: string, json: Json, isDuplicate: (string, string) -> Result<bool>, reportId: string): (r: ReportResponse)
    ensures !r.RateLimited?
    ensures ValidateItemId(Get(json, "itemId")).Err? ==>
              r == Failed(HandleApiError(ValidateItemId(Get(json, "itemId")).failure)) && Status(r) == 400
    ensures r.Duplicate? <==> ValidateItemId(Get(json, "itemId")).Ok? && isDuplicate(ValidateItemId(Get(json, "itemId")).value, client) == Ok(true)
    ensures ValidateItemId(Get(json, "itemId")).Ok? && isDuplicate(ValidateItemId(Get(json, "itemId")).value, client).Err? ==>
              r == Failed(HandleApiError(isDuplicate(ValidateItemId(Get(json, "itemId")).value, client).failure))
    ensures r.Created? ==> ValidateItemId(Get(json, "itemId")) == Ok(r.report.itemId) && isDuplicate(r.report.itemId, client) == Ok(false)
    ensures r.Created? ==> SanitizeFilename(Get(json, "filename")) == Ok(r.report.filename)
    ensures r.Created? ==> r.report.clientId == client && r.report.reportId == reportId
  {
    match ValidateItemId(Get(json, "itemId"))
    case Err(f) => Failed(HandleApiError(f))
    case Ok(itemId) =>
      match isDuplicate(itemId, client)
      case Err(f) => Failed(HandleApiError(f))
      case Ok(duplicate) =>
        if duplicate then Duplicate
        else
          match SanitizeFilename(Get(json, "filename"))
          case Err(f) => Failed(HandleApiError(f))
          case Ok(name) => Created(StoredReport(itemId, client, reportId, name))
  }

  /** Everything after the rate limit; a body that fails to parse, or is `null`, is rendered by `handleApiError`. */
  function AcceptReport(client: string, body: Result<Json>, isDuplicate: (string, string) -> Result<bool>,
                        reportId: string): (r: ReportResponse)
    ensures !r.RateLimited?
    ensures body.Err? ==> r == Failed(HandleApiError(body.failure))
    ensures body.Ok? && Nullish(body.value) ==> r == Failed(HandleApiError(Other(Records.PropertyOfNullish)))
    ensures body.Ok? && !Nullish(body.value) ==> r == ReportFor(client, body.value, isDuplicate, reportId)
  {
    match body
    case Err(f) => Failed(HandleApiError(f))
    case Ok(json) =>
      if Nullish(json) then Failed(HandleApiError(Other(Records.PropertyOfNullish)))
      else ReportFor(client, json, isDuplicate, reportId)
  }

  /**
   * `POST /api/reports`. `limiterDown` is the failure the rate limiter's
   * store rejects with, if it does; `body` is what `request.json()` gave (or
   * threw), `isDuplicate` answers `hasRecentDuplicate` for the one-hour
   * window, `nowMs` and `laterMs` are the two clock readings, `reportId` the
   * generated id. A working limiter logs the attempt in every case.
   */
  function ReportPost(logs: RateLogs, limiterDown: Option<Failure>, forwarded: Option<string>, nowMs: int, laterMs: int,
                      body: Result<Json>, isDuplicate: (string, string) -> Result<bool>, reportId: string): (r: ReportOutcome)
    ensures limiterDown.Some? ==> r == ReportOutcome(Failed(HandleApiError(limiterDown.value)), logs)
    ensures var limited := CheckRateLimit(logs, "reports", GetClientId(forwarded), nowMs, ReportsRateLimit);
            limiterDown.None? ==>
              r.logs == limited.logs
              && (r.response.RateLimited? <==> !limited.result.success)
              && (r.response.RateLimited? ==> r.response.retryAfter == limited.result.resetAt - Seconds(laterMs))
    ensures limiterDown.None? && !r.response.RateLimited? ==>
              r.response == AcceptReport(GetClientId(forwarded), body, isDuplicate, reportId)
  {
    if limiterDown.Some? then ReportOutcome(Failed(HandleApiError(limiterDown.value)), logs)
    else
      var client := GetClientId(forwarded);
      var limited := CheckRateLimit(logs, "reports", client, nowMs, ReportsRateLimit);
      if !limited.result.success then ReportOutcome(RateLimited(limited.result.resetAt - Seconds(laterMs)), limited.logs)
      else ReportOutcome(AcceptReport(client, body, isDuplicate, reportId), limited.logs)
  }

  /** When the limiter's store or the duplicate query fails, the client gets 503 and nothing is stored. */
  lemma StoreFailuresGive503(logs: RateLogs, forwarded: Option<string>, nowMs: int, itemId: string, f: Failure,
                             isDuplicate: (string, string) -> Result<bool>, reportId: string)
    requires f.Other?
    requires ValidId(itemId) && isDuplicate(itemId, GetClientId(forwarded)) == Err(f)
    requires CheckRateLimit(logs, "reports", GetClientId(forwarded), nowMs, ReportsRateLimit).result.success
    ensures var body := Ok(JObj(map["itemId" := JStr(itemId)]));
            && Status(ReportPost(logs, Some(f), forwarded, nowMs, nowMs, body, isDuplicate, reportId).response) == 503
            && Status(ReportPost(logs, None, forwarded, nowMs, nowMs, body, isDuplicate, reportId).response) == 503
            && !ReportPost(logs, None, forwarded, nowMs, nowMs, body, isDuplicate, reportId).response.Created?
  {
    var body := JObj(map["itemId" := JStr(itemId)]);
    assert Get(body, "itemId") == JStr(itemId);
  }

  /** With a working limiter, a rejected request is answered 429 whatever its body, and is still logged. */
  lemma RateLimitComesFirst(logs: RateLogs, forwarded: Option<string>, nowMs: int, b1: Result<Json>, b2: Result<Json>,
                            isDuplicate: (string, string) -> Result<bool>, reportId: string)
    requires !CheckRateLimit(logs, "reports", GetClientId(forwarded), nowMs, ReportsRateLimit).result.success
    ensures ReportPost(logs, None, forwarded, nowMs, nowMs, b1, isDuplicate, reportId)
            == ReportPost(logs, None, forwarded, nowMs, nowMs, b2, isDuplicate, reportId)
    ensures Status(ReportPost(logs, None, forwarded, nowMs, nowMs, b1, isDuplicate, reportId).response) == 429
    ensures ReportPost(logs, None, forwarded, nowMs, nowMs, b1, isDuplicate, reportId).response == RateLimited(60)
  {
  }

  /** A duplicate is answered before the filename is looked at: even an over-long filename gets 200. */
  lemma DuplicateBeforeFilename(logs: RateLogs, forwarded: Option<string>, nowMs: int, itemId: string, filename: string,
                                isDuplicate: (string, string) -> Result<bool>, reportId: string)
    requires CheckRateLimit(logs, "reports", GetClientId(forwarded), nowMs, ReportsRateLimit).result.success
    requires ValidId(itemId) && isDuplicate(itemId, GetClientId(forwarded)) == Ok(true)
    ensures var body := JObj(map["itemId" := JStr(itemId), "filename" := JStr(filename)]);
            ReportPost(logs, None, forwarded, nowMs, nowMs, Ok(body), isDuplicate, reportId).response == Duplicate
  {
    var body := JObj(map["itemId" := JStr(itemId), "filename" := JStr(filename)]);
    assert Get(body, "itemId") == JStr(itemId);
  }
}

=== FILE: seqs.dfy ===
/**
 * `Array.prototype.filter` and the facts every order-preserving filter in the
 * server relies on: what it keeps, what it drops, that it keeps the input's
 * order, and that filtering twice changes nothing.
 */
module Seqs {

  /** `s.filter(p)`. */
  function Filter<T>(p: T -> bool, s: seq<T>): (r: seq<T>)
    ensures |r| <= |s|
    ensures forall i :: 0 <= i < |r| ==> p(r[i])
    ensures forall x :: x in r ==> x in s
  {
    if |s| == 0 then [] else (if p(s[0]) then [s[0]] else []) + Filter(p, s[1..])
  }

  /** `a` is obtained from `b` by deleting elements, keeping the rest in order. */
  predicate IsSubseq<T(==)>(a: seq<T>, b: seq<T>) {
    if |a| == 0 then true
    else if |b| == 0 then false
    else (a[0] == b[0] && IsSubseq(a[1..], b[1..])) || IsSubseq(a, b[1..])
  }

  /** The filter's output is an order-preserving subsequence of its input. */
  lemma {:induction false} FilterIsSubseq<T>(p: T -> bool, s: seq<T>)
    ensures IsSubseq(Filter(p, s), s)
  {
    if |s| > 0 {
      FilterIsSubseq(p, s[1..]);
      var r := Filter(p, s);
      if p(s[0]) {
        assert r == [s[0]] + Filter(p, s[1..]);
        assert r[1..] == Filter(p, s[1..]);
      } else {
        assert r == Filter(p, s[1..]);
        if |r| > 0 {
          assert IsSubseq(r, s[1..]);
        }
      }
    }
  }

  /**
   * The filter keeps every occurrence of every element satisfying `p` and no
   * occurrence of any other element.
   */
  lemma {:induction false} FilterCounts<T>(p: T -> bool, s: seq<T>, x: T)
    ensures multiset(Filter(p, s))[x] == if p(x) then multiset(s)[x] else 0
  {
    if |s| > 0 {
      FilterCounts(p, s[1..], x);
      assert s == [s[0]] + s[1..];
      assert multiset(s) == multiset{s[0]} + multiset(s[1..]);
      var head := if p(s[0]) then [s[0]] else [];
      assert multiset(Filter(p, s)) == multiset(head) + multiset(Filter(p, s[1..]));
    }
  }

  /** A filter that no element passes returns nothing. */
  lemma {:induction false} FilterKeepsNone<T>(p: T -> bool, s: seq<T>)
    requires forall i :: 0 <= i < |s| ==> !p(s[i])
    ensures Filter(p, s) == []
  {
    if |s| > 0 {
      FilterKeepsNone(p, s[1..]);
    }
  }

  /** A filter that every element passes returns its input unchanged. */
  lemma {:induction false} FilterKeepsAll<T>(p: T -> bool, s: seq<T>)
    requires forall i :: 0 <= i < |s| ==> p(s[i])
    ensures Filter(p, s) == s
  {
    if |s| > 0 {
      FilterKeepsAll(p, s[1..]);
      assert [s[0]] + s[1..] == s;
    }
  }

  /** Filtering twice by the same predicate is the same as filtering once. */
  lemma FilterIdempotent<T>(p: T -> bool, s: seq<T>)
    ensures Filter(p, Filter(p, s)) == Filter(p, s)
  {
    FilterKeepsAll(p, Filter(p, s));
  }

  /** `FilterCounts` for every element at once. */
  lemma FilterCountsAll<T>(p: T -> bool, s: seq<T>)
    ensures forall x :: multiset(Filter(p, s))[x] == if p(x) then multiset(s)[x] else 0
  {
    forall x
      ensures multiset(Filter(p, s))[x] == if p(x) then multiset(s)[x] else 0
    {
      FilterCounts(p, s, x);
    }
  }

  /** `s.map(f)`. */
  function Map<T, U>(f: T -> U, s: seq<T>): (r: seq<U>)
    ensures |r| == |s|
    ensures forall i :: 0 <= i < |s| ==> r[i] == f(s[i])
  {
    seq(|s|, i requires 0 <= i < |s| => f(s[i]))
  }

  lemma MapAppend<T, U>(f: T -> U, a: seq<T>, b: seq<T>)
    ensures Map(f, a + b) == Map(f, a) + Map(f, b)
  {
  }

  /** In a permutation `b` of a non-empty `a`, some position holds `a[0]`, and removing it leaves a permutation of `a[1..]`. */
  lemma RemoveHead<T>(a: seq<T>, b: seq<T>) returns (j: nat)
    requires |a| > 0 && multiset(a) == multiset(b)
    ensures j < |b| && b[j] == a[0]
    ensures b == b[..j] + [a[0]] + b[j + 1..]
    ensures multiset(b[..j] + b[j + 1..]) == multiset(a[1..])
  {
    assert a[0] in multiset(b);
    j :| 0 <= j < |b| && b[j] == a[0];
    RemoveAt(b, j);
    RemoveAt(a, 0);
    assert a[..0] + a[1..] == a[1..];
  }

  /** Removing position `j` takes one occurrence of `s[j]` out of the multiset. */
  lemma RemoveAt<T>(s: seq<T>, j: nat)
    requires j < |s|
    ensures s == s[..j] + [s[j]] + s[j + 1..]
    ensures multiset(s[..j] + s[j + 1..]) == multiset(s) - multiset{s[j]}
  {
    assert s == s[..j] + [s[j]] + s[j + 1..];
    assert multiset(s) == multiset(s[..j]) + multiset{s[j]} + multiset(s[j + 1..]);
  }

  /** Mapping commutes with rearranging: inputs that are permutations map to permutations. */
  lemma {:induction false} MapMultiset<T, U>(f: T -> U, a: seq<T>, b: seq<T>)
    requires multiset(a) == multiset(b)
    ensures multiset(Map(f, a)) == multiset(Map(f, b))
    decreases |a|
  {
    if |a| == 0 {
      assert |b| == |multiset(b)| == 0;
    } else {
      var j := RemoveHead(a, b);
      var x, lo, hi := a[0], b[..j], b[j + 1..];
      MapMultiset(f, a[1..], lo + hi);
      assert a == [x] + a[1..];
      MapAppend(f, [x], a[1..]);
      MapAppend(f, lo + [x], hi);
      MapAppend(f, lo, [x]);
      MapAppend(f, lo, hi);
      assert multiset(Map(f, b)) == multiset(Map(f, lo)) + multiset(Map(f, [x])) + multiset(Map(f, hi));
    }
  }

  lemma {:induction false} FilterAppend<T>(p: T -> bool, a: seq<T>, b: seq<T>)
    ensures Filter(p, a + b) == Filter(p, a) + Filter(p, b)
  {
    if |a| > 0 {
      FilterAppend(p, a[1..], b);
      assert (a + b)[1..] == a[1..] + b;
    } else {
      assert a + b == b;
    }
  }

  /** Filtering commutes with rearranging. */
  lemma {:induction false} FilterMultiset<T>(p: T -> bool, a: seq<T>, b: seq<T>)
    requires multiset(a) == multiset(b)
    ensures multiset(Filter(p, a)) == multiset(Filter(p, b))
    decreases |a|
  {
    if |a| == 0 {
      assert |b| == |multiset(b)| == 0;
    } else {
      var j := RemoveHead(a, b);
      var x, lo, hi := a[0], b[..j], b[j + 1..];
      FilterMultiset(p, a[1..], lo + hi);
      assert a == [x] + a[1..];
      FilterAppend(p, [x], a[1..]);
      FilterAppend(p, lo + [x], hi);
      FilterAppend(p, lo, [x]);
      FilterAppend(p, lo, hi);
      assert multiset(Filter(p, b)) == multiset(Filter(p, lo)) + multiset(Filter(p, [x])) + multiset(Filter(p, hi));
    }
  }
}

=== FILE: session_store.dfy ===
/**
 * The in-process Synology session cache (`lib/synology/sessionStore.ts`): one
 * session that lives five seconds, and a "login in progress" marker that
 * keeps concurrent requests from logging in twice. The module-level variables
 * become a `Store` value, `Date.now()` a parameter, and every exported
 * function a transition from one store to the next.
 */
module SessionStore {
  import opened Common

  /** `SESSION_TTL_MS`. */
  const SessionTtlMs: int := 5000

  /** `SynologySession`; the timestamps are not modelled. */
  datatype Session = Session(sid: string, synotoken: Option<string>)

  /** `cachedSession`, `sessionExpiresAt` and whether `loginInProgress` holds a promise. */
  datatype Store = Store(cached: Option<Session>, expiresAt: int, loginInProgress: bool)

  /** The state when the server starts. */
  const Initial: Store := Store(None, 0, false)

  datatype Read = Read(session: Option<Session>, store: Store)

  /** `getSession`: the cached session while `now < sessionExpiresAt`; otherwise the cache is emptied. */
  function GetSession(st: Store, now: int): (r: Read)
    ensures r.session.Some? <==> st.cached.Some? && now < st.expiresAt
    ensures r.session.Some? ==> r.session == st.cached && r.store == st
    ensures r.session.None? ==> r.store == st.(cached := None)
  {
    if st.cached.Some? && now < st.expiresAt then Read(st.cached, st)
    else Read(None, st.(cached := None))
  }

  /** `setSession`: stores the session until five seconds after `now`. */
  function SetSession(st: Store, s: Session, now: int): (r: Store)
    ensures r.cached == Some(s) && r.expiresAt == now + SessionTtlMs
    ensures r.loginInProgress == st.loginInProgress
  {
    st.(cached := Some(s), expiresAt := now + SessionTtlMs)
  }

  /** `clearSession`. */
  function ClearSession(st: Store): (r: Store)
    ensures r.cached.None? && r.loginInProgress == st.loginInProgress
  {
    st.(cached := None, expiresAt := 0)
  }

  /** A session stored at `t` is read back at every later `now` before `t + 5000`, and never from then on. */
  lemma SetThenGet(st: Store, s: Session, t: int, now: int)
    requires t <= now
    ensures GetSession(SetSession(st, s, t), now).session == Some(s) <==> now < t + SessionTtlMs
    ensures now >= t + SessionTtlMs ==> GetSession(SetSession(st, s, t), now).session.None?
  {
  }

  /** Once a read finds the session expired, every later read finds nothing until the next `setSession`. */
  lemma ExpiredStaysEmpty(st: Store, now: int, later: int)
    ensures var r := GetSession(st, now);
            r.session.None? ==> GetSession(r.store, later).session.None?
  {
  }

  /** After `clearSession` the next read finds nothing, whatever the clock says. */
  lemma ClearThenGet(st: Store, now: int)
    ensures GetSession(ClearSession(st), now).session.None?
  {
  }

  /** What `withLoginMutex` does on entry. */
  datatype MutexStep =
    | UseCached(session: Session)
      /** Awaits the promise of the login already running. */
    | JoinPending
      /** Calls `loginFn` and records its promise. */
    | StartLogin

  datatype Entry = Entry(step: MutexStep, store: Store)

  /**
   * `withLoginMutex` up to its first `await`: a valid session is returned,
   * else a running login is joined, else a new login starts and marks itself
   * in progress. Only `StartLogin` invokes `loginFn`.
   */
  function BeginLogin(st: Store, now: int): (r: Entry)
    ensures r.step.UseCached? <==> st.cached.Some? && now < st.expiresAt
    ensures r.step.UseCached? ==> Some(r.step.session) == st.cached && r.store == st
    ensures r.step.JoinPending? <==> !r.step.UseCached? && st.loginInProgress
    ensures r.step.JoinPending? ==> r.store == st.(cached := None)
    ensures r.step.StartLogin? ==> !st.loginInProgress && r.store == st.(cached := None, loginInProgress := true)
    ensures !r.step.UseCached? ==> r.store.loginInProgress
  {
    var read := GetSession(st, now);
    if read.session.Some? then Entry(UseCached(read.session.value), read.store)
    else if st.loginInProgress then Entry(JoinPending, read.store)
    else Entry(StartLogin, read.store.(loginInProgress := true))
  }

  /** The `.finally` of the login promise: settling, whether it fulfilled or rejected, clears the marker. */
  function SettleLogin(st: Store): (r: Store)
    ensures !r.loginInProgress
    ensures r.cached == st.cached && r.expiresAt == st.expiresAt
  {
    st.(loginInProgress := false)
  }

  /** Of two requests that find no session, only the first starts a login; the second joins it. */
  lemma SecondRequestJoins(st: Store, now: int, later: int)
    requires !st.loginInProgress
    requires st.cached.None? || now >= st.expiresAt
    ensures BeginLogin(st, now).step.StartLogin?
    ensures var second := BeginLogin(BeginLogin(st, now).store, later);
            second.step.JoinPending? && second.store == BeginLogin(st, now).store
  {
  }

  /** After a login settles, the next request without a session starts a new one. */
  lemma SettledLoginAllowsAnother(st: Store, now: int)
    requires st.cached.None?
    ensures BeginLogin(SettleLogin(st), now).step.StartLogin?
  {
  }
}

=== FILE: string_order.dfy ===
/**
 * The default ordering `Array.prototype.sort` applies to strings (lexicographic
 * by UTF-16 code unit) and a sort that realises it. A sorted arrangement of a
 * multiset of strings is unique, which is what makes a sorted join a canonical
 * key for an unordered collection.
 */
module StringOrder {

  /**
   * Where a code point's UTF-16 encoding falls in code-unit order. Below
   * U+D800 a code point is its own unit; above U+FFFF it starts with a high
   * surrogate (U+D800..U+DBFF), so it sorts after those and before the units
   * U+E000..U+FFFF, which are moved above every surrogate pair. Two code
   * points above U+FFFF compare like their values.
   */
  function CodeUnitRank(c: char): int {
    if (c as int) < 0xD800 then c as int
    else if (c as int) <= 0xFFFF then c as int + 0x11_0000
    else c as int
  }

  /** Lexicographic order on strings by UTF-16 code unit, compared character by character; a prefix comes first. */
  predicate StrLe(a: string, b: string) {
    if |a| == 0 then true
    else if |b| == 0 then false
    else CodeUnitRank(a[0]) < CodeUnitRank(b[0]) || (a[0] == b[0] && StrLe(a[1..], b[1..]))
  }

  /** A character above U+FFFF sorts before one in U+E000..U+FFFF, as its high surrogate does. */
  lemma SurrogatePairBeforeHighBmp()
    ensures StrLe("\U{1F600}", "\U{E000}") && !StrLe("\U{E000}", "\U{1F600}")
  {
  }

  lemma {:induction false} StrLeReflexive(a: string)
    ensures StrLe(a, a)
  {
    if |a| > 0 {
      StrLeReflexive(a[1..]);
    }
  }

  lemma {:induction false} StrLeTotal(a: string, b: string)
    ensures StrLe(a, b) || StrLe(b, a)
  {
    if |a| > 0 && |b| > 0 && a[0] == b[0] {
      StrLeTotal(a[1..], b[1..]);
    }
  }

  lemma {:induction false} StrLeAntisymmetric(a: string, b: string)
    requires StrLe(a, b) && StrLe(b, a)
    ensures a == b
  {
    if |a| > 0 && |b| > 0 {
      StrLeAntisymmetric(a[1..], b[1..]);
      assert a == [a[0]] + a[1..];
      assert b == [b[0]] + b[1..];
    }
  }

  lemma {:induction false} StrLeTransitive(a: string, b: string, c: string)
    requires StrLe(a, b) && StrLe(b, c)
    ensures StrLe(a, c)
  {
    if |a| > 0 && |b| > 0 && |c| > 0 && a[0] == b[0] && b[0] == c[0] {
      StrLeTransitive(a[1..], b[1..], c[1..]);
    }
  }

  predicate Sorted(s: seq<string>) {
    forall i, j :: 0 <= i < j < |s| ==> StrLe(s[i], s[j])
  }

  /** Inserts `x` into a sorted sequence, before the first element it precedes. */
  function Insert(x: string, s: seq<string>): (r: seq<string>)
    requires Sorted(s)
    ensures Sorted(r)
    ensures multiset(r) == multiset(s) + multiset{x}
  {
    if |s| == 0 then [x]
    else if StrLe(x, s[0]) then
      assert forall j :: 0 < j < |s| ==> StrLe(x, s[j]) by {
        forall j | 0 < j < |s| { StrLeTransitive(x, s[0], s[j]); }
      }
      [x] + s
    else
      var rest := Insert(x, s[1..]);
      StrLeTotal(x, s[0]);
      HeadBelowInsert(x, s, rest);
      assert s == [s[0]] + s[1..];
      [s[0]] + rest
  }

  lemma HeadBelowInsert(x: string, s: seq<string>, rest: seq<string>)
    requires |s| > 0 && Sorted(s) && StrLe(s[0], x)
    requires multiset(rest) == multiset(s[1..]) + multiset{x}
    ensures forall j :: 0 <= j < |rest| ==> StrLe(s[0], rest[j])
  {
    forall j | 0 <= j < |rest|
      ensures StrLe(s[0], rest[j])
    {
      assert rest[j] in multiset(rest);
      if rest[j] != x {
        assert rest[j] in multiset(s[1..]);
        var i :| 0 <= i < |s[1..]| && s[1..][i] == rest[j];
        assert s[i + 1] == rest[j];
      }
    }
  }

  /** `[...s].sort()` on strings. */
  function Sort(s: seq<string>): (r: seq<string>)
    ensures Sorted(r)
    ensures multiset(r) == multiset(s)
  {
    if |s| == 0 then []
    else
      assert s == [s[0]] + s[1..];
      Insert(s[0], Sort(s[1..]))
  }

  /** Two sorted sequences holding the same multiset of strings are equal. */
  lemma {:induction false} SortedUnique(a: seq<string>, b: seq<string>)
    requires Sorted(a) && Sorted(b)
    requires multiset(a) == multiset(b)
    ensures a == b
  {
    if |a| == 0 {
      assert |multiset(b)| == 0;
    } else {
      assert |b| == |multiset(b)| == |multiset(a)| == |a|;
      SortedHeadsEqual(a, b);
      TailMultiset(a);
      TailMultiset(b);
      SortedUnique(a[1..], b[1..]);
      assert a == [a[0]] + a[1..];
      assert b == [b[0]] + b[1..];
    }
  }

  lemma SortedHeadsEqual(a: seq<string>, b: seq<string>)
    requires |a| > 0 && |b| > 0
    requires Sorted(a) && Sorted(b)
    requires multiset(a) == multiset(b)
    ensures a[0] == b[0]
  {
    assert a[0] in multiset(b);
    assert b[0] in multiset(a);
    var k :| 0 <= k < |b| && b[k] == a[0];
    var m :| 0 <= m < |a| && a[m] == b[0];
    StrLeReflexive(a[0]);
    StrLeReflexive(b[0]);
    assert StrLe(a[0], b[0]) by { assert m == 0 || StrLe(a[0], a[m]); }
    assert StrLe(b[0], a[0]) by { assert k == 0 || StrLe(b[0], b[k]); }
    StrLeAntisymmetric(a[0], b[0]);
  }

  lemma TailMultiset(a: seq<string>)
    requires |a| > 0
    ensures multiset(a[1..]) == multiset(a) - multiset{a[0]}
  {
    assert a == [a[0]] + a[1..];
  }

  /** Sorting forgets the original order: permutations of one another sort to the same result. */
  lemma SortCanonical(s: seq<string>, t: seq<string>)
    requires multiset(s) == multiset(t)
    ensures Sort(s) == Sort(t)
  {
    SortedUnique(Sort(s), Sort(t));
  }
}

=== FILE: strings.dfy ===
/**
 * The JavaScript string primitives the server code relies on, over `seq<char>`:
 * whitespace and `trim`, ASCII lower-casing, prefix/suffix/substring tests,
 * `split`/`join` on one separator character, and the decimal conversions
 * behind `String(n)`, `Number(s)` and `parseInt(s, 10)`.
 */
module Strings {
  import opened Common

  /**
   * ECMAScript WhiteSpace and LineTerminator code points: the set `trim`
   * removes and `\s` matches. Tab, line feed, vertical tab, form feed and
   * carriage return are the contiguous range U+0009..U+000D.
   */
  predicate IsSpace(c: char) {
    ('\t' <= c <= '\r') || c == ' ' || ('\U{00A0}' <= c && IsWideSpace(c))
  }

  /** The whitespace code points from U+00A0 up. */
  predicate IsWideSpace(c: char) {
    || c == '\U{00A0}' || c == '\U{1680}' || ('\U{2000}' <= c <= '\U{200A}')
    || c == '\U{2028}' || c == '\U{2029}' || c == '\U{202F}' || c == '\U{205F}'
    || c == '\U{3000}' || c == '\U{FEFF}'
  }

  predicate NoEdgeSpace(s: string) {
    |s| == 0 || (!IsSpace(s[0]) && !IsSpace(s[|s| - 1]))
  }

  /** `String.prototype.trimStart`. */
  function TrimStart(s: string): (r: string)
    ensures |r| <= |s| && r == s[|s| - |r|..]
    ensures |r| == 0 || !IsSpace(r[0])
    ensures forall i :: 0 <= i < |s| - |r| ==> IsSpace(s[i])
  {
    if |s| > 0 && IsSpace(s[0]) then TrimStart(s[1..]) else s
  }

  /** `String.prototype.trimEnd`. */
  function TrimEnd(s: string): (r: string)
    ensures |r| <= |s| && r == s[..|r|]
    ensures |r| == 0 || !IsSpace(r[|r| - 1])
    ensures forall i :: |r| <= i < |s| ==> IsSpace(s[i])
  {
    if |s| > 0 && IsSpace(s[|s| - 1]) then TrimEnd(s[..|s| - 1]) else s
  }

  /** `String.prototype.trim`: whitespace removed from both ends. */
  function Trim(s: string): (r: string)
    ensures NoEdgeSpace(r)
    ensures |r| <= |s|
  {
    TrimEnd(TrimStart(s))
  }

  /** `Trim` keeps an infix of its input and removes only whitespace around it. */
  lemma TrimIsInfix(s: string) returns (k: nat)
    ensures k + |Trim(s)| <= |s| && Trim(s) == s[k..k + |Trim(s)|]
    ensures forall i :: 0 <= i < k ==> IsSpace(s[i])
    ensures forall i :: k + |Trim(s)| <= i < |s| ==> IsSpace(s[i])
  {
    var a := TrimStart(s);
    var r := TrimEnd(a);
    assert r == Trim(s);
    k := |s| - |a|;
    PrefixOfSuffix(s, k, |r|);
    SpaceAfterSuffix(s, k, |r|);
  }

  lemma PrefixOfSuffix(s: string, k: nat, n: nat)
    requires k + n <= |s|
    ensures s[k..][..n] == s[k..k + n]
  {
  }

  /** Whitespace past position `n` of the suffix `s[k..]` is whitespace past `k + n` in `s`. */
  lemma SpaceAfterSuffix(s: string, k: nat, n: nat)
    requires k + n <= |s|
    requires forall i :: n <= i < |s[k..]| ==> IsSpace(s[k..][i])
    ensures forall i :: k + n <= i < |s| ==> IsSpace(s[i])
  {
    forall i | k + n <= i < |s|
      ensures IsSpace(s[i])
    {
      assert s[i] == s[k..][i - k];
    }
  }

  /** Trimming a string whose last non-space character is at `hi - 1`, with a non-space at `lo`, keeps `s[k..hi]` for some `k <= lo`. */
  lemma TrimOfPadded(s: string, lo: nat, hi: nat) returns (k: nat)
    requires lo < hi <= |s|
    requires !IsSpace(s[lo]) && !IsSpace(s[hi - 1])
    requires forall i :: hi <= i < |s| ==> IsSpace(s[i])
    ensures k <= lo && Trim(s) == s[k..hi]
  {
    k := TrimIsInfix(s);
    PaddedInfix(s, k, Trim(s), lo, hi);
  }

  /** A whitespace-framed infix with no edge space, around `lo` and ending where the trailing whitespace starts, is `s[k..hi]`. */
  lemma PaddedInfix(s: string, k: nat, r: string, lo: nat, hi: nat)
    requires k + |r| <= |s| && r == s[k..k + |r|] && NoEdgeSpace(r)
    requires forall i :: 0 <= i < k ==> IsSpace(s[i])
    requires forall i :: k + |r| <= i < |s| ==> IsSpace(s[i])
    requires lo < hi <= |s| && !IsSpace(s[lo]) && !IsSpace(s[hi - 1])
    requires forall i :: hi <= i < |s| ==> IsSpace(s[i])
    ensures k <= lo && r == s[k..hi]
  {
    InfixEndsLikeItself(s, k, r);
    InfixBounds(s, k, |r|, lo, hi);
  }

  lemma InfixEndsLikeItself(s: string, k: nat, r: string)
    requires k + |r| <= |s| && r == s[k..k + |r|]
    requires |r| == 0 || !IsSpace(r[|r| - 1])
    ensures |r| == 0 || !IsSpace(s[k + |r| - 1])
  {
    if |r| > 0 {
      assert r[|r| - 1] == s[k + |r| - 1];
    }
  }

  /** A whitespace-framed infix ending in a non-space, around a non-space at `lo` and ending where the trailing whitespace starts, is `s[k..hi]`. */
  lemma InfixBounds(s: string, k: nat, n: nat, lo: nat, hi: nat)
    requires k + n <= |s| && lo < hi <= |s|
    requires forall i :: 0 <= i < k ==> IsSpace(s[i])
    requires forall i :: k + n <= i < |s| ==> IsSpace(s[i])
    requires n == 0 || !IsSpace(s[k + n - 1])
    requires !IsSpace(s[lo]) && !IsSpace(s[hi - 1])
    requires forall i :: hi <= i < |s| ==> IsSpace(s[i])
    ensures k <= lo && k + n == hi
  {
  }

  /** Lower-casing preserves "ends with". */
  lemma LowerSuffix(r: string, marker: string)
    requires EndsWith(r, marker)
    ensures EndsWith(Lower(r), Lower(marker))
  {
    var lr := Lower(r);
    var lm := Lower(marker);
    forall i | 0 <= i < |marker|
      ensures lr[|lr| - |marker| + i] == lm[i]
    {
      assert r[|r| - |marker| + i] == marker[i];
    }
    assert lr[|lr| - |lm|..] == lm;
  }

  lemma TrimIdempotent(s: string)
    requires NoEdgeSpace(s)
    ensures Trim(s) == s
  {
  }

  /** The length of the run of non-whitespace characters that `s` starts with. */
  function WordEnd(s: string): (n: nat)
    ensures n <= |s|
    ensures forall i :: 0 <= i < n ==> !IsSpace(s[i])
    ensures n < |s| ==> IsSpace(s[n])
  {
    if |s| == 0 || IsSpace(s[0]) then 0 else 1 + WordEnd(s[1..])
  }

  /**
   * The words of `s`, as `s.split(/\s+/).filter(w => w !== "")` gives them:
   * the maximal runs of non-whitespace characters, in order.
   */
  function Words(s: string): seq<string>
    decreases |s|
  {
    if |s| == 0 then []
    else if IsSpace(s[0]) then Words(s[1..])
    else [s[..WordEnd(s)]] + Words(s[WordEnd(s)..])
  }

  /**
   * A non-space character in front of `t` joins the first word of `t` when
   * `t` starts with one, and is a word of its own otherwise.
   */
  lemma WordsCons(c: char, t: string)
    requires !IsSpace(c)
    ensures |t| > 0 && !IsSpace(t[0]) ==> |Words(t)| > 0 && Words([c] + t) == [[c] + Words(t)[0]] + Words(t)[1..]
    ensures |t| == 0 || IsSpace(t[0]) ==> Words([c] + t) == [[c]] + Words(t)
  {
    var s := [c] + t;
    assert s[1..] == t;
    var n := WordEnd(t);
    assert WordEnd(s) == 1 + n;
    assert s[..1 + n] == [c] + t[..n];
    assert s[1 + n..] == t[n..];
  }

  /** A whitespace character at the end adds no word. */
  lemma {:induction false} WordsAppendSpace(a: string, c: char)
    requires IsSpace(c)
    ensures Words(a + [c]) == Words(a)
    decreases |a|
  {
    var s := a + [c];
    if |a| == 0 {
      assert s[1..] == [];
    } else if IsSpace(a[0]) {
      assert s[1..] == a[1..] + [c];
      WordsAppendSpace(a[1..], c);
    } else {
      var n := WordEnd(a);
      WordEndAppendSpace(a, c);
      assert s[..n] == a[..n];
      assert s[n..] == a[n..] + [c];
      WordsAppendSpace(a[n..], c);
    }
  }

  lemma {:induction false} WordEndAppendSpace(a: string, c: char)
    requires IsSpace(c)
    ensures WordEnd(a + [c]) == WordEnd(a)
    decreases |a|
  {
    if |a| > 0 && !IsSpace(a[0]) {
      assert (a + [c])[1..] == a[1..] + [c];
      WordEndAppendSpace(a[1..], c);
    }
  }

  /** Trimming keeps the words. */
  lemma WordsOfTrim(s: string)
    ensures Words(Trim(s)) == Words(s)
  {
    WordsOfTrimStart(s);
    WordsOfTrimEnd(TrimStart(s));
  }

  lemma {:induction false} WordsOfTrimStart(s: string)
    ensures Words(TrimStart(s)) == Words(s)
    decreases |s|
  {
    if |s| > 0 && IsSpace(s[0]) {
      WordsOfTrimStart(s[1..]);
    }
  }

  lemma {:induction false} WordsOfTrimEnd(s: string)
    ensures Words(TrimEnd(s)) == Words(s)
    decreases |s|
  {
    if |s| > 0 && IsSpace(s[|s| - 1]) {
      WordsOfTrimEnd(s[..|s| - 1]);
      assert s == s[..|s| - 1] + [s[|s| - 1]];
      WordsAppendSpace(s[..|s| - 1], s[|s| - 1]);
    }
  }

  /** ASCII case mapping; other code points are unchanged. */
  function LowerChar(c: char): char {
    if 'A' <= c <= 'Z' then (c as int + 32) as char else c
  }

  /** `String.prototype.toLowerCase` restricted to ASCII letters. */
  function Lower(s: string): (r: string)
    ensures |r| == |s|
    ensures forall i :: 0 <= i < |s| ==> r[i] == LowerChar(s[i])
  {
    if |s| == 0 then "" else [LowerChar(s[0])] + Lower(s[1..])
  }

  /** A word of lower-case ASCII letters is unchanged by trimming and lower-casing. */
  lemma LowercaseWordIsNormal(s: string)
    requires forall i :: 0 <= i < |s| ==> 'a' <= s[i] <= 'z'
    ensures Lower(Trim(s)) == s
  {
    if |s| > 0 {
      assert 'a' <= s[0] <= 'z' && 'a' <= s[|s| - 1] <= 'z';
    }
    TrimIdempotent(s);
    assert forall i :: 0 <= i < |s| ==> Lower(s)[i] == s[i];
  }

  /** Lower-casing twice is lower-casing once. */
  lemma LowerIdempotent(s: string)
    ensures Lower(Lower(s)) == Lower(s)
  {
    assert forall i :: 0 <= i < |s| ==> LowerChar(LowerChar(s[i])) == LowerChar(s[i]);
  }

  /** `s.length`: the number of UTF-16 code units, two for each code point above U+FFFF. */
  function Utf16Length(s: string): (n: nat)
    ensures |s| <= n <= 2 * |s|
  {
    if |s| == 0 then 0 else (if (s[0] as int) > 0xFFFF then 2 else 1) + Utf16Length(s[1..])
  }

  /** Text without code points above U+FFFF has as many code units as characters. */
  lemma {:induction false} Utf16LengthOfBmp(s: string)
    requires forall i :: 0 <= i < |s| ==> (s[i] as int) <= 0xFFFF
    ensures Utf16Length(s) == |s|
  {
    if |s| > 0 {
      Utf16LengthOfBmp(s[1..]);
    }
  }

  /** Text made only of code points above U+FFFF has two code units per character. */
  lemma {:induction false} Utf16LengthOfAstral(s: string)
    requires forall i :: 0 <= i < |s| ==> (s[i] as int) > 0xFFFF
    ensures Utf16Length(s) == 2 * |s|
  {
    if |s| > 0 {
      Utf16LengthOfAstral(s[1..]);
    }
  }

  predicate StartsWith(s: string, prefix: string) {
    |prefix| <= |s| && s[..|prefix|] == prefix
  }

  predicate EndsWith(s: string, suffix: string) {
    |suffix| <= |s| && s[|s| - |suffix|..] == suffix
  }

  /** `String.prototype.includes`. */
  predicate Contains(s: string, sub: string) {
    StartsWith(s, sub) || (|s| > 0 && Contains(s[1..], sub))
  }

  // ---------------------------------------------------------------------------
  // split / join on a single separator character

  /** `s.split(sep)` for a one-character separator: every piece, including empty ones. */
  function Split(s: string, sep: char): (parts: seq<string>)
    ensures |parts| >= 1
    ensures forall i :: 0 <= i < |parts| ==> sep !in parts[i]
  {
    if |s| == 0 then [""]
    else
      var rest := Split(s[1..], sep);
      if s[0] == sep then [""] + rest
      else [[s[0]] + rest[0]] + rest[1..]
  }

  /** `parts.join(sep)`. */
  function Join(parts: seq<string>, sep: string): string {
    if |parts| == 0 then ""
    else if |parts| == 1 then parts[0]
    else parts[0] + sep + Join(parts[1..], sep)
  }

  /** Splitting on a character and joining the pieces back with it restores the string. */
  lemma {:induction false} JoinSplit(s: string, sep: char)
    ensures Join(Split(s, sep), [sep]) == s
  {
    if |s| > 0 {
      var rest := Split(s[1..], sep);
      JoinSplit(s[1..], sep);
      if s[0] == sep {
        assert Split(s, sep) == [""] + rest;
        assert ([""] + rest)[1..] == rest;
      } else {
        var parts := Split(s, sep);
        assert parts == [[s[0]] + rest[0]] + rest[1..];
        if |rest| == 1 {
          assert Join(parts, [sep]) == [s[0]] + rest[0];
        } else {
          assert parts[1..] == rest[1..];
          assert Join(parts, [sep]) == [s[0]] + rest[0] + [sep] + Join(rest[1..], [sep]);
        }
      }
    }
  }

  /** A piece free of the separator, followed by the separator, splits off as the first piece. */
  lemma {:induction false} SplitPrefix(a: string, sep: char, rest: string)
    requires sep !in a
    ensures Split(a + [sep] + rest, sep) == [a] + Split(rest, sep)
    decreases |a|
  {
    var s := a + [sep] + rest;
    if |a| == 0 {
      assert s == [sep] + rest;
      assert s[1..] == rest;
    } else {
      assert s[1..] == a[1..] + [sep] + rest;
      SplitPrefix(a[1..], sep, rest);
      assert [a[0]] + a[1..] == a;
    }
  }

  /** Joining separator-free pieces and splitting the result gives the pieces back. */
  lemma {:induction false} SplitJoin(parts: seq<string>, sep: char)
    requires |parts| > 0
    requires forall i :: 0 <= i < |parts| ==> sep !in parts[i]
    ensures Split(Join(parts, [sep]), sep) == parts
    decreases |parts|
  {
    if |parts| == 1 {
      SplitHead(parts[0], sep, "");
    } else {
      SplitJoin(parts[1..], sep);
      SplitPrefix(parts[0], sep, Join(parts[1..], [sep]));
      assert [parts[0]] + parts[1..] == parts;
    }
  }

  /** A join of non-empty pieces starts with the first piece's first character and ends with the last piece's last one. */
  lemma {:induction false} JoinEdges(parts: seq<string>, sep: string)
    requires |parts| > 0
    requires forall i :: 0 <= i < |parts| ==> |parts[i]| > 0
    ensures var j := Join(parts, sep);
            var last := parts[|parts| - 1];
            |j| > 0 && j[0] == parts[0][0] && j[|j| - 1] == last[|last| - 1]
    decreases |parts|
  {
    if |parts| > 1 {
      JoinEdges(parts[1..], sep);
      assert parts[1..][|parts| - 2] == parts[|parts| - 1];
    }
  }

  /** The first piece of a split is everything before the first separator. */
  lemma {:induction false} SplitHead(a: string, sep: char, rest: string)
    requires sep !in a
    ensures Split(a, sep) == [a]
    ensures Split(a + [sep] + rest, sep)[0] == a
  {
    if |a| > 0 {
      SplitHead(a[1..], sep, rest);
      assert (a + [sep] + rest)[1..] == a[1..] + [sep] + rest;
      assert [a[0]] + a[1..] == a;
    } else {
      assert a + [sep] + rest == [sep] + rest;
    }
  }

  /**
   * The last piece of a split is the string's suffix after its last
   * separator, or the whole string when there is none.
   */
  lemma {:induction false} SplitLast(s: string, sep: char)
    ensures var parts := Split(s, sep);
            var last := parts[|parts| - 1];
            |last| <= |s| && s[|s| - |last|..] == last && (|last| == |s| || s[|s| - |last| - 1] == sep)
    ensures |Split(s, sep)| == 1 ==> Split(s, sep)[0] == s
  {
    if |s| > 0 {
      var tail := s[1..];
      var rest := Split(tail, sep);
      SplitLast(tail, sep);
      SplitStep(s, sep);
      if s[0] == sep || |rest| > 1 {
        var last := rest[|rest| - 1];
        SuffixOfTail(s, last);
        if |last| == |tail| && s[0] != sep {
          assert last == tail;
          SplitHead(tail, sep, "");
          assert false;
        }
      }
    }
  }

  /** One step of `Split`: the first character either ends the first piece or joins it. */
  lemma SplitStep(s: string, sep: char)
    requires |s| > 0
    ensures var rest := Split(s[1..], sep);
            var parts := Split(s, sep);
            && (s[0] == sep || |rest| > 1 ==> |parts| > 1 && parts[|parts| - 1] == rest[|rest| - 1])
            && (s[0] != sep && |rest| == 1 ==> parts == [[s[0]] + rest[0]])
  {
  }

  /** A suffix of `s[1..]` is a suffix of `s`, and the character before it is the same. */
  lemma SuffixOfTail(s: string, last: string)
    requires |s| > 0 && |last| <= |s| - 1 && s[1..][|s| - 1 - |last|..] == last
    ensures s[|s| - |last|..] == last
    ensures |last| < |s| - 1 ==> s[|s| - |last| - 1] == s[1..][|s| - 1 - |last| - 1]
  {
  }

  // ---------------------------------------------------------------------------
  // decimal numerals

  predicate IsDigit(c: char) { '0' <= c <= '9' }

  predicate AllDigits(s: string) { forall i :: 0 <= i < |s| ==> IsDigit(s[i]) }

  function DigitValue(c: char): nat
    requires IsDigit(c)
  {
    c as int - '0' as int
  }

  function DigitChar(d: nat): (c: char)
    requires d < 10
    ensures IsDigit(c) && DigitValue(c) == d
  {
    ('0' as int + d) as char
  }

  /** The value of a string of decimal digits, most significant first. */
  function ParseDigits(s: string): nat
    requires AllDigits(s)
  {
    if |s| == 0 then 0 else 10 * ParseDigits(s[..|s| - 1]) + DigitValue(s[|s| - 1])
  }

  /** The shortest decimal numeral of `n`, as `String(n)` prints a non-negative integer. */
  function NatToString(n: nat): (s: string)
    ensures |s| >= 1 && AllDigits(s)
  {
    if n < 10 then [DigitChar(n)] else NatToString(n / 10) + [DigitChar(n % 10)]
  }

  /** `String(n)` for an integer `n`. */
  function IntToString(n: int): string {
    if n < 0 then "-" + NatToString(-n) else NatToString(n)
  }

  lemma {:induction false} ParseNatToString(n: nat)
    ensures ParseDigits(NatToString(n)) == n
  {
    if n >= 10 {
      var s := NatToString(n);
      ParseNatToString(n / 10);
      assert s[..|s| - 1] == NatToString(n / 10);
    }
  }

  /** A signed decimal integer literal: optional `+`/`-`, then one or more digits. */
  function ParseSignedDigits(s: string): Option<int> {
    if |s| > 0 && (s[0] == '+' || s[0] == '-') then
      if |s| > 1 && AllDigits(s[1..]) then
        var v: int := ParseDigits(s[1..]);
        Some(if s[0] == '-' then -v else v)
      else None
    else if |s| > 0 && AllDigits(s) then Some(ParseDigits(s))
    else None
  }

  /**
   * `Number(s)` when it is finite: surrounding whitespace is ignored, the empty
   * string is 0, and otherwise the text must be a signed decimal integer.
   */
  function ParseNumber(s: string): Option<int> {
    var t := Trim(s);
    if |t| == 0 then Some(0) else ParseSignedDigits(t)
  }

  /** A lone digit reads as its value. */
  lemma SingleDigitNumber(c: char)
    requires IsDigit(c)
    ensures ParseNumber([c]) == Some(DigitValue(c) as int)
  {
    var s := [c];
    assert !IsSpace(c);
    TrimIdempotent(s);
    assert s[..0] == [];
    assert ParseDigits(s) == DigitValue(c);
  }

  /** Every integer's printed form reads back as that integer. */
  lemma NumberOfIntToString(n: int)
    ensures ParseNumber(IntToString(n)) == Some(n)
  {
    var s := IntToString(n);
    var m: nat := if n < 0 then -n else n;
    var digits := NatToString(m);
    assert !IsSpace(s[0]) by { assert s[0] == '-' || IsDigit(s[0]); }
    assert !IsSpace(s[|s| - 1]) by { assert s[|s| - 1] == digits[|digits| - 1]; }
    TrimIdempotent(s);
    ParseNatToString(m);
    if n < 0 {
      assert s[1..] == digits;
    }
  }

  /** The longest prefix of `s` made of decimal digits. */
  function DigitPrefix(s: string): (p: string)
    ensures AllDigits(p) && StartsWith(s, p)
    ensures |p| == |s| || !IsDigit(s[|p|])
  {
    if |s| > 0 && IsDigit(s[0]) then [s[0]] + DigitPrefix(s[1..]) else ""
  }

  /**
   * `parseInt(s, 10)` when it is not `NaN`: leading whitespace is skipped, an
   * optional sign is read, then the longest run of digits; trailing text is ignored.
   */
  function ParseIntPrefix(s: string): Option<int>
  {
    var t := TrimStart(s);
    if |t| > 0 && (t[0] == '+' || t[0] == '-') then
      var d := DigitPrefix(t[1..]);
      var v: int := ParseDigits(d);
      if |d| == 0 then None else Some(if t[0] == '-' then -v else v)
    else
      var d := DigitPrefix(t);
      if |d| == 0 then None else Some(ParseDigits(d))
  }

  /** `parseInt` reads back a printed integer and ignores whatever non-digit text follows it. */
  lemma ParseIntOfPrinted(n: int, rest: string)
    requires |rest| == 0 || !IsDigit(rest[0])
    ensures ParseIntPrefix(IntToString(n) + rest) == Some(n)
  {
    if n < 0 {
      PrintedNegativeInt(n, rest);
    } else {
      PrintedNaturalInt(n, rest);
    }
  }

  lemma PrintedNegativeInt(n: int, rest: string)
    requires n < 0
    requires |rest| == 0 || !IsDigit(rest[0])
    ensures ParseIntPrefix(IntToString(n) + rest) == Some(n)
  {
    PrintedNegative(n, rest);
    NegativePrinted(n, Some(n), rest);
  }

  lemma PrintedNaturalInt(n: int, rest: string)
    requires n >= 0
    requires |rest| == 0 || !IsDigit(rest[0])
    ensures ParseIntPrefix(IntToString(n) + rest) == Some(n)
  {
    assert IntToString(n) == NatToString(n);
    PrintedNatural(n, rest);
  }

  /** A negative number prints as a minus sign before its magnitude. */
  lemma NegativePrinted(n: int, v: Option<int>, rest: string)
    requires n < 0
    requires ParseIntPrefix(['-'] + (NatToString(-n) + rest)) == v
    ensures ParseIntPrefix(IntToString(n) + rest) == v
  {
    NegativeForm(n, rest);
  }

  lemma NegativeForm(n: int, rest: string)
    requires n < 0
    ensures IntToString(n) + rest == ['-'] + (NatToString(-n) + rest)
  {
  }

  lemma PrintedNatural(m: nat, rest: string)
    requires |rest| == 0 || !IsDigit(rest[0])
    ensures ParseIntPrefix(NatToString(m) + rest) == Some(m as int)
  {
    ParseNatToString(m);
    UnsignedNumeral(NatToString(m), rest, m);
  }

  lemma PrintedNegative(n: int, rest: string)
    requires n < 0
    requires |rest| == 0 || !IsDigit(rest[0])
    ensures ParseIntPrefix(['-'] + (NatToString(-n) + rest)) == Some(n)
  {
    SignedNumeral(NatToString(-n), rest);
    NegatedMagnitude(n);
  }

  lemma NegatedMagnitude(n: int)
    requires n < 0
    ensures -(ParseDigits(NatToString(-n)) as int) == n
  {
    ParseNatToString(-n);
  }

  /** A run of digits worth `m` is read up to the first non-digit. */
  lemma UnsignedNumeral(digits: string, rest: string, m: nat)
    requires |digits| > 0 && AllDigits(digits) && ParseDigits(digits) == m
    requires |rest| == 0 || !IsDigit(rest[0])
    ensures ParseIntPrefix(digits + rest) == Some(m as int)
  {
    DigitPrefixOf(digits, rest);
    var s := digits + rest;
    assert s[0] == digits[0];
    NumeralNotTrimmed(s);
    ParseIntUnsigned(s, digits);
  }

  /** A minus sign followed by a run of digits is read as the negated run. */
  lemma SignedNumeral(digits: string, rest: string)
    requires |digits| > 0 && AllDigits(digits)
    requires |rest| == 0 || !IsDigit(rest[0])
    ensures ParseIntPrefix(['-'] + (digits + rest)) == Some(-(ParseDigits(digits) as int))
  {
    DigitPrefixOf(digits, rest);
    var s := digits + rest;
    var t := ['-'] + s;
    assert t[1..] == s;
    NumeralNotTrimmed(t);
    ParseIntNegative(t, digits);
  }

  lemma ParseIntUnsigned(s: string, d: string)
    requires TrimStart(s) == s && |s| > 0 && IsDigit(s[0])
    requires DigitPrefix(s) == d
    ensures ParseIntPrefix(s) == Some(ParseDigits(d))
  {
  }

  lemma ParseIntNegative(s: string, d: string)
    requires TrimStart(s) == s && |s| > 1 && s[0] == '-'
    requires DigitPrefix(s[1..]) == d && |d| > 0
    ensures ParseIntPrefix(s) == Some(-(ParseDigits(d) as int))
  {
  }

  /** A numeral starts with a sign or a digit, so `trimStart` leaves it alone. */
  lemma NumeralNotTrimmed(s: string)
    requires |s| > 0 && (s[0] == '-' || IsDigit(s[0]))
    ensures TrimStart(s) == s
  {
    NumeralCharNotSpace(s[0]);
    NotSpaceNotTrimmed(s);
  }

  lemma NumeralCharNotSpace(c: char)
    requires c == '-' || IsDigit(c)
    ensures !IsSpace(c)
  {
  }

  lemma NotSpaceNotTrimmed(s: string)
    requires |s| > 0 && !IsSpace(s[0])
    ensures TrimStart(s) == s
  {
  }

  lemma {:induction false} DigitPrefixOf(digits: string, rest: string)
    requires AllDigits(digits)
    requires |rest| == 0 || !IsDigit(rest[0])
    ensures DigitPrefix(digits + rest) == digits
  {
    if |digits| > 0 {
      assert (digits + rest)[1..] == digits[1..] + rest;
      DigitPrefixOf(digits[1..], rest);
    } else {
      assert digits + rest == rest;
    }
  }
}

=== FILE: synology_client.dfy ===
/**
 * The upstream call pipeline (`lib/synology/client.ts`, with the login of
 * `lib/synology/auth.ts` as an abstract reply): session acquisition through
 * the login mutex, the retry loop of `synoCallJson` with capped exponential
 * backoff on transient codes, the session-clearing rule for authentication
 * failures, the classification of raw responses in `synoCallRaw`, and the
 * request headers. Every upstream answer, the clock and the environment are
 * parameters; the URL itself is not modelled.
 */
module SynologyClient {
  import opened Common
  import opened Strings
  import opened Json
  import opened Errors
  import opened SessionStore
  import Records

  // ---------------------------------------------------------------------------
  // error codes and backoff

  /** `isTransientNetworkError`: the upstream codes worth retrying. */
  predicate IsTransientNetworkError(code: int) {
    code == 109 || code == 110 || code == 111 || code == 117 || code == 118
  }

  /** The upstream codes that mean the session is no longer valid. */
  predicate IsAuthCode(code: Option<int>) {
    code == Some(103) || code == Some(106) || code == Some(119) || code == Some(150)
  }

  /** The clearing condition of `synoCallJson`: HTTP 401 or 403, or an authentication code. */
  predicate IsAuthFailure(status: int, code: Option<int>) {
    status == 401 || status == 403 || IsAuthCode(code)
  }

  function Pow2(n: nat): (p: nat)
    ensures p >= 1
  {
    if n == 0 then 1 else 2 * Pow2(n - 1)
  }

  lemma {:induction false} Pow2Monotone(a: nat, b: nat)
    requires a <= b
    ensures Pow2(a) <= Pow2(b)
    decreases b
  {
    if a < b {
      Pow2Monotone(a, b - 1);
    }
  }

  /** `Math.min(1500, 150 * 2 ** (attempt - 1))`: the wait before retry number `attempt`. */
  function Backoff(attempt: nat): (d: int)
    requires attempt >= 1
    ensures 150 <= d <= 1500
    ensures attempt >= 5 ==> d == 1500
  {
    if attempt >= 5 then
      Pow2Monotone(4, attempt - 1);
      1500
    else
      Pow2Monotone(attempt - 1, 3);
      if 150 * Pow2(attempt - 1) < 1500 then 150 * Pow2(attempt - 1) else 1500
  }

  /** The waits start at 150 ms and double until the 1500 ms cap, which they never exceed. */
  lemma BackoffSchedule()
    ensures Backoff(1) == 150 && Backoff(2) == 300 && Backoff(3) == 600 && Backoff(4) == 1200
  {
    assert Pow2(1) == 2 && Pow2(2) == 4 && Pow2(3) == 8;
  }

  /** Later retries never wait less. */
  lemma BackoffMonotone(a: nat, b: nat)
    requires 1 <= a <= b
    ensures Backoff(a) <= Backoff(b)
  {
    if b < 5 {
      Pow2Monotone(a - 1, b - 1);
    }
  }

  // ---------------------------------------------------------------------------
  // headers and parameters

  /** Request headers, keyed by lower-cased name as `Headers` normalises them. */
  type Headers = map<string, string>

  /** `if (s)` on an optional string: present and non-empty. */
  predicate Present(s: Option<string>) {
    s.Some? && |s.value| > 0
  }

  /** The cookie parts in order: the caller's cookie, the session id, the token; each only when non-empty. */
  function CookieParts(session: Session, existing: Option<string>): (parts: seq<string>)
    ensures |parts| <= 3
    ensures forall i :: 0 <= i < |parts| ==> |parts[i]| > 0
  {
    (if Present(existing) then [existing.value] else [])
    + (if |session.sid| > 0 then ["id=" + session.sid] else [])
    + (if Present(session.synotoken) then ["synotoken=" + session.synotoken.value] else [])
  }

  function Lookup(h: Headers, name: string): Option<string> {
    if name in h then Some(h[name]) else None
  }

  /**
   * `buildAuthHeaders`: the token header exactly when the session has a
   * token, and a cookie joining the parts with "; ", the cookie-string form
   * of section 4.2.1 of RFC 6265. Other headers pass through.
   */
  function BuildAuthHeaders(session: Session, extra: Headers): (h: Headers)
    ensures Present(session.synotoken) ==> "x-syno-token" in h && h["x-syno-token"] == session.synotoken.value
    ensures !Present(session.synotoken) ==> Lookup(h, "x-syno-token") == Lookup(extra, "x-syno-token")
    ensures var parts := CookieParts(session, Lookup(extra, "cookie"));
            |parts| > 0 ==> "cookie" in h && h["cookie"] == Join(parts, "; ")
    ensures var parts := CookieParts(session, Lookup(extra, "cookie"));
            |parts| == 0 ==> Lookup(h, "cookie") == Lookup(extra, "cookie")
    ensures forall k :: k != "cookie" && k != "x-syno-token" ==> Lookup(h, k) == Lookup(extra, k)
  {
    var withToken := if Present(session.synotoken) then extra["x-syno-token" := session.synotoken.value] else extra;
    var parts := CookieParts(session, Lookup(extra, "cookie"));
    if |parts| > 0 then withToken["cookie" := Join(parts, "; ")] else withToken
  }

  /** With no cookie of the caller's, the cookie is `id=<sid>; synotoken=<token>`. */
  lemma SessionCookie(sid: string, token: string)
    requires |sid| > 0 && |token| > 0
    ensures BuildAuthHeaders(Session(sid, Some(token)), map[])["cookie"] == "id=" + sid + "; synotoken=" + token
    ensures BuildAuthHeaders(Session(sid, None), map[])["cookie"] == "id=" + sid
    ensures "x-syno-token" !in BuildAuthHeaders(Session(sid, None), map[])
  {
    var parts := CookieParts(Session(sid, Some(token)), None);
    assert parts == ["id=" + sid, "synotoken=" + token];
    assert Join(parts, "; ") == "id=" + sid + "; synotoken=" + token;
    var single := CookieParts(Session(sid, None), None);
    assert single == ["id=" + sid];
  }

  /**
   * `encodeParamValue`: strings as they are, numbers and booleans through
   * `String`, anything else through `JSON.stringify` (the `stringify` parameter).
   */
  function EncodeParamValue(v: Json, stringify: Json -> string): (r: string)
    ensures v.JStr? ==> r == v.s
    ensures v.JNum? ==> ToNumber(JStr(r)) == Some(v.n)
    ensures v.JBool? ==> r == (if v.b then "true" else "false")
    ensures !(v.JStr? || v.JNum? || v.JBool?) ==> r == stringify(v)
  {
    match v
    case JStr(s) => s
    case JNum(n) =>
      ToNumberOfPrinted(n);
      ToStr(v)
    case JBool(_) => ToStr(v)
    case _ => stringify(v)
  }

  // ---------------------------------------------------------------------------
  // login and session acquisition

  /** What `login` sees: a thrown error (missing credentials, network), or the parsed reply. */
  datatype LoginReply =
    | LoginThrew(failure: Failure)
    | LoginAnswer(success: bool, code: Option<int>, sid: Option<string>, synotoken: Option<string>)

  datatype Acquired = Acquired(result: Result<Session>, store: Store)

  /** `login`: a session with a non-empty id is stored for five seconds; anything else throws. */
  function Login(reply: LoginReply, st: Store, now: int): (r: Acquired)
    ensures r.result.Ok? <==> reply.LoginAnswer? && reply.success && Present(reply.sid)
    ensures r.result.Ok? ==> r.result.value == Session(reply.sid.value, reply.synotoken)
                             && r.store == SetSession(st, r.result.value, now)
    ensures r.result.Err? ==> r.store == st
    ensures reply.LoginAnswer? && !reply.success ==> r.result == Err(Synology("Synology login failed", reply.code))
    ensures reply.LoginAnswer? && reply.success && !Present(reply.sid) ==>
              r.result == Err(Synology("Synology login response missing sid", None))
  {
    match reply
    case LoginThrew(f) => Acquired(Err(f), st)
    case LoginAnswer(success, code, sid, token) =>
      if !success then Acquired(Err(Synology("Synology login failed", code)), st)
      else if !Present(sid) then Acquired(Err(Synology("Synology login response missing sid", None)), st)
      else
        var s := Session(sid.value, token);
        Acquired(Ok(s), SetSession(st, s, now))
  }

  /**
   * `getOrCreateSession`: `withLoginMutex` around a login. A valid cached
   * session is used as is; a login already running is joined and its outcome
   * (`pending`) shared; otherwise this request logs in and settles the mutex.
   * The second cache check inside the login function runs at the same instant
   * as the first and always misses, so it is folded into the first. `now` is
   * the clock at the cache check, `doneAt` the clock `login` reads once the
   * reply is in; the new session's five seconds run from `doneAt`.
   */
  function GetOrCreateSession(st: Store, now: int, doneAt: int, login: LoginReply, pending: Result<Session>): (r: Acquired)
    ensures st.cached.Some? && now < st.expiresAt ==> r == Acquired(Ok(st.cached.value), st)
    ensures !(st.cached.Some? && now < st.expiresAt) && st.loginInProgress ==>
              r.result == pending && r.store == st.(cached := None)
    ensures !(st.cached.Some? && now < st.expiresAt) && !st.loginInProgress ==>
              r.result == Login(login, st.(cached := None), doneAt).result
              && !r.store.loginInProgress
    ensures r.result.Ok? && !st.loginInProgress && !(st.cached.Some? && now < st.expiresAt) ==>
              r.store.cached == Some(r.result.value) && r.store.expiresAt == doneAt + SessionTtlMs
  {
    var entry := BeginLogin(st, now);
    match entry.step
    case UseCached(s) => Acquired(Ok(s), entry.store)
    case JoinPending => Acquired(pending, entry.store)
    case StartLogin =>
      var done := Login(login, entry.store, doneAt);
      Acquired(done.result, SettleLogin(done.store))
  }

  // ---------------------------------------------------------------------------
  // synoCallJson

  /**
   * The body of an upstream reply: not JSON, the JSON `null`, another falsy
   * JSON value (`false`, `0` or `""`), or anything else read as the
   * `SynologyResponse` envelope (a value without `success` reads as a failure
   * without a code).
   */
  datatype Body = Unparsable | NullBody | FalsyBody | Envelope(success: bool, data: Json, code: Option<int>)

  datatype Reply = Reply(status: int, body: Body)

  /** `res.status || undefined`. */
  function StatusCode(status: int): Option<int> {
    if status == 0 then None else Some(status)
  }

  predicate Succeeded(reply: Reply) {
    reply.body.Envelope? && reply.body.success
  }

  /** A failed envelope whose code is one of the transient ones. */
  predicate TransientFailure(reply: Reply) {
    reply.body.Envelope? && !reply.body.success && reply.body.code.Some?
    && IsTransientNetworkError(reply.body.code.value)
  }

  /** A failed envelope that clears the session. */
  predicate AuthFailureReply(reply: Reply) {
    reply.body.Envelope? && !reply.body.success && IsAuthFailure(reply.status, reply.body.code)
  }

  /** What one reply makes `synoCallJson` do. */
  datatype Verdict = Return(data: Json) | Retry(delay: int) | Throw(failure: Failure, clearSession: bool)

  /**
   * One pass of the loop's decision, after `networkAttempts` retries of at
   * most `retries`: return the data, wait and retry a transient failure, or
   * throw, clearing the session first on an authentication failure.
   */
  function Classify(reply: Reply, networkAttempts: nat, retries: nat, call: string): (v: Verdict)
    ensures v.Return? <==> Succeeded(reply)
    ensures v.Return? ==> v.data == reply.body.data
    ensures v.Retry? <==> TransientFailure(reply) && networkAttempts < retries
    ensures v.Retry? ==> v.delay == Backoff(networkAttempts + 1)
    ensures v.Throw? && reply.body.Envelope? ==>
              v.failure == Synology("Synology API failed: " + call, Some(reply.body.code.GetOr(reply.status)))
              && (v.clearSession <==> IsAuthFailure(reply.status, reply.body.code))
    ensures reply.body.Unparsable? ==>
              v == Throw(Synology("Synology API returned invalid response: " + call, StatusCode(reply.status)), false)
    ensures reply.body.NullBody? || reply.body.FalsyBody? ==>
              v == Throw(Synology("Synology API returned empty response: " + call, StatusCode(reply.status)), false)
  {
    match reply.body
    case Unparsable => Throw(Synology("Synology API returned invalid response: " + call, StatusCode(reply.status)), false)
    case NullBody | FalsyBody => Throw(Synology("Synology API returned empty response: " + call, StatusCode(reply.status)), false)
    case Envelope(success, data, code) =>
      if success then Return(data)
      else if code.Some? && IsTransientNetworkError(code.value) && networkAttempts < retries then
        Retry(Backoff(networkAttempts + 1))
      else
        Throw(Synology("Synology API failed: " + call, Some(code.GetOr(reply.status))), IsAuthFailure(reply.status, code))
  }

  /**
   * Everything `synoCallJson` observes, indexed by pass through its loop:
   * the clock when it acquires a session, the clock when a login it started
   * completes, the login reply should it log in,
   * the shared outcome should it join another request's login, and the
   * upstream reply. `base` is `SYNOLOGY_PHOTO_BASE_URL`.
   */
  datatype Upstream = Upstream(base: Option<string>, clock: nat -> int, loginDone: nat -> int, logins: nat -> LoginReply,
                               pending: Result<Session>, replies: nat -> Reply)

  /** `synoWebApiBase`'s guard. */
  const MissingBase: Failure := Other("Missing env SYNOLOGY_PHOTO_BASE_URL")

  /** The outcome of a call, the session store afterwards, how many retries it made and how many requests it sent. */
  datatype CallTrace = CallTrace(result: Result<Json>, store: Store, retried: nat, requests: nat)

  /** The waits the loop made, in order. */
  function Delays(retried: nat): (d: seq<int>)
    ensures |d| == retried && forall i :: 0 <= i < retried ==> d[i] == Backoff(i + 1)
  {
    seq(retried, i requires 0 <= i < retried => Backoff(i + 1))
  }

  /** The loop of `synoCallJson` from pass `attempts` on. */
  function CallLoop(attempts: nat, retries: nat, st: Store, up: Upstream, call: string): (r: CallTrace)
    requires attempts <= retries
    ensures attempts <= r.retried <= retries
    ensures r.requests == r.retried || r.requests == r.retried + 1
    ensures forall i :: attempts <= i < r.retried ==> TransientFailure(up.replies(i))
    ensures r.result.Ok? ==> r.requests == r.retried + 1 && Succeeded(up.replies(r.retried))
                             && r.result.value == up.replies(r.retried).body.data
    ensures r.requests == r.retried + 1 && r.result.Err? ==>
              !Succeeded(up.replies(r.retried))
              && (TransientFailure(up.replies(r.retried)) ==> r.retried == retries)
    ensures r.requests == r.retried + 1 && r.result.Err? && AuthFailureReply(up.replies(r.retried)) ==> r.store.cached.None?
    decreases retries - attempts
  {
    var acquired := GetOrCreateSession(st, up.clock(attempts), up.loginDone(attempts), up.logins(attempts), up.pending);
    if acquired.result.Err? then CallTrace(Err(acquired.result.failure), acquired.store, attempts, attempts)
    else if !Present(up.base) then CallTrace(Err(MissingBase), acquired.store, attempts, attempts)
    else
      var reply := up.replies(attempts);
      match Classify(reply, attempts, retries, call)
      case Return(data) => CallTrace(Ok(data), acquired.store, attempts, attempts + 1)
      case Retry(_) => CallLoop(attempts + 1, retries, acquired.store, up, call)
      case Throw(f, clear) =>
        CallTrace(Err(f), if clear then ClearSession(acquired.store) else acquired.store, attempts, attempts + 1)
  }

  /** `synoCallJson`, with `networkRetries` defaulting to 3. `call` is `api.method`, used in messages. */
  function SynoCallJson(networkRetries: Option<nat>, st: Store, up: Upstream, call: string): (r: CallTrace)
    ensures r.requests <= networkRetries.GetOr(3) + 1
    ensures r.retried <= networkRetries.GetOr(3)
    ensures forall i :: 0 <= i < r.retried ==> TransientFailure(up.replies(i))
    ensures r.result.Ok? ==> r.requests == r.retried + 1 && Succeeded(up.replies(r.retried))
                             && r.result.value == up.replies(r.retried).body.data
  {
    CallLoop(0, networkRetries.GetOr(3), st, up, call)
  }

  /** Logins, joined logins and the base URL all succeed, so every pass reaches the upstream. */
  ghost predicate SessionsAvailable(up: Upstream) {
    Present(up.base) && up.pending.Ok?
    && forall k :: up.logins(k).LoginAnswer? && up.logins(k).success && Present(up.logins(k).sid)
  }

  /**
   * When the upstream answers nothing but transient failures, the call sends
   * exactly `retries + 1` requests and then throws the last failure's code.
   */
  lemma {:induction false} TransientFailuresExhaustRetries(attempts: nat, retries: nat, st: Store, up: Upstream, call: string)
    requires attempts <= retries
    requires SessionsAvailable(up)
    requires forall k :: TransientFailure(up.replies(k))
    ensures var r := CallLoop(attempts, retries, st, up, call);
            r.retried == retries && r.requests == retries + 1
            && r.result == Err(Synology("Synology API failed: " + call, up.replies(retries).body.code))
    decreases retries - attempts
  {
    var acquired := GetOrCreateSession(st, up.clock(attempts), up.loginDone(attempts), up.logins(attempts), up.pending);
    assert acquired.result.Ok? by {
      assert up.logins(attempts).LoginAnswer? && up.logins(attempts).success && Present(up.logins(attempts).sid);
    }
    if attempts < retries {
      TransientFailuresExhaustRetries(attempts + 1, retries, acquired.store, up, call);
    }
  }

  /** A success on the first request is returned at once: one request, no retry, no wait. */
  lemma SuccessIsNotRetried(networkRetries: Option<nat>, st: Store, up: Upstream, call: string)
    requires SessionsAvailable(up)
    requires Succeeded(up.replies(0))
    ensures var r := SynoCallJson(networkRetries, st, up, call);
            r.result == Ok(up.replies(0).body.data) && r.requests == 1 && r.retried == 0
  {
    var acquired := GetOrCreateSession(st, up.clock(0), up.loginDone(0), up.logins(0), up.pending);
    assert acquired.result.Ok? by {
      assert up.logins(0).LoginAnswer? && up.logins(0).success && Present(up.logins(0).sid);
    }
  }

  /** An authentication failure is thrown at once, not retried, and empties the session cache. */
  lemma AuthFailureClearsAndThrows(networkRetries: Option<nat>, st: Store, up: Upstream, call: string)
    requires SessionsAvailable(up)
    requires AuthFailureReply(up.replies(0))
    requires up.replies(0).body.code.Some? ==> !IsTransientNetworkError(up.replies(0).body.code.value)
    ensures var r := SynoCallJson(networkRetries, st, up, call);
            r.requests == 1 && r.store.cached.None?
            && r.result == Err(Synology("Synology API failed: " + call, Some(up.replies(0).body.code.GetOr(up.replies(0).status))))
  {
    var acquired := GetOrCreateSession(st, up.clock(0), up.loginDone(0), up.logins(0), up.pending);
    assert acquired.result.Ok? by {
      assert up.logins(0).LoginAnswer? && up.logins(0).success && Present(up.logins(0).sid);
    }
  }

  // ---------------------------------------------------------------------------
  // synoCallRaw

  /** A raw upstream response: status, `content-type` header and body. */
  datatype RawReply = RawReply(status: int, contentType: Option<string>, body: Body)

  /** What `synoCallRaw` hands back: the response untouched, or a JSON response rebuilt from a success envelope. */
  datatype RawResponse = Untouched(reply: RawReply) | JsonSuccess(data: Json)

  datatype RawTrace = RawTrace(result: Result<RawResponse>, store: Store, requested: bool)

  /** `res.json()` on a body that is not JSON throws a `SyntaxError`. */
  const InvalidJson: Failure := Other("SyntaxError")

  /** `contentType.includes("application/json")`, with a missing header read as "". */
  predicate IsJsonContent(contentType: Option<string>) {
    contentType.Some? && Contains(contentType.value, "application/json")
  }

  /**
   * The response classification of `synoCallRaw`: 401 and 403 clear the
   * session and throw; a JSON body with `success: false` throws its code,
   * clearing the session on authentication codes; a JSON success is rebuilt;
   * anything else is returned untouched.
   */
  function ClassifyRaw(reply: RawReply, st: Store, call: string): (r: RawTrace)
    ensures r.requested
    ensures reply.status == 401 || reply.status == 403 ==>
              r.result == Err(Synology("Synology API auth failed: " + call, Some(reply.status))) && r.store.cached.None?
    ensures reply.status != 401 && reply.status != 403 && !IsJsonContent(reply.contentType) ==>
              r.result == Ok(Untouched(reply)) && r.store == st
    ensures reply.status != 401 && reply.status != 403 && IsJsonContent(reply.contentType)
            && reply.body.Envelope? && !reply.body.success ==>
              r.result == Err(Synology("Synology download failed", reply.body.code))
              && (IsAuthCode(reply.body.code) ==> r.store.cached.None?)
              && (!IsAuthCode(reply.body.code) ==> r.store == st)
    ensures reply.status != 401 && reply.status != 403 && IsJsonContent(reply.contentType) && reply.body.FalsyBody? ==>
              r.result == Err(Synology("Synology download failed", None)) && r.store == st
    ensures r.result.Ok? && r.result.value.JsonSuccess? ==> Succeeded(Reply(reply.status, reply.body))
    ensures r.store.loginInProgress == st.loginInProgress
  {
    if reply.status == 401 || reply.status == 403 then
      RawTrace(Err(Synology("Synology API auth failed: " + call, Some(reply.status))), ClearSession(st), true)
    else if !IsJsonContent(reply.contentType) then RawTrace(Ok(Untouched(reply)), st, true)
    else
      match reply.body
      case Unparsable => RawTrace(Err(InvalidJson), st, true)
      case NullBody => RawTrace(Err(Other(Records.PropertyOfNullish)), st, true)
      case FalsyBody => RawTrace(Err(Synology("Synology download failed", None)), st, true)
      case Envelope(success, data, code) =>
        if success then RawTrace(Ok(JsonSuccess(data)), st, true)
        else RawTrace(Err(Synology("Synology download failed", code)), if IsAuthCode(code) then ClearSession(st) else st, true)
  }

  /** `synoCallRaw`: one session acquisition, one request, no retry. */
  function SynoCallRaw(st: Store, now: int, doneAt: int, login: LoginReply, pending: Result<Session>, base: Option<string>,
                       reply: RawReply, call: string): (r: RawTrace)
    ensures r.requested <==> GetOrCreateSession(st, now, doneAt, login, pending).result.Ok? && Present(base)
    ensures !r.requested ==> r.result.Err?
    ensures r.requested ==> r == ClassifyRaw(reply, GetOrCreateSession(st, now, doneAt, login, pending).store, call)
  {
    var acquired := GetOrCreateSession(st, now, doneAt, login, pending);
    if acquired.result.Err? then RawTrace(Err(acquired.result.failure), acquired.store, false)
    else if !Present(base) then RawTrace(Err(MissingBase), acquired.store, false)
    else ClassifyRaw(reply, acquired.store, call)
  }
}

=== FILE: visibility.dfy ===
/**
 * `lib/api/visibility.ts`: the hide policy applied to lists (filters) and to
 * single entries fetched by id (assertions that throw 404 NOT_FOUND, the same
 * shape as a missing entry).
 */
module Visibility {
  import opened Common
  import opened Json
  import opened Seqs
  import opened Errors
  import opened Filtering

  predicate VisibleFolder(entry: Json) {
    !IsHiddenFolderEntry(entry)
  }

  predicate VisibleItem(entry: Json) {
    !HasHideTag(entry)
  }

  /** `assertVisibleFolder`: throws NOT_FOUND exactly for a hidden folder; `message` defaults to "Collection not found". */
  function AssertVisibleFolder(entry: Json, message: Option<string>): (r: Result<()>)
    ensures r.Err? <==> IsHiddenFolderEntry(entry)
    ensures r.Err? ==> r.failure == Api(NotFound(message.GetOr("Collection not found")))
  {
    if IsHiddenFolderEntry(entry) then Err(Api(NotFound(message.GetOr("Collection not found")))) else Ok(())
  }

  /** `assertVisibleItem`: throws NOT_FOUND exactly for a hide-tagged item; `message` defaults to "Item not found". */
  function AssertVisibleItem(entry: Json, message: Option<string>): (r: Result<()>)
    ensures r.Err? <==> HasHideTag(entry)
    ensures r.Err? ==> r.failure == Api(NotFound(message.GetOr("Item not found")))
  {
    if HasHideTag(entry) then Err(Api(NotFound(message.GetOr("Item not found")))) else Ok(())
  }

  /**
   * `filterVisibleFolders`: no hidden folder survives, every visible one does
   * (each occurrence), and the survivors keep their order.
   */
  function FilterVisibleFolders(entries: seq<Json>): (r: seq<Json>)
    ensures forall i :: 0 <= i < |r| ==> !IsHiddenFolderEntry(r[i])
    ensures forall x :: multiset(r)[x] == if IsHiddenFolderEntry(x) then 0 else multiset(entries)[x]
    ensures IsSubseq(r, entries)
  {
    FilterIsSubseq(VisibleFolder, entries);
    FilterCountsAll(VisibleFolder, entries);
    Filter(VisibleFolder, entries)
  }

  /**
   * `filterVisibleItems`: exactly the hide-tagged entries are removed, each
   * occurrence of every other entry is kept, in order.
   */
  function FilterVisibleItems(entries: seq<Json>): (r: seq<Json>)
    ensures forall i :: 0 <= i < |r| ==> !HasHideTag(r[i])
    ensures forall x :: multiset(r)[x] == if HasHideTag(x) then 0 else multiset(entries)[x]
    ensures IsSubseq(r, entries)
  {
    FilterIsSubseq(VisibleItem, entries);
    FilterCountsAll(VisibleItem, entries);
    Filter(VisibleItem, entries)
  }

  /** Filtering an already filtered folder list changes nothing. */
  lemma FilterVisibleFoldersIdempotent(entries: seq<Json>)
    ensures FilterVisibleFolders(FilterVisibleFolders(entries)) == FilterVisibleFolders(entries)
  {
    FilterIdempotent(VisibleFolder, entries);
  }

  /** Filtering an already filtered item list changes nothing. */
  lemma FilterVisibleItemsIdempotent(entries: seq<Json>)
    ensures FilterVisibleItems(FilterVisibleItems(entries)) == FilterVisibleItems(entries)
  {
    FilterIdempotent(VisibleItem, entries);
  }

  /** The single-entry assertion and the list filter agree: an entry passes the assertion iff the filter keeps it. */
  lemma FolderAssertAgreesWithFilter(entry: Json)
    ensures AssertVisibleFolder(entry, None).Ok? <==> FilterVisibleFolders([entry]) == [entry]
  {
    assert multiset(FilterVisibleFolders([entry]))[entry] == if IsHiddenFolderEntry(entry) then 0 else 1;
  }

  lemma ItemAssertAgreesWithFilter(entry: Json)
    ensures AssertVisibleItem(entry, None).Ok? <==> FilterVisibleItems([entry]) == [entry]
  {
    assert multiset(FilterVisibleItems([entry]))[entry] == if HasHideTag(entry) then 0 else 1;
  }
}

=== FILE: visibility_config.dfy ===
/**
 * `lib/api/visibilityConfig.ts`: the visibility mode and the root-folder
 * boundary, read from environment variables. The raw variable values are
 * parameters (`None` when unset).
 */
module VisibilityConfig {
  import opened Common
  import opened Strings

  datatype VisibilityMode = Show | Hide

  /** `getVisibilityMode`: "show" or "hide" after trimming and lower-casing; anything else is the default, hide. */
  function GetVisibilityMode(env: Option<string>): (m: VisibilityMode)
    ensures m == Show <==> env.Some? && Lower(Trim(env.value)) == "show"
  {
    if env.None? then Hide
    else
      var mode := Lower(Trim(env.value));
      if mode == "show" then Show else Hide
  }

  /** `getRootFolderId`: the trimmed value, absent when the variable is unset or blank. */
  function GetRootFolderId(env: Option<string>): (r: Option<string>)
    ensures r.None? <==> env.None? || |Trim(env.value)| == 0
    ensures r.Some? ==> r.value == Trim(env.value) && |r.value| > 0 && NoEdgeSpace(r.value)
  {
    if env.None? then None
    else
      var rootId := Trim(env.value);
      if |rootId| == 0 then None else Some(rootId)
  }

  /** A configured root, written back to the variable, reads back unchanged. */
  lemma RootFolderIdStable(env: Option<string>)
    requires GetRootFolderId(env).Some?
    ensures GetRootFolderId(GetRootFolderId(env)) == GetRootFolderId(env)
  {
    TrimIdempotent(GetRootFolderId(env).value);
  }

  /** `hasRootFolderBoundary`. */
  predicate HasRootFolderBoundary(env: Option<string>) {
    GetRootFolderId(env).Some?
  }
}
